=== FILE: README.md ===
# SCX mesh container reader, modelled in Dafny

This project models the decoding core of a Blender importer for "SCX" mesh
files. An SCX file is the four bytes "INVO", a 32-bit version word, and a
version-specific body.

- **Version 3** stores meshes back to back. Each mesh is a size-prefixed
  material, then a vertex block, then a block of 32-bit triangles. The body
  ends at a material of size 0, or when no more than 4 bytes remain.
- **Version 4** stores a table of (entry type, absolute offset) pairs.
  - Type 0 entries are materials, built from tagged sub-entries.
  - Type 4 entries are vertex blocks. A vertex-type flag word chooses which
    attributes each vertex stores.
  - Type 5 entries are blocks of 16-bit triangles.
  - Type 1 entries mark physics meshes. A one-time latch decides whether
    they open meshes.

The importer also reads a ".tex" sidecar listing texture files, one per
line. It retries the read in UTF-8, then ANSI, then cp1251. It names a
texture after the sidecar entry a map index selects. When the sidecar has no
such entry, it uses a fallback name built from the material name and the
index.

## How the model works

- **Buffer and cursor.** The model works on an in-memory byte sequence
  (`seq<Byte>`). Every reader takes a position and returns the decoded value
  and the next position, or `Truncated(at, wanted)` when too few bytes
  remain. The cursor may pass the end, because seeking never fails. Only
  reads fail.
- **Reference decoders.** Most readers have a reference decoder by
  absolute offset (`MaterialAt`, `VertexAt`, `TableAt`, `MeshStart`, …).
  The contracts relate the cursor-threading readers to these independent
  definitions:
  - exactly when a read succeeds;
  - where it ends;
  - what every decoded element is.
- **Version 4 material blocks** are the exception for contents. Their
  entries are tagged and vary in size. Where each entry starts is given
  by `EntryStart`, which steps over each entry by its tag alone. Exactly
  when a block decodes, and where it ends, is stated against those
  positions (`ReadMaterialEntriesOk`, `ReadMaterialDataOk`). The decoded
  properties are tied to the bytes by an encode-then-decode round trip
  (`ReadEncodedEntries`, `ReadEncodedMaterial`).
- **Floats.** Stored singles are kept as bit patterns. Each conversion the
  importer applies is kept as an expression (`Floats.Float`), and `Eval`
  gives it a meaning over the reals. The laws about scaling, axis swaps,
  the UV flip and colour scaling are stated over `Eval`.

### Modules

| file | module | models |
|---|---|---|
| `results.dfy` | `Results` | `Option`, `Result`, `Parsed`, decoded values, `Somes` |
| `bytes.dfy` | `Bytes` | little-endian reads, fixed-size NUL-terminated strings, repeated reads |
| `floats.dfy` | `Floats` | symbolic floats and the attribute conversions |
| `flags.dfy` | `Flags` | bit-flag tables and their rendered label lists |
| `scx_v4.dfy` | `ScxV4` | version 4 vertex-type flags and material blocks |
| `scx_v4_geometry.dfy` | `ScxV4Geometry` | version 4 vertex and index blocks |
| `scx_v4_scene.dfy` | `ScxV4Scene` | version 4 entry table and mesh grouping |
| `scx_v3.dfy` | `ScxV3` | version 3 material flags and material records |
| `scx_v3_geometry.dfy` | `ScxV3Geometry` | version 3 vertex and index blocks |
| `scx_v3_scene.dfy` | `ScxV3Scene` | version 3 mesh loop |
| `scx_import.dfy` | `ScxImport` | signature check and version dispatch |
| `tex_list.dfy` | `TexList` | the ".tex" sidecar: lines, tokens, marker, encoding fallback |
| `texture_name.dfy` | `TextureName` | texture naming for a map index |

### Behaviour worth noting

- **Unknown version 4 material tags are not an error.** The tag `match`
  in `src/scx_v4.py:58-85` has no default case. An unknown tag's 4 bytes
  are consumed, nothing is set, and the next entry is read right after
  them. `ScxV4.ReadMaterialEntry` models this.
- **Version 3 flag label.** The second version 3 material flag is labelled
  "VecrtexColorBlend" (`src/scx_v3.py:17`). The model keeps that spelling.
- **End of the version 3 mesh loop.** The condition `4 >= EOF - tell()`
  (`src/scx_v3.py:119`) stops the loop when fewer than 4 bytes remain, and
  also when exactly 4 remain. `ScxV3Scene.Continues` follows it.
- **Bad signature or unsupported version.** The code prints a message and
  returns nothing. The model returns `BadSignature` or
  `UnsupportedVersion(v)`.

## Model

| member | source | states |
|---|---|---|
| Bytes.ReadNulTerminated | src/scx_v3.py:68 | a 32-byte name field: succeeds iff 32 bytes remain, yields the bytes before the first NUL, and always advances by 32 |
| Floats.PositionLaw | src/scx_v3.py:86-87 | a stored position (x, y, z) becomes (x/100, -z/100, y/100): scaled down by 100 and axis-swapped |
| Floats.NormalLaw | src/scx_v3.py:88-89 | a stored normal (x, y, z) becomes (x, -z, y), unscaled |
| Floats.UvFlipLaw | src/scx_v3.py:90-91 | u is kept, v becomes 1 - v, and flipping again restores the stored v |
| Floats.UnitLaw | src/scx_v3.py:92 | a colour byte b becomes b/255, which lies in [0, 1] |
| Flags.LabelsMembership | src/scx_v4.py:37-38 | a label is listed iff some row with that label has its mask bit set in the value |
| Flags.LabelsSplit | src/scx_v3.py:29-30 | the label list follows the table order: the labels of a concatenated table are those of each part in turn |
| ScxV4.VertexTypeFlagsIgnoreOtherBits | src/scx_v4.py:15-32 | each of the 13 vertex-type attributes depends only on the bits of its own mask, so bits outside 0x40FFF change none of them |
| ScxV4.VertexTypeTableIgnoresOtherBits | src/scx_v4.py:15-38 | every table row and the rendered label list ignore bits outside the table's masks |
| ScxV4.VertexTypeLabelListed | src/scx_v4.py:37-38 | a vertex-type label appears in the rendered list exactly when its own flag is set |
| ScxV4.VertexTypeFlagsRows | src/scx_v4.py:11-38 | each named vertex-type attribute is the table row that carries its name |
| ScxV4.ReadMaterialMap | src/scx_v4.py:40-47 | a map descriptor succeeds iff 28 bytes remain, yields index, channel, tiling flag, tiling and offset pairs at their offsets, and ends 28 bytes later |
| ScxV4.ReadPayload | src/scx_v4.py:58-85 | a tagged payload succeeds iff its size (4 colour bytes, one single, a 28-byte map or a 32-byte name) fits, and decodes to the reference payload |
| ScxV4.ReadMaterialEntry | src/scx_v4.py:56-85 | an entry succeeds iff its tag and payload fit; a known tag overwrites exactly its own property; an unknown tag changes nothing and takes 4 bytes |
| ScxV4.ReadMaterialEntries | src/scx_v4.py:55-85 | n entries take between 4n and 36n bytes, and never remove a property already set |
| ScxV4.ReadMaterialData | src/scx_v4.py:49-87 | a material block skips 16 bytes, reads the entry count n at offset 16, and its entries take between 4n and 36n bytes; fewer than 20 bytes is a truncation at the count |
| ScxV4.ReadMaterialEntriesOk | src/scx_v4.py:55-85 | n entries decode exactly when each of them, tag and payload, lies inside the data, each entry starting where the previous one ends; the read ends where entry n would start |
| ScxV4.ReadMaterialDataOk | src/scx_v4.py:49-87 | a material block decodes exactly when its count fits and each counted entry from offset 20 on lies inside the data; it ends after the last entry |
| ScxV4.ReadEncodedEntries | src/scx_v4.py:55-85 | n encoded entries read back as exactly those entries applied in order, ending after their encoded size |
| ScxV4.ReadEncodedMaterial | src/scx_v4.py:49-87 | round trip: a block laid out as 16 bytes, a count and encoded entries decodes to those entries applied to an empty material |
| ScxV4.ApplyEntriesSnoc | src/scx_v4.py:58-85 | entries apply in order, so of two entries setting one property the later one wins |
| ScxV4.ApplyEntriesKeys | src/scx_v4.py:58-85 | a property is set iff it was set before or some entry's tag selects it |
| ScxV4Geometry.ReadVertex | src/scx_v4.py:115-142 | one vertex succeeds iff its attributes fit, equals the reference vertex at that offset, and advances by the layout's stride |
| ScxV4Geometry.ReadVerticesOk | src/scx_v4.py:114-142 | n vertices succeed iff n is 0 or the last one fits, and then end n strides later |
| ScxV4Geometry.ReadVerticesAt | src/scx_v4.py:114-142 | vertex i of a run is the reference vertex at the start plus i strides |
| ScxV4Geometry.GatherShaped | src/scx_v4.py:96-142 | each attribute list holds one entry per vertex when its flag is set and none otherwise, entry i being vertex i's attribute |
| ScxV4Geometry.ReadVertexDataOk | src/scx_v4.py:89-144 | a vertex block succeeds iff its 16-byte header and its last vertex fit, and then occupies 16 + count * stride bytes |
| ScxV4Geometry.ReadVertexDataLengths | src/scx_v4.py:96-142 | each of the seven attribute lists has count entries when its flag is set, else none |
| ScxV4Geometry.ReadVertexDataAt | src/scx_v4.py:114-142 | entry i of each kept attribute list is that attribute of the reference vertex i |
| ScxV4Geometry.ReadIndicesData | src/scx_v4.py:146-155 | an index block yields floor(count / 3) triangles, count being read at offset 8 |
| ScxV4Geometry.ReadIndicesDataOk | src/scx_v4.py:146-155 | an index block succeeds iff the header and floor(count / 3) 6-byte triangles fit, and then ends right after them |
| ScxV4Geometry.ReadIndicesDataAt | src/scx_v4.py:152-153 | triangle i is the three 16-bit indices at offset 12 + 6i |
| ScxV4Scene.ReadEntryData | src/scx_v4.py:178-183 | an entry's data is read only for types 0, 4 and 5, as a material, a vertex block or an index block at the entry's offset, and fails exactly when that read fails |
| ScxV4Scene.Attach | src/scx_v4.py:171-183 | one table entry sets the latch on a type-1 entry while no mesh exists. Type 0 appends a new mesh holding just the material. A latched type 1 appends an empty mesh, and an unlatched one changes nothing. Both keep every earlier mesh. Types 4 and 5 replace only the vertex or face part of the last mesh and keep its other parts. The entry fails with the data's own error or, for readable vertex and index data, with NoActiveMesh before any mesh. Other types change nothing |
| ScxV4Scene.ReadEntry | src/scx_v4.py:165-166 | a table row succeeds iff 8 bytes remain and yields the type and offset words |
| ScxV4Scene.Scan | src/scx_v4.py:164-185 | each row is read, its data read at the row's offset, and the cursor sought back to just after the row, so a table that decodes leaves the cursor 8 bytes per row past its start |
| ScxV4Scene.ScanIsGroup | src/scx_v4.py:164-185 | reading the table row by row while applying it gives the same state, or the same error, as applying the stored table in order |
| ScxV4Scene.ScanFailsWithTable | src/scx_v4.py:164-166 | a table that runs past the end of the data fails the decode |
| ScxV4Scene.ReadScxDataIsGroup | src/scx_v4.py:157-187 | the body decodes iff its table fits and applying it from no meshes succeeds, and then yields exactly those meshes |
| ScxV4Scene.GroupCount | src/scx_v4.py:171-176 | the latch ends set iff it was set or the first opening entry has type 1; meshes grow by the type-0 entries plus, when latched, the type-1 entries |
| ScxV4Scene.MeshCount | src/scx_v4.py:160-176 | a whole file has as many meshes as type-0 entries, plus the type-1 entries when its first opening entry has type 1 |
| ScxV4Scene.GroupIgnoresIrrelevant | src/scx_v4.py:174-183 | dropping entries of types other than 0, 1, 4 and 5 leaves the result unchanged |
| ScxV4Scene.GroupKeepsOpened | src/scx_v4.py:174-183 | over any run of entries, a mesh that is no longer the last is never changed again. A mesh's material stays as it was when the mesh opened: later vertex and index blocks do not disturb it |
| ScxV4Scene.GeometryFirstFails | src/scx_v4.py:178-183 | a vertex or index entry before any type-0 or type-1 entry fails the decode |
| ScxV3.MaterialFlagsIgnoreOtherBits | src/scx_v3.py:15-24 | each of the 5 material flags depends only on its own mask, so bits outside 0x1143 change none of them |
| ScxV3.MaterialFlagTableIgnoresOtherBits | src/scx_v3.py:15-30 | every table row and the rendered label list ignore bits outside the table's masks |
| ScxV3.MaterialLabelListed | src/scx_v3.py:29-30 | a material-flag label appears in the rendered list exactly when its own flag is set |
| ScxV3.MaterialFlagsRows | src/scx_v3.py:11-30 | each named material flag is the table row that carries its name |
| ScxV3.ReadSurface | src/scx_v3.py:41-53 | the 52-byte surface part succeeds iff its 50 read bytes fit and equals the reference decode: 4 diffuse singles, 3 specular singles, intensity, glossiness, flags and 5 map indices |
| ScxV3.ReadExtension | src/scx_v3.py:56-65 | the 48-byte extension succeeds iff it fits and equals the reference decode at its offsets, gaps skipped |
| ScxV3.ReadMaterial | src/scx_v3.py:32-70 | a material succeeds iff its size word and its size band's fields fit; size 0 yields none after 4 bytes; otherwise it equals the reference material and advances by 56, 104 or 136 bytes by size band |
| ScxV3.MaterialShape | src/scx_v3.py:40-68 | a decoded material has a non-zero size, an extension iff size > 56, a name iff size > 104, 4 diffuse and 3 specular components |
| ScxV3Geometry.ReadVertex | src/scx_v3.py:86-97 | one vertex succeeds iff its read bytes fit, equals the reference vertex, and advances by 64 bytes when the material size exceeds 56, else 44 |
| ScxV3Geometry.ReadVertexDataOk | src/scx_v3.py:72-99 | a vertex block succeeds iff its count and its last vertex's read bytes fit, and then ends count strides after the count |
| ScxV3Geometry.ReadVertexDataLengths | src/scx_v3.py:75-96 | positions, normals, both UV sets and colours have count entries; UV3 has count entries when the material size exceeds 56, else none |
| ScxV3Geometry.ReadVertexDataAt | src/scx_v3.py:85-96 | entry i of every list is that attribute of the reference vertex at 4 + i strides, UV3 included for wide records |
| ScxV3Geometry.ReadIndicesDataOk | src/scx_v3.py:101-109 | an index block succeeds iff its count and count 12-byte triangles fit, and then ends right after them |
| ScxV3Geometry.ReadIndicesDataAt | src/scx_v3.py:106-107 | triangle i is the three 32-bit indices at offset 4 + 12i |
| ScxV3Scene.ReadMesh | src/scx_v3.py:122-127 | a mesh read yields none exactly when the material size is 0 |
| ScxV3Scene.ReadMeshAt | src/scx_v3.py:122-129 | a mesh's vertex block is read right after its material record, and its index block right after the vertex block. The mesh ends after its last triangle |
| ScxV3Scene.ReadMeshOk | src/scx_v3.py:122-128 | a mesh fails exactly when its material fails, or, after a non-zero size, when its vertex block or index block fails |
| ScxV3Scene.ReadMeshesDrop | src/scx_v3.py:117-129 | after k meshes, the loop goes on exactly as a loop started at the k-th boundary |
| ScxV3Scene.ReadMeshSpan | src/scx_v3.py:122-127 | an end marker takes 4 bytes and a mesh at least 64 |
| ScxV3Scene.ReadMeshMaterial | src/scx_v3.py:122-126 | a mesh's material is the reference material stored where it starts |
| ScxV3Scene.ReadMeshesAt | src/scx_v3.py:117-129 | mesh k of the loop is the mesh stored at the k-th boundary, each mesh starting where the previous one ends, so meshes come out in stream order |
| ScxV3Scene.ReadMeshesParts | src/scx_v3.py:119-129 | mesh k's material is the reference material at the k-th boundary. Its vertex and index blocks are the ones stored after that material |
| ScxV3Scene.ReadMeshesNone | src/scx_v3.py:117-131 | standing at a position, the loop yields no mesh exactly when no more than 4 bytes remain there (it returns nothing and stays put) or the size word there is 0 (it returns nothing and steps over the marker); a mesh that fails to decode fails the loop |
| ScxV3Scene.ReadMeshesEnd | src/scx_v3.py:117-131 | after its last mesh, at the boundary where mesh K would start, the loop stops: either no more than 4 bytes remain there and it ends there, or a size-0 word is stored there and it ends 4 bytes later |
| ScxV3Scene.ReadMeshesOk | src/scx_v3.py:117-131 | the loop decodes exactly K meshes exactly when a mesh is read at each of the first K boundaries and the loop stops at boundary K, so a body without an end marker still decodes |
| ScxV3Scene.ReadMeshesSpan | src/scx_v3.py:119-129 | each mesh read takes at least 64 bytes |
| ScxV3Scene.ReadMeshesConsistent | src/scx_v3.py:119-129 | every decoded mesh has a consistent material and vertex lists of the vertex count, with UV3 exactly for wide records |
| ScxV3Scene.ReadMeshesFirst | src/scx_v3.py:119-126 | the first mesh's material is the reference material at the start of the body |
| ScxImport.ReadScxData | src/scx_import.py:47-61 | a file fails with BadSignature unless it starts with "INVO", then with UnsupportedVersion unless its version is 3 or 4, and decodes as version 3 exactly when the version word is 3 |
| ScxImport.DispatchV3 | src/scx_import.py:54-56 | a version 3 file decodes exactly as the version 3 mesh loop reads its body from offset 8, errors included |
| ScxImport.DispatchV4 | src/scx_import.py:57-58 | a version 4 file decodes exactly as the version 4 entry table reads its body from offset 8, errors included |
| ScxImport.ForeignSignature | src/scx_import.py:49-52 | any four bytes other than "INVO" reject the file, whatever follows |
| TexList.UniversalLines | src/scx_import.py:21-22 | after text-mode newline translation, the lines are exactly those of the original text split at each "\r\n", lone "\r" and "\n". Every other character is kept in place |
| TexList.UniversalKeeps | src/scx_import.py:21 | text before the first carriage return passes through translation unchanged |
| TexList.SplitLines | src/scx_import.py:22 | the lines concatenate back to the text, and every line but the last ends in a newline |
| TexList.FirstTokenNone | src/scx_import.py:23-26 | a line gives no token exactly when it is all whitespace |
| TexList.FirstTokenSome | src/scx_import.py:23-28 | the token is non-empty, holds no whitespace, follows only whitespace and is followed by whitespace or the end |
| TexList.StripKeepsFirstToken | src/scx_import.py:23 | stripping "\r" and "\n" from both ends never changes the first token |
| TexList.FindMarker | src/scx_import.py:30 | the marker search returns the first occurrence of ">>>>>" |
| TexList.AfterMarkerSpec | src/scx_import.py:30-34 | the name is the token when it has no marker, else what follows the first marker |
| TexList.ParseLines | src/scx_import.py:22-36 | one name per line, in order, up to the first line that gives none |
| TexList.LineNameNone | src/scx_import.py:23-26 | a line ends the list exactly when it is all whitespace |
| TexList.LineNameNoSpace | src/scx_import.py:23-34 | a listed name holds no whitespace |
| TexList.ParseLinesStopsAtBlank | src/scx_import.py:25-26 | lines after the first blank line never change the list |
| TexList.FirstDecoding | src/scx_import.py:37-43 | the first encoding in the order that decodes, and none only when all fail |
| TexList.ReadTexListFallback | src/scx_import.py:15-45 | the list is read from the first of UTF-8, ANSI and cp1251 that decodes; it is empty when none does or the sidecar is missing |
| TextureName.Hex8 | src/scx_v4.py:190 | the index formatted as exactly 8 hexadecimal digits that parse back to the index |
| TextureName.FallbackNameShape | src/scx_v4.py:190 | the fallback name is the lower-cased material name, "_0x", and 8 lower-case digits that parse back to the index |
| TextureName.TextureName | src/scx_v4.py:189-195 | the stem of sidecar entry `index` when the sidecar has that many entries, else the fallback name |

## Left out

- Building Blender objects, meshes, materials and images is left out. This
  covers `build_mesh`, `get_material`, the image lookup in
  `get_material_texture`, `setup_flags`, the `import_scx` orchestration and
  the operator UI. It is scene construction, not decoding.
- File I/O is left out. The model decodes an in-memory buffer. Whether the
  ".tex" sidecar exists (`isFile`) and the decoding of its bytes in a given
  encoding (`decode`) are parameters of `TexList.ReadTexList`.
- The internals of the binary reader class are not part of this model. A
  short read is modelled as `Truncated(at, wanted)`. A seek never fails, and
  a cursor past the end fails on the next read.
- IEEE-754 decoding and float arithmetic are left out. Singles stay as bit
  patterns, and conversions are symbolic (`Floats.Float`).
- Text decoding of the signature and of 32-byte names is left out.
  - The signature is compared byte for byte with "INVO".
  - A name is kept as the raw bytes before the first NUL.
- Taking a path's stem is a parameter (`stem`) of `TextureName.TextureName`.
- TextureName.FallbackNameShape: lower-casing is ASCII only. Python's
  `lower()` also maps non-ASCII letters in material names.
- Version 4 bone weights, bone index references and bump-map normals are
  skipped to keep the cursor aligned. The source keeps empty lists for them
  that it never fills, so they are not fields of the model's vertex block.
- The diagnostic messages printed for a foreign signature or an unsupported
  version are left out. These cases are returned as errors.
- TexList.ReadTexListFallback: an I/O error other than a decoding failure
  is not modelled, for example an encoding name the platform lacks. Only
  the `UnicodeDecodeError` path is.

=== FILE: bytes.dfy ===
/** The byte cursor every decoder reads through: an immutable buffer and a
    position into it. Scalars are little-endian. A read fails with
    `Truncated` when fewer bytes remain than it needs; moving the cursor
    (a relative skip or an absolute seek) never fails, and may leave it past
    the end, where the next read fails. */
module Bytes {
  import opened Results

  type Byte = x: int | 0 <= x < 0x100
  type U16 = x: int | 0 <= x < 0x1_0000
  type U32 = x: int | 0 <= x < 0x1_0000_0000

  /** Why a decode stopped. `BadSignature` and `UnsupportedVersion` mean
      "not a file this reader handles"; the others abort a decode. */
  datatype Error =
    | Truncated(at: nat, wanted: nat)  // a read of `wanted` bytes at `at` ran past the end
    | NoActiveMesh(offset: U32)        // a v4 vertex or index entry (data at `offset`) came before any mesh
    | BadSignature
    | UnsupportedVersion(version: U32)

  /** Three vertex indices, in stored order. */
  datatype Triangle = Triangle(a: U32, b: U32, c: U32)

  /** A decoded value together with the cursor position after it. */
  datatype Parsed<+T> = Parsed(value: T, next: nat)

  type Decoded<T> = Result<Parsed<T>, Error>

  function Pow256(k: nat): (r: nat)
    ensures r > 0
  {
    if k == 0 then 1 else 0x100 * Pow256(k - 1)
  }

  lemma Pow256Values()
    ensures Pow256(2) == 0x1_0000
    ensures Pow256(4) == 0x1_0000_0000
  {
    assert Pow256(1) == 0x100;
    assert Pow256(3) == 0x100_0000;
  }

  /** The unsigned number whose little-endian encoding is `bs`. */
  function LittleEndian(bs: seq<Byte>): (n: nat)
    ensures n < Pow256(|bs|)
  {
    if |bs| == 0 then 0 else bs[0] + 0x100 * LittleEndian(bs[1..])
  }

  /** The `k`-byte little-endian encoding of `n` (its low `k` bytes). */
  function LittleEndianBytes(n: nat, k: nat): (bs: seq<Byte>)
    ensures |bs| == k
  {
    if k == 0 then [] else [n % 0x100] + LittleEndianBytes(n / 0x100, k - 1)
  }

  /** Encoding a number that fits in `k` bytes and decoding it gives it back. */
  lemma {:induction false} LittleEndianOfBytes(n: nat, k: nat)
    requires n < Pow256(k)
    ensures LittleEndian(LittleEndianBytes(n, k)) == n
  {
    if k > 0 {
      LittleEndianOfBytes(n / 0x100, k - 1);
      assert LittleEndianBytes(n, k)[1..] == LittleEndianBytes(n / 0x100, k - 1);
    }
  }

  /** Decoding `bs` and encoding the number in as many bytes gives `bs` back. */
  lemma {:induction false} BytesOfLittleEndian(bs: seq<Byte>)
    ensures LittleEndianBytes(LittleEndian(bs), |bs|) == bs
  {
    if |bs| > 0 {
      var n := LittleEndian(bs);
      assert n % 0x100 == bs[0] && n / 0x100 == LittleEndian(bs[1..]);
      BytesOfLittleEndian(bs[1..]);
    }
  }

  /** The unsigned 16-bit value stored little-endian at `at` (no cursor involved). */
  function HalfAt(buf: seq<Byte>, at: nat): U16
    requires at + 2 <= |buf|
  {
    buf[at] as int + 0x100 * buf[at + 1] as int
  }

  /** The unsigned 32-bit value stored little-endian at `at` (no cursor involved). */
  function WordAt(buf: seq<Byte>, at: nat): U32
    requires at + 4 <= |buf|
  {
    buf[at] as int + 0x100 * buf[at + 1] as int + 0x1_0000 * buf[at + 2] as int + 0x100_0000 * buf[at + 3] as int
  }

  /** Both are the little-endian numbers of their bytes. */
  lemma HalfAtLittleEndian(buf: seq<Byte>, at: nat)
    requires at + 2 <= |buf|
    ensures HalfAt(buf, at) == LittleEndian(buf[at..at + 2])
  {
    var bs := buf[at..at + 2];
    assert bs[1..][1..] == [];
    assert LittleEndian(bs[1..]) == bs[1];
  }

  lemma WordAtLittleEndian(buf: seq<Byte>, at: nat)
    requires at + 4 <= |buf|
    ensures WordAt(buf, at) == LittleEndian(buf[at..at + 4])
  {
    var bs := buf[at..at + 4];
    assert bs[3..][1..] == [];
    assert LittleEndian(bs[3..]) == bs[3];
    assert bs[2..][1..] == bs[3..];
    assert LittleEndian(bs[2..]) == bs[2] as int + 0x100 * bs[3] as int;
    assert bs[1..][1..] == bs[2..];
    assert LittleEndian(bs[1..]) == bs[1] as int + 0x100 * bs[2] as int + 0x1_0000 * bs[3] as int;
  }

  /** The `k` raw bytes at the cursor. */
  function Take(buf: seq<Byte>, pos: nat, k: nat): Decoded<seq<Byte>>
  {
    if pos + k <= |buf| then Ok(Parsed(buf[pos..pos + k], pos + k)) else Err(Truncated(pos, k))
  }

  function ReadU8(buf: seq<Byte>, pos: nat): (r: Decoded<Byte>)
    ensures r.Ok? <==> pos < |buf|
    ensures r.Ok? ==> r.value == Parsed(buf[pos], pos + 1)
    ensures r.Err? ==> r.error == Truncated(pos, 1)
  {
    if pos < |buf| then Ok(Parsed(buf[pos], pos + 1)) else Err(Truncated(pos, 1))
  }

  function ReadU16(buf: seq<Byte>, pos: nat): (r: Decoded<U16>)
    ensures r.Ok? <==> pos + 2 <= |buf|
    ensures r.Ok? ==> r.value.next == pos + 2 && r.value.value == HalfAt(buf, pos)
    ensures r.Err? ==> r.error == Truncated(pos, 2)
  {
    if pos + 2 <= |buf| then Ok(Parsed(HalfAt(buf, pos), pos + 2)) else Err(Truncated(pos, 2))
  }

  function ReadU32(buf: seq<Byte>, pos: nat): (r: Decoded<U32>)
    ensures r.Ok? <==> pos + 4 <= |buf|
    ensures r.Ok? ==> r.value.next == pos + 4 && r.value.value == WordAt(buf, pos)
    ensures r.Err? ==> r.error == Truncated(pos, 4)
  {
    if pos + 4 <= |buf| then Ok(Parsed(WordAt(buf, pos), pos + 4)) else Err(Truncated(pos, 4))
  }

  /** The bytes of `bs` before its first zero byte (all of `bs` if it has none). */
  function UntilNul(bs: seq<Byte>): (r: seq<Byte>)
    ensures r <= bs
    ensures 0 !in r
    ensures |r| < |bs| ==> bs[|r|] == 0
  {
    if |bs| == 0 || bs[0] == 0 then [] else [bs[0]] + UntilNul(bs[1..])
  }

  /** A fixed-size text field: exactly `k` bytes are consumed, and the value
      is the part before the first zero byte. The text decoding of those
      bytes is not modelled. */
  function ReadNulTerminated(buf: seq<Byte>, pos: nat, k: nat): (r: Decoded<seq<Byte>>)
    ensures r.Ok? <==> pos + k <= |buf|
    ensures r.Ok? ==> r.value == Parsed(UntilNul(buf[pos..pos + k]), pos + k)
    ensures r.Err? ==> r.error == Truncated(pos, k)
  {
    var b :- Take(buf, pos, k);
    Ok(Parsed(UntilNul(b.value), b.next))
  }

  /** Reading `bs` back at the place it was written. */
  lemma SliceOfConcat(buf: seq<Byte>, pos: nat, a: seq<Byte>, b: seq<Byte>)
    requires pos + |a| + |b| <= |buf|
    requires buf[pos..pos + |a| + |b|] == a + b
    ensures buf[pos..pos + |a|] == a
    ensures buf[pos + |a|..pos + |a| + |b|] == b
  {
    assert buf[pos..pos + |a|] == (a + b)[..|a|];
    assert buf[pos + |a|..pos + |a| + |b|] == (a + b)[|a|..];
  }

  lemma SliceOfTriple(buf: seq<Byte>, pos: nat, a: seq<Byte>, b: seq<Byte>, c: seq<Byte>)
    requires pos + |a| + |b| + |c| <= |buf|
    requires buf[pos..pos + |a| + |b| + |c|] == a + (b + c)
    ensures buf[pos..pos + |a|] == a
    ensures buf[pos + |a|..pos + |a| + |b|] == b
    ensures buf[pos + |a| + |b|..pos + |a| + |b| + |c|] == c
  {
    SliceOfConcat(buf, pos, a, b + c);
    SliceOfConcat(buf, pos + |a|, b, c);
  }

  /** A value written as its little-endian bytes reads back as itself, and
      the bytes of a stored value are its little-endian encoding. */
  lemma WordAtOfBytes(buf: seq<Byte>, at: nat, v: U32)
    requires at + 4 <= |buf| && buf[at..at + 4] == LittleEndianBytes(v, 4)
    ensures WordAt(buf, at) == v
  {
    Pow256Values();
    LittleEndianOfBytes(v, 4);
    WordAtLittleEndian(buf, at);
  }

  lemma HalfAtOfBytes(buf: seq<Byte>, at: nat, v: U16)
    requires at + 2 <= |buf| && buf[at..at + 2] == LittleEndianBytes(v, 2)
    ensures HalfAt(buf, at) == v
  {
    Pow256Values();
    LittleEndianOfBytes(v, 2);
    HalfAtLittleEndian(buf, at);
  }

  lemma BytesOfWordAt(buf: seq<Byte>, at: nat)
    requires at + 4 <= |buf|
    ensures LittleEndianBytes(WordAt(buf, at), 4) == buf[at..at + 4]
  {
    WordAtLittleEndian(buf, at);
    BytesOfLittleEndian(buf[at..at + 4]);
  }

  lemma BytesOfHalfAt(buf: seq<Byte>, at: nat)
    requires at + 2 <= |buf|
    ensures LittleEndianBytes(HalfAt(buf, at), 2) == buf[at..at + 2]
  {
    HalfAtLittleEndian(buf, at);
    BytesOfLittleEndian(buf[at..at + 2]);
  }

  // ---------------------------------------------------------------------
  // Fixed-size records read one after another

  /** `n` strides of `s` bytes: `n * s`, built up one stride at a time. */
  function Span(n: nat, s: nat): nat
  {
    if n == 0 then 0 else s + Span(n - 1, s)
  }

  lemma {:induction false} SpanIsProduct(n: nat, s: nat)
    ensures Span(n, s) == n * s
  {
    if n > 0 {
      SpanIsProduct(n - 1, s);
      assert n * s == s + (n - 1) * s;
    }
  }

  lemma {:induction false} SpanMonotone(i: nat, n: nat, s: nat)
    requires i <= n
    ensures Span(i, s) <= Span(n, s)
    decreases n
  {
    if i < n {
      SpanMonotone(i, n - 1, s);
    }
  }

  /** `n` records read by `read` one after another from `pos`, each from
      where the previous one ended; the first failing read aborts. */
  function Repeat<T>(read: nat -> Decoded<T>, pos: nat, n: nat): (r: Decoded<seq<T>>)
    ensures r.Ok? ==> |r.value.value| == n
    decreases n
  {
    if n == 0 then Ok(Parsed([], pos))
    else
      var x :- read(pos);
      var rest :- Repeat(read, x.next, n - 1);
      Ok(Parsed([x.value] + rest.value, rest.next))
  }

  /** Every successful read consumes exactly `stride` bytes. */
  ghost predicate Strided<T>(read: nat -> Decoded<T>, stride: nat)
  {
    forall p: nat :: read(p).Ok? ==> read(p).value.next == p + stride
  }

  /** Every failing read reports a truncation. */
  ghost predicate FailsTruncated<T>(read: nat -> Decoded<T>)
  {
    forall p: nat :: read(p).Err? ==> read(p).error.Truncated?
  }

  /** A run of `n > 0` records is the first record followed by a run of
      `n - 1` from where it ended. */
  lemma RepeatStep<T>(read: nat -> Decoded<T>, pos: nat, n: nat)
    requires n > 0 && read(pos).Ok?
    ensures Repeat(read, pos, n).Ok? == Repeat(read, read(pos).value.next, n - 1).Ok?
    ensures Repeat(read, pos, n).Ok? ==>
              Repeat(read, pos, n).value.value == [read(pos).value.value] + Repeat(read, read(pos).value.next, n - 1).value.value
    ensures Repeat(read, pos, n).Ok? ==>
              Repeat(read, pos, n).value.next == Repeat(read, read(pos).value.next, n - 1).value.next
  {
  }

  /** Record `i` of a run of fixed-size records is the one `i` strides on. */
  lemma {:induction false} RepeatAt<T>(read: nat -> Decoded<T>, stride: nat, pos: nat, n: nat, i: nat)
    requires Strided(read, stride) && Repeat(read, pos, n).Ok? && i < n
    ensures read(pos + Span(i, stride)).Ok?
    ensures Repeat(read, pos, n).value.value[i] == read(pos + Span(i, stride)).value.value
    decreases i
  {
    RepeatStep(read, pos, n);
    if i > 0 {
      RepeatAt(read, stride, pos + stride, n - 1, i - 1);
      assert pos + Span(i, stride) == pos + stride + Span(i - 1, stride);
    }
  }

  /** A run of fixed-size records ends `n` strides on. */
  lemma {:induction false} RepeatNext<T>(read: nat -> Decoded<T>, stride: nat, pos: nat, n: nat)
    requires Strided(read, stride) && Repeat(read, pos, n).Ok?
    ensures Repeat(read, pos, n).value.next == pos + Span(n, stride)
    decreases n
  {
    if n > 0 {
      RepeatStep(read, pos, n);
      RepeatNext(read, stride, pos + stride, n - 1);
    }
  }

  /** A run of fixed-size records succeeds when every record, read at its
      own offset, does. */
  lemma {:induction false} RepeatOk<T>(read: nat -> Decoded<T>, stride: nat, pos: nat, n: nat)
    requires Strided(read, stride)
    requires forall i :: 0 <= i < n ==> read(pos + Span(i, stride)).Ok?
    ensures Repeat(read, pos, n).Ok?
    decreases n
  {
    if n > 0 {
      assert read(pos + Span(0, stride)).Ok?;
      forall j | 0 <= j < n - 1
        ensures read(pos + stride + Span(j, stride)).Ok?
      {
        assert read(pos + Span(j + 1, stride)).Ok?;
      }
      RepeatOk(read, stride, pos + stride, n - 1);
      RepeatStep(read, pos, n);
    }
  }

  lemma {:induction false} RepeatFailsTruncated<T>(read: nat -> Decoded<T>, pos: nat, n: nat)
    requires FailsTruncated(read)
    ensures Repeat(read, pos, n).Err? ==> Repeat(read, pos, n).error.Truncated?
    decreases n
  {
    if n > 0 && read(pos).Ok? {
      RepeatFailsTruncated(read, read(pos).value.next, n - 1);
    }
  }

  /** Every read at `p` succeeds exactly when `stride` bytes from `p` lie
      before `limit`. */
  ghost predicate Sized<T>(read: nat -> Decoded<T>, stride: nat, limit: nat)
  {
    forall p: nat :: read(p).Ok? <==> p + stride <= limit
  }

  /** A run of fixed-size records whose reads fail only at the end of the
      data succeeds exactly when the whole run lies before that end. */
  lemma {:induction false} RepeatSizedOk<T>(read: nat -> Decoded<T>, stride: nat, limit: nat, pos: nat, n: nat)
    requires Strided(read, stride) && Sized(read, stride, limit)
    ensures Repeat(read, pos, n).Ok? <==> n == 0 || pos + Span(n, stride) <= limit
    decreases n
  {
    if n > 0 {
      if read(pos).Ok? {
        RepeatStep(read, pos, n);
        RepeatSizedOk(read, stride, limit, pos + stride, n - 1);
      } else {
        assert Span(n, stride) == stride + Span(n - 1, stride);
      }
    }
  }

  /** `pos` moved on `k` times by `step`. */
  function Iterate(step: nat -> nat, pos: nat, k: nat): nat
    decreases k
  {
    if k == 0 then pos else Iterate(step, step(pos), k - 1)
  }

  /** Whether `run` describes a loop that, having produced an element at
      `p`, produces the rest from `step(p)` on. */
  ghost predicate Shifts<T>(run: nat -> Option<seq<T>>, step: nat -> nat)
  {
    forall p: nat :: run(p).Some? && |run(p).value| > 0 ==>
      run(step(p)).Some? && run(p).value[1..] == run(step(p)).value
  }

  /** Such a loop, past its first `k` elements, is the loop started `k`
      steps on. */
  lemma {:induction false} DropIterate<T>(run: nat -> Option<seq<T>>, step: nat -> nat, pos: nat, k: nat)
    requires Shifts(run, step) && run(pos).Some? && k <= |run(pos).value|
    ensures run(Iterate(step, pos, k)).Some?
    ensures run(pos).value[k..] == run(Iterate(step, pos, k)).value
    decreases k
  {
    if k > 0 {
      var xs := run(pos).value;
      DropIterate(run, step, step(pos), k - 1);
      assert xs[k..] == xs[1..][k - 1..];
    }
  }

  /** Whether `end` tells where the loop `run` finishes, the same from
      every element it produces as from the one after. */
  ghost predicate KeepsEnd<T>(run: nat -> Option<seq<T>>, step: nat -> nat, end: nat -> nat)
  {
    forall p: nat :: run(p).Some? && |run(p).value| > 0 ==> end(step(p)) == end(p)
  }

  /** Such a loop finishes where the loop started `k` steps on finishes. */
  lemma {:induction false} DropIterateEnd<T>(run: nat -> Option<seq<T>>, step: nat -> nat, end: nat -> nat, pos: nat, k: nat)
    requires Shifts(run, step) && KeepsEnd(run, step, end) && run(pos).Some? && k <= |run(pos).value|
    ensures end(Iterate(step, pos, k)) == end(pos)
    decreases k
  {
    if k > 0 {
      DropIterateEnd(run, step, end, step(pos), k - 1);
    }
  }

  /** Whether `run` describes a loop that, wherever `emits` holds,
      produces one element and then goes on from `step(p)`. */
  ghost predicate Grows<T>(run: nat -> Option<seq<T>>, step: nat -> nat, emits: nat -> bool)
  {
    forall p: nat :: emits(p) && run(step(p)).Some? ==>
      run(p).Some? && |run(p).value| == 1 + |run(step(p)).value|
  }

  /** Such a loop, yielding at each of the first `k` steps, produces `k`
      elements more than the loop started `k` steps on. */
  lemma {:induction false} BuildIterate<T>(run: nat -> Option<seq<T>>, step: nat -> nat, emits: nat -> bool, pos: nat, k: nat)
    requires Grows(run, step, emits)
    requires forall i: nat :: i < k ==> emits(Iterate(step, pos, i))
    requires run(Iterate(step, pos, k)).Some?
    ensures run(pos).Some? && |run(pos).value| == k + |run(Iterate(step, pos, k)).value|
    decreases k
  {
    if k > 0 {
      forall i: nat | i < k - 1
        ensures emits(Iterate(step, step(pos), i))
      {
        assert Iterate(step, pos, i + 1) == Iterate(step, step(pos), i);
      }
      BuildIterate(run, step, emits, step(pos), k - 1);
      assert emits(Iterate(step, pos, 0));
    }
  }
}

=== FILE: flags.dfy ===
/** Bit-mask flag sets: a fixed, ordered table of (name, mask) rows read
    against one stored 32-bit value. A name is set when its mask shares a
    bit with the value. Both format versions instantiate it with their own
    table (material flags in v3, vertex-type flags in v4). */
module Flags {
  datatype Flag = Flag(name: string, mask: bv32)

  /** Whether `mask` shares a bit with the stored value. */
  predicate Hit(value: bv32, mask: bv32)
  {
    value & mask != 0
  }

  /** The labels of the table rows whose masks hit, in table order. */
  function Labels(table: seq<Flag>, value: bv32): (r: seq<string>)
    ensures |r| <= |table|
  {
    if |table| == 0 then []
    else (if Hit(value, table[0].mask) then [table[0].name] else []) + Labels(table[1..], value)
  }

  /** `xs` separated by `sep`. */
  function Join(xs: seq<string>, sep: string): string
  {
    if |xs| == 0 then ""
    else if |xs| == 1 then xs[0]
    else xs[0] + sep + Join(xs[1..], sep)
  }

  /** The diagnostic text of a flag set: the set labels joined by " | ",
      between "< " and " >". */
  function Render(table: seq<Flag>, value: bv32): string
  {
    "< " + Join(Labels(table, value), " | ") + " >"
  }

  /** Listing is order-preserving: the labels of a split table are the
      labels of its first part followed by those of its second. */
  lemma {:induction false} LabelsSplit(a: seq<Flag>, b: seq<Flag>, value: bv32)
    ensures Labels(a + b, value) == Labels(a, value) + Labels(b, value)
  {
    if |a| > 0 {
      assert (a + b)[0] == a[0];
      assert (a + b)[1..] == a[1..] + b;
      LabelsSplit(a[1..], b, value);
    } else {
      assert a + b == b;
    }
  }

  /** A name is listed exactly when some row carrying it hits. */
  lemma {:induction false} LabelsMembership(table: seq<Flag>, value: bv32, name: string)
    ensures name in Labels(table, value) <==>
            exists i :: 0 <= i < |table| && table[i].name == name && Hit(value, table[i].mask)
  {
    if |table| > 0 {
      LabelsMembership(table[1..], value, name);
      if name in Labels(table[1..], value) {
        var i :| 0 <= i < |table[1..]| && table[1..][i].name == name && Hit(value, table[1..][i].mask);
        assert table[i + 1] == table[1..][i];
      }
      if exists i :: 0 <= i < |table| && table[i].name == name && Hit(value, table[i].mask) {
        var i :| 0 <= i < |table| && table[i].name == name && Hit(value, table[i].mask);
        if i > 0 {
          assert table[1..][i - 1] == table[i];
        }
      }
    }
  }

  /** Only whether each row hits matters: two values that hit the same rows
      list the same labels. */
  lemma {:induction false} LabelsIgnoreOtherBits(table: seq<Flag>, v: bv32, w: bv32)
    requires forall i :: 0 <= i < |table| ==> Hit(v, table[i].mask) == Hit(w, table[i].mask)
    ensures Labels(table, v) == Labels(table, w)
  {
    if |table| > 0 {
      assert Hit(v, table[0].mask) == Hit(w, table[0].mask);
      forall i | 0 <= i < |table[1..]|
        ensures Hit(v, table[1..][i].mask) == Hit(w, table[1..][i].mask)
      {
        assert table[1..][i] == table[i + 1];
      }
      LabelsIgnoreOtherBits(table[1..], v, w);
    }
  }
}

=== FILE: floats.dfy ===
/** Vertex attribute values and the unit/axis conversions both format
    versions apply to them.

    IEEE-754 decoding is not modelled: a stored single is kept as its 32-bit
    pattern, and every conversion is kept as the expression that computes it
    (`Float`). `Eval` gives those expressions their meaning over the reals
    for any decoding of stored singles, which is what the conversion laws
    below are stated against. */
module Floats {
  import opened Results
  import opened Bytes

  type Divisor = d: int | d > 0 witness 1

  /** A number produced by the decoder, as the expression that computes it. */
  datatype Float =
    | Single(bits: U32)           // a stored single, as its bit pattern
    | OfInt(n: int)               // an integer read from the stream
    | Quot(x: Float, d: Divisor)  // x / d
    | Neg(x: Float)               // -x
    | OneMinus(x: Float)          // 1 - x

  /** The value of `f` over the reals, given what each stored single denotes. */
  function Eval(f: Float, single: U32 -> real): real
  {
    match f
    case Single(b) => single(b)
    case OfInt(n) => n as real
    case Quot(x, d) => Eval(x, single) / (d as real)
    case Neg(x) => - Eval(x, single)
    case OneMinus(x) => 1.0 - Eval(x, single)
  }

  datatype Vec3 = Vec3(x: Float, y: Float, z: Float)
  datatype Uv = Uv(u: Float, v: Float)
  datatype Rgba = Rgba(r: Float, g: Float, b: Float, a: Float)

  /** A stored position (x, y, z), in stream order, as the importer sees it. */
  function PositionOf(x: U32, y: U32, z: U32): Vec3
  {
    Vec3(Quot(Single(x), 100), Neg(Quot(Single(z), 100)), Quot(Single(y), 100))
  }

  /** A stored normal (x, y, z), in stream order, as the importer sees it. */
  function NormalOf(x: U32, y: U32, z: U32): Vec3
  {
    Vec3(Single(x), Neg(Single(z)), Single(y))
  }

  /** A stored texture coordinate (u, v), in stream order, flipped vertically. */
  function UvOf(u: U32, v: U32): Uv
  {
    Uv(Single(u), OneMinus(Single(v)))
  }

  /** A colour channel byte scaled to the unit interval. */
  function Unit(b: Byte): Float
  {
    Quot(OfInt(b), 255)
  }

  function ColorOf(r: Byte, g: Byte, b: Byte, a: Byte): Rgba
  {
    Rgba(Unit(r), Unit(g), Unit(b), Unit(a))
  }

  /** Reference decoders by absolute offset, for stating what the readers produce. */
  function PositionAt(buf: seq<Byte>, at: nat): Vec3
    requires at + 12 <= |buf|
  {
    PositionOf(WordAt(buf, at), WordAt(buf, at + 4), WordAt(buf, at + 8))
  }

  function NormalAt(buf: seq<Byte>, at: nat): Vec3
    requires at + 12 <= |buf|
  {
    NormalOf(WordAt(buf, at), WordAt(buf, at + 4), WordAt(buf, at + 8))
  }

  function UvAt(buf: seq<Byte>, at: nat): Uv
    requires at + 8 <= |buf|
  {
    UvOf(WordAt(buf, at), WordAt(buf, at + 4))
  }

  function ColorAt(buf: seq<Byte>, at: nat): Rgba
    requires at + 4 <= |buf|
  {
    ColorOf(buf[at], buf[at + 1], buf[at + 2], buf[at + 3])
  }

  /** Cursor readers, one per stored attribute shape. */
  function ReadSingle(buf: seq<Byte>, pos: nat): (r: Decoded<Float>)
    ensures r.Ok? <==> pos + 4 <= |buf|
    ensures r.Ok? ==> r.value == Parsed(Single(WordAt(buf, pos)), pos + 4)
    ensures r.Err? ==> r.error == Truncated(pos, 4)
  {
    if pos + 4 <= |buf| then Ok(Parsed(Single(WordAt(buf, pos)), pos + 4)) else Err(Truncated(pos, 4))
  }

  /** The `n` stored singles laid out back to back at `at`. */
  function SinglesAt(buf: seq<Byte>, at: nat, n: nat): (r: seq<Float>)
    requires at + 4 * n <= |buf|
    ensures |r| == n
  {
    seq(n, i requires 0 <= i < n => Single(WordAt(buf, at + 4 * i)))
  }

  function ReadSingles(buf: seq<Byte>, pos: nat, n: nat): (r: Decoded<seq<Float>>)
    ensures r.Ok? <==> n == 0 || pos + 4 * n <= |buf|
    ensures r.Ok? ==> r.value.next == pos + 4 * n && |r.value.value| == n
    ensures r.Ok? ==> forall i :: 0 <= i < n ==> r.value.value[i] == Single(WordAt(buf, pos + 4 * i))
    ensures r.Ok? && n > 0 ==> r.value.value == SinglesAt(buf, pos, n)
    ensures r.Err? ==> r.error.Truncated?
    decreases n
  {
    if n == 0 then Ok(Parsed([], pos))
    else
      var x :- ReadSingle(buf, pos);
      var rest :- ReadSingles(buf, x.next, n - 1);
      Ok(Parsed([x.value] + rest.value, rest.next))
  }

  function ReadPosition(buf: seq<Byte>, pos: nat): (r: Decoded<Vec3>)
    ensures r.Ok? <==> pos + 12 <= |buf|
    ensures r.Ok? ==> r.value == Parsed(PositionAt(buf, pos), pos + 12)
    ensures r.Err? ==> r.error.Truncated?
  {
    var x :- ReadSingle(buf, pos);
    var y :- ReadSingle(buf, x.next);
    var z :- ReadSingle(buf, y.next);
    Ok(Parsed(Vec3(Quot(x.value, 100), Neg(Quot(z.value, 100)), Quot(y.value, 100)), z.next))
  }

  function ReadNormal(buf: seq<Byte>, pos: nat): (r: Decoded<Vec3>)
    ensures r.Ok? <==> pos + 12 <= |buf|
    ensures r.Ok? ==> r.value == Parsed(NormalAt(buf, pos), pos + 12)
    ensures r.Err? ==> r.error.Truncated?
  {
    var x :- ReadSingle(buf, pos);
    var y :- ReadSingle(buf, x.next);
    var z :- ReadSingle(buf, y.next);
    Ok(Parsed(Vec3(x.value, Neg(z.value), y.value), z.next))
  }

  function ReadUv(buf: seq<Byte>, pos: nat): (r: Decoded<Uv>)
    ensures r.Ok? <==> pos + 8 <= |buf|
    ensures r.Ok? ==> r.value == Parsed(UvAt(buf, pos), pos + 8)
    ensures r.Err? ==> r.error.Truncated?
  {
    var u :- ReadSingle(buf, pos);
    var v :- ReadSingle(buf, u.next);
    Ok(Parsed(Uv(u.value, OneMinus(v.value)), v.next))
  }

  function ReadColor(buf: seq<Byte>, pos: nat): (r: Decoded<Rgba>)
    ensures r.Ok? <==> pos + 4 <= |buf|
    ensures r.Ok? ==> r.value == Parsed(ColorAt(buf, pos), pos + 4)
    ensures r.Err? ==> r.error.Truncated?
  {
    var r :- ReadU8(buf, pos);
    var g :- ReadU8(buf, r.next);
    var b :- ReadU8(buf, g.next);
    var a :- ReadU8(buf, b.next);
    Ok(Parsed(Rgba(Unit(r.value), Unit(g.value), Unit(b.value), Unit(a.value)), a.next))
  }

  /** Positions are scaled down by 100 and axis-permuted (x, y, z) -> (x, -z, y). */
  lemma PositionLaw(x: U32, y: U32, z: U32, single: U32 -> real)
    ensures Eval(PositionOf(x, y, z).x, single) * 100.0 == single(x)
    ensures Eval(PositionOf(x, y, z).y, single) * 100.0 == - single(z)
    ensures Eval(PositionOf(x, y, z).z, single) * 100.0 == single(y)
  {
    assert Eval(Quot(Single(z), 100), single) * 100.0 == single(z);
  }

  /** Normals are axis-permuted the same way, without scaling. */
  lemma NormalLaw(x: U32, y: U32, z: U32, single: U32 -> real)
    ensures Eval(NormalOf(x, y, z).x, single) == single(x)
    ensures Eval(NormalOf(x, y, z).y, single) == - single(z)
    ensures Eval(NormalOf(x, y, z).z, single) == single(y)
  {
  }

  /** v is flipped to 1 - v, and flipping the result again restores the stored v. */
  lemma UvFlipLaw(u: U32, v: U32, single: U32 -> real)
    ensures Eval(UvOf(u, v).u, single) == single(u)
    ensures Eval(UvOf(u, v).v, single) == 1.0 - single(v)
    ensures Eval(OneMinus(UvOf(u, v).v), single) == single(v)
  {
  }

  /** Colour bytes land in the unit interval, 255 mapping to 1. */
  lemma UnitLaw(b: Byte, single: U32 -> real)
    ensures 0.0 <= Eval(Unit(b), single) <= 1.0
    ensures Eval(Unit(b), single) * 255.0 == b as real
  {
  }

  lemma ColorAtSlice(buf: seq<Byte>, a: nat, n: nat, j: nat)
    requires a + n <= |buf| && j + 4 <= n
    ensures ColorAt(buf, a + j) == ColorAt(buf[a..a + n], j)
  {
  }
}

=== FILE: results.dfy ===
/** Failure-compatible wrappers shared by every decoder of the project. */
module Results {

  /** The conventional Some/None datatype: a value that may be absent. */
  datatype Option<+T> = None | Some(value: T)

  /** Either a decoded value or the error that stopped decoding. It can be
      used with `:-`, so a failing read aborts the enclosing decoder. */
  datatype Result<+T, +E> = Ok(value: T) | Err(error: E) {

    predicate IsFailure() {
      Err?
    }

    function PropagateFailure<U>(): Result<U, E>
      requires Err?
    {
      Err(error)
    }

    function Extract(): T
      requires Ok?
    {
      value
    }
  }

  /** The present values of `xs`, in order. */
  function Somes<T>(xs: seq<Option<T>>): (r: seq<T>)
    ensures |r| <= |xs|
  {
    if |xs| == 0 then []
    else (if xs[0].Some? then [xs[0].value] else []) + Somes(xs[1..])
  }

  /** When every value is present, none is dropped and each keeps its place. */
  lemma {:induction false} SomesAll<T>(xs: seq<Option<T>>)
    requires forall i :: 0 <= i < |xs| ==> xs[i].Some?
    ensures |Somes(xs)| == |xs|
    ensures forall i :: 0 <= i < |xs| ==> Somes(xs)[i] == xs[i].value
  {
    if |xs| > 0 {
      SomesAll(xs[1..]);
      forall i | 0 <= i < |xs|
        ensures Somes(xs)[i] == xs[i].value
      {
        if i > 0 {
          assert Somes(xs)[i] == Somes(xs[1..])[i - 1];
        }
      }
    }
  }

  /** When no value is present, nothing is kept. */
  lemma {:induction false} SomesNone<T>(xs: seq<Option<T>>)
    requires forall i :: 0 <= i < |xs| ==> xs[i].None?
    ensures Somes(xs) == []
  {
    if |xs| > 0 {
      SomesNone(xs[1..]);
    }
  }

  /** When every value is present or every value is absent, as `present`
      says, the present values are all of them or none. */
  lemma SomesUniform<T>(xs: seq<Option<T>>, present: bool)
    requires forall i :: 0 <= i < |xs| ==> xs[i].Some? == present
    ensures |Somes(xs)| == if present then |xs| else 0
    ensures present ==> forall i :: 0 <= i < |xs| ==> Somes(xs)[i] == xs[i].value
  {
    if present {
      SomesAll(xs);
    } else {
      SomesNone(xs);
    }
  }
}

=== FILE: scx_import.dfy ===
/** The entry point of the SCX reader: the "INVO" signature, the version
    word, and the dispatch to the decoder of that version. Both decoders
    start right after the 8-byte header. */
module ScxImport {
  import opened Results
  import opened Bytes
  import ScxV3Scene
  import ScxV4Scene

  /** The decoded body of a file, tagged with its version. */
  datatype Scene =
    | V3(meshes3: seq<ScxV3Scene.Mesh>)
    | V4(meshes4: seq<ScxV4Scene.Mesh>)

  /** The four bytes every SCX file starts with: "INVO" in ASCII. */
  const Signature: seq<Byte> := [0x49, 0x4E, 0x56, 0x4F]

  /** Where the version-specific body starts. */
  const BodyStart: nat := 8

  /** Decodes a whole file. A foreign signature is rejected before the
      version is read; versions other than 3 and 4 are rejected. */
  function ReadScxData(buf: seq<Byte>): (r: Result<Scene, Error>)
    ensures |buf| < 4 ==> r == Err(Truncated(0, 4))
    ensures 4 <= |buf| && buf[..4] != Signature ==> r == Err(BadSignature)
    ensures 4 <= |buf| < BodyStart && buf[..4] == Signature ==> r == Err(Truncated(4, 4))
    ensures r.Ok? ==> BodyStart <= |buf| && buf[..4] == Signature && (WordAt(buf, 4) == 3 || WordAt(buf, 4) == 4)
    ensures r.Ok? ==> (r.value.V3? <==> WordAt(buf, 4) == 3)
    ensures BodyStart <= |buf| && buf[..4] == Signature && WordAt(buf, 4) !in {3, 4} ==> r == Err(UnsupportedVersion(WordAt(buf, 4)))
  {
    var signature :- Take(buf, 0, 4);
    if signature.value != Signature then Err(BadSignature)
    else
      var version :- ReadU32(buf, signature.next);
      if version.value == 3 then
        var body :- ScxV3Scene.ReadMeshes(buf, version.next);
        Ok(V3(body.value))
      else if version.value == 4 then
        var body :- ScxV4Scene.ReadScxData(buf, version.next);
        Ok(V4(body.value))
      else Err(UnsupportedVersion(version.value))
  }

  /** A version-3 file decodes to exactly what the version-3 mesh loop
      reads from the body, failing where it fails. */
  lemma DispatchV3(buf: seq<Byte>)
    requires BodyStart <= |buf| && buf[..4] == Signature && WordAt(buf, 4) == 3
    ensures ReadScxData(buf).Ok? <==> ScxV3Scene.ReadMeshes(buf, BodyStart).Ok?
    ensures ReadScxData(buf).Ok? ==> ReadScxData(buf).value == V3(ScxV3Scene.ReadMeshes(buf, BodyStart).value.value)
    ensures ReadScxData(buf).Err? ==> ReadScxData(buf).error == ScxV3Scene.ReadMeshes(buf, BodyStart).error
  {
  }

  /** A version-4 file decodes to exactly what the version-4 entry table
      yields from the body, failing where it fails. */
  lemma DispatchV4(buf: seq<Byte>)
    requires BodyStart <= |buf| && buf[..4] == Signature && WordAt(buf, 4) == 4
    ensures ReadScxData(buf).Ok? <==> ScxV4Scene.ReadScxData(buf, BodyStart).Ok?
    ensures ReadScxData(buf).Ok? ==> ReadScxData(buf).value == V4(ScxV4Scene.ReadScxData(buf, BodyStart).value.value)
    ensures ReadScxData(buf).Err? ==> ReadScxData(buf).error == ScxV4Scene.ReadScxData(buf, BodyStart).error
  {
  }

  /** Whatever follows a foreign signature, the file is rejected for it. */
  lemma ForeignSignature(head: seq<Byte>, rest: seq<Byte>)
    requires |head| == 4 && head != Signature
    ensures ReadScxData(head + rest) == Err(BadSignature)
  {
    assert (head + rest)[..4] == head;
  }
}

=== FILE: scx_v3.dfy ===
/** The SCX version 3 decoder: a plain sequence of meshes, each a material
    record, a vertex block and an index block, read back to back until the
    data runs out or an end-marker material is met. Positions in this
    module are absolute byte offsets into the whole file. */
module ScxV3 {
  import opened Results
  import opened Bytes
  import opened Floats
  import opened Flags

  // ---------------------------------------------------------------------
  // Material flags

  /** The material flag table, in the order the importer lists it; the second
      label, and its accessor, keep the importer's spelling. */
  const MaterialFlagTable: seq<Flag> := [
    Flag("AlphaOpacity", 0x1),
    Flag("VecrtexColorBlend", 0x2),
    Flag("Layer2BlendByAlpha", 0x40),
    Flag("DiffuseBlend", 0x100),
    Flag("Layer2VertexColorBlend", 0x1000)
  ]

  /** Every bit some row of the material flag table tests. */
  const MaterialFlagBits: bv32 := 0x1143

  /** The flags of a material. The stored value is kept as it was read; each
      label is set when the value shares a bit with its mask. */
  datatype MaterialFlags = MaterialFlags(value: bv32) {
    predicate Row(i: nat)
      requires i < |MaterialFlagTable|
    {
      Hit(value, MaterialFlagTable[i].mask)
    }

    predicate AlphaOpacity() { Hit(value, 0x1) }
    predicate VecrtexColorBlend() { Hit(value, 0x2) }
    predicate Layer2BlendByAlpha() { Hit(value, 0x40) }
    predicate DiffuseBlend() { Hit(value, 0x100) }
    predicate Layer2VertexColorBlend() { Hit(value, 0x1000) }

    function Int(): nat { value as nat }

    function ToString(): string { Render(MaterialFlagTable, value) }
  }

  /** Each named accessor is the table row that carries its name. */
  lemma MaterialFlagsRows(f: MaterialFlags)
    ensures f.AlphaOpacity() == f.Row(0)
    ensures f.VecrtexColorBlend() == f.Row(1)
    ensures f.Layer2BlendByAlpha() == f.Row(2)
    ensures f.DiffuseBlend() == f.Row(3)
    ensures f.Layer2VertexColorBlend() == f.Row(4)
  {
  }

  /** Every mask of the table lies within `MaterialFlagBits`, so bits outside
      it cannot change whether a row hits. */
  lemma MaterialMasksWithin(v: bv32, w: bv32, i: nat)
    requires i < |MaterialFlagTable|
    requires v & MaterialFlagBits == w & MaterialFlagBits
    ensures Hit(v, MaterialFlagTable[i].mask) == Hit(w, MaterialFlagTable[i].mask)
  {
    var m := MaterialFlagTable[i].mask;
    if i == 0 {
      assert m == 0x1;
      assert v & 0x1 == (v & MaterialFlagBits) & 0x1;
      assert w & 0x1 == (w & MaterialFlagBits) & 0x1;
    } else if i == 1 {
      assert m == 0x2;
      assert v & 0x2 == (v & MaterialFlagBits) & 0x2;
      assert w & 0x2 == (w & MaterialFlagBits) & 0x2;
    } else if i == 2 {
      assert m == 0x40;
      assert v & 0x40 == (v & MaterialFlagBits) & 0x40;
      assert w & 0x40 == (w & MaterialFlagBits) & 0x40;
    } else if i == 3 {
      assert m == 0x100;
      assert v & 0x100 == (v & MaterialFlagBits) & 0x100;
      assert w & 0x100 == (w & MaterialFlagBits) & 0x100;
    } else {
      assert m == 0x1000;
      assert v & 0x1000 == (v & MaterialFlagBits) & 0x1000;
      assert w & 0x1000 == (w & MaterialFlagBits) & 0x1000;
    }
  }

  /** Bits outside the listed masks change no label; only `Int` still
      tells the two values apart. */
  lemma MaterialFlagsIgnoreOtherBits(v: bv32, w: bv32)
    requires v & MaterialFlagBits == w & MaterialFlagBits
    ensures MaterialFlags(v).AlphaOpacity() == MaterialFlags(w).AlphaOpacity()
    ensures MaterialFlags(v).VecrtexColorBlend() == MaterialFlags(w).VecrtexColorBlend()
    ensures MaterialFlags(v).Layer2BlendByAlpha() == MaterialFlags(w).Layer2BlendByAlpha()
    ensures MaterialFlags(v).DiffuseBlend() == MaterialFlags(w).DiffuseBlend()
    ensures MaterialFlags(v).Layer2VertexColorBlend() == MaterialFlags(w).Layer2VertexColorBlend()
  {
    MaterialMasksWithin(v, w, 0);
    MaterialMasksWithin(v, w, 1);
    MaterialMasksWithin(v, w, 2);
    MaterialMasksWithin(v, w, 3);
    MaterialMasksWithin(v, w, 4);
  }

  /** The same holds for every row of the table and for the rendered text. */
  lemma MaterialFlagTableIgnoresOtherBits(v: bv32, w: bv32)
    requires v & MaterialFlagBits == w & MaterialFlagBits
    ensures forall i :: 0 <= i < |MaterialFlagTable| ==> MaterialFlags(v).Row(i) == MaterialFlags(w).Row(i)
    ensures MaterialFlags(v).ToString() == MaterialFlags(w).ToString()
  {
    forall i | 0 <= i < |MaterialFlagTable|
      ensures Hit(v, MaterialFlagTable[i].mask) == Hit(w, MaterialFlagTable[i].mask)
    {
      MaterialMasksWithin(v, w, i);
    }
    LabelsIgnoreOtherBits(MaterialFlagTable, v, w);
  }

  /** A label appears in the rendered list exactly when its own flag is
      set: no two rows share a name. */
  lemma MaterialLabelListed(v: bv32, i: nat)
    requires i < |MaterialFlagTable|
    ensures MaterialFlagTable[i].name in Labels(MaterialFlagTable, v) <==> MaterialFlags(v).Row(i)
  {
    LabelsMembership(MaterialFlagTable, v, MaterialFlagTable[i].name);
    if MaterialFlagTable[i].name in Labels(MaterialFlagTable, v) {
      var j :| 0 <= j < |MaterialFlagTable| && MaterialFlagTable[j].name == MaterialFlagTable[i].name && Hit(v, MaterialFlagTable[j].mask);
      DistinctMaterialFlagNames(i, j);
    }
  }

  lemma DistinctMaterialFlagNames(i: nat, j: nat)
    requires i < |MaterialFlagTable| && j < |MaterialFlagTable|
    requires MaterialFlagTable[i].name == MaterialFlagTable[j].name
    ensures i == j
  {
  }

  // ---------------------------------------------------------------------
  // Material record

  /** The texture-map indices every material stores. */
  datatype MapIndices = MapIndices(diffuse: U16, bump: U16, specular: U16, reflection: U16, diffuseLayer2: U16)

  /** The part every material stores after its size field: colours as
      lists of stored singles, two scalars, the flags and the map indices. */
  datatype Surface = Surface(
    diffuse: seq<Float>,
    specular: seq<Float>,
    specularIntensity: Float,
    glossinessWeight: Float,
    flags: MaterialFlags,
    maps: MapIndices)

  /** The part stored only by materials whose size exceeds 56. */
  datatype Extension = Extension(
    illuminationMap: U16,
    vertexSize: U32,
    diffuseMix1Channel: U16,
    diffuseMix2Channel: U16,
    bumpChannel: U16,
    specularChannel: U16,
    illuminationColor: seq<Float>)

  /** A material record; the name is stored only when the size exceeds 104. */
  datatype Material = Material(size: U32, surface: Surface, extension: Option<Extension>, name: Option<seq<Byte>>)

  function MapIndicesAt(buf: seq<Byte>, at: nat): MapIndices
    requires at + 10 <= |buf|
  {
    MapIndices(HalfAt(buf, at), HalfAt(buf, at + 2), HalfAt(buf, at + 4), HalfAt(buf, at + 6), HalfAt(buf, at + 8))
  }

  /** The surface part at `at`: 4 + 3 singles, two singles, the flag word,
      five indices. */
  function SurfaceAt(buf: seq<Byte>, at: nat): Surface
    requires at + 50 <= |buf|
  {
    Surface(SinglesAt(buf, at, 4), SinglesAt(buf, at + 16, 3),
            Single(WordAt(buf, at + 28)), Single(WordAt(buf, at + 32)),
            MaterialFlags(WordAt(buf, at + 36) as bv32), MapIndicesAt(buf, at + 40))
  }

  /** The extension at `at`, with its unused gaps: an index, 2 unused
      bytes, a word, 6 unused bytes, four channels, 14 unused bytes, three
      singles. */
  function ExtensionAt(buf: seq<Byte>, at: nat): Extension
    requires at + 48 <= |buf|
  {
    Extension(HalfAt(buf, at), WordAt(buf, at + 4),
              HalfAt(buf, at + 14), HalfAt(buf, at + 16), HalfAt(buf, at + 18), HalfAt(buf, at + 20),
              SinglesAt(buf, at + 36, 3))
  }

  function ReadMapIndices(buf: seq<Byte>, pos: nat): (r: Decoded<MapIndices>)
    ensures r.Ok? <==> pos + 10 <= |buf|
    ensures r.Ok? ==> r.value == Parsed(MapIndicesAt(buf, pos), pos + 10)
    ensures r.Err? ==> r.error.Truncated?
  {
    var diffuse :- ReadU16(buf, pos);
    var bump :- ReadU16(buf, diffuse.next);
    var specular :- ReadU16(buf, bump.next);
    var reflection :- ReadU16(buf, specular.next);
    var layer2 :- ReadU16(buf, reflection.next);
    Ok(Parsed(MapIndices(diffuse.value, bump.value, specular.value, reflection.value, layer2.value), layer2.next))
  }

  /** The surface part, followed by 2 unused bytes that are skipped. */
  function ReadSurface(buf: seq<Byte>, pos: nat): (r: Decoded<Surface>)
    ensures r.Ok? <==> pos + 50 <= |buf|
    ensures r.Ok? ==> r.value == Parsed(SurfaceAt(buf, pos), pos + 52)
    ensures r.Err? ==> r.error.Truncated?
  {
    var diffuse :- ReadSingles(buf, pos, 4);
    var specular :- ReadSingles(buf, diffuse.next, 3);
    var intensity :- ReadSingle(buf, specular.next);
    var gloss :- ReadSingle(buf, intensity.next);
    var flags :- ReadU32(buf, gloss.next);
    var maps :- ReadMapIndices(buf, flags.next);
    Ok(Parsed(Surface(diffuse.value, specular.value, intensity.value, gloss.value,
                      MaterialFlags(flags.value as bv32), maps.value),
              maps.next + 2))
  }

  function ReadExtension(buf: seq<Byte>, pos: nat): (r: Decoded<Extension>)
    ensures r.Ok? <==> pos + 48 <= |buf|
    ensures r.Ok? ==> r.value == Parsed(ExtensionAt(buf, pos), pos + 48)
    ensures r.Err? ==> r.error.Truncated?
  {
    var illumination :- ReadU16(buf, pos);
    var vertexSize :- ReadU32(buf, illumination.next + 2);
    var mix1 :- ReadU16(buf, vertexSize.next + 6);
    var mix2 :- ReadU16(buf, mix1.next);
    var bump :- ReadU16(buf, mix2.next);
    var specular :- ReadU16(buf, bump.next);
    var color :- ReadSingles(buf, specular.next + 14, 3);
    Ok(Parsed(Extension(illumination.value, vertexSize.value, mix1.value, mix2.value, bump.value, specular.value, color.value),
              color.next))
  }

  function ReadOptExtension(buf: seq<Byte>, pos: nat, present: bool): (r: Decoded<Option<Extension>>)
    ensures r.Ok? <==> (present ==> pos + 48 <= |buf|)
    ensures r.Ok? ==> r.value == Parsed(if present then Some(ExtensionAt(buf, pos)) else None, if present then pos + 48 else pos)
    ensures r.Err? ==> r.error.Truncated?
  {
    if present then
      var x :- ReadExtension(buf, pos);
      Ok(Parsed(Some(x.value), x.next))
    else Ok(Parsed(None, pos))
  }

  function ReadOptName(buf: seq<Byte>, pos: nat, present: bool): (r: Decoded<Option<seq<Byte>>>)
    ensures r.Ok? <==> (present ==> pos + 32 <= |buf|)
    ensures r.Ok? ==> r.value == Parsed(if present then Some(UntilNul(buf[pos..pos + 32])) else None, if present then pos + 32 else pos)
    ensures r.Err? ==> r.error.Truncated?
  {
    if present then
      var x :- ReadNulTerminated(buf, pos, 32);
      Ok(Parsed(Some(x.value), x.next))
    else Ok(Parsed(None, pos))
  }

  /** Bytes a material record occupies, size field included: 4 for the end
      marker, then 56, 104 or 136 by size band, whatever the exact size. */
  function MaterialSpan(size: U32): nat
  {
    if size == 0 then 4 else if size <= 56 then 56 else if size <= 104 then 104 else 136
  }

  /** Bytes of a material record that are actually read: the 2 unused bytes
      ending the surface part are skipped, not read. */
  function MaterialExtent(size: U32): nat
  {
    if size == 0 then 4 else if size <= 56 then 54 else if size <= 104 then 104 else 136
  }

  /** Reference decoder: the material stored at `at`. */
  function MaterialAt(buf: seq<Byte>, at: nat): Material
    requires at + 4 <= |buf| && WordAt(buf, at) != 0 && at + MaterialExtent(WordAt(buf, at)) <= |buf|
  {
    var size := WordAt(buf, at);
    Material(size, SurfaceAt(buf, at + 4),
             if size > 56 then Some(ExtensionAt(buf, at + 56)) else None,
             if size > 104 then Some(UntilNul(buf[at + 104..at + 136])) else None)
  }

  /** A material record: its size, then the parts that size calls for. A
      size of 0 marks the end of the meshes and consumes only itself. */
  function ReadMaterial(buf: seq<Byte>, pos: nat): (r: Decoded<Option<Material>>)
    ensures r.Ok? <==> pos + 4 <= |buf| && pos + MaterialExtent(WordAt(buf, pos)) <= |buf|
    ensures r.Ok? ==> r.value.next == pos + MaterialSpan(WordAt(buf, pos))
    ensures r.Ok? ==> (r.value.value.None? <==> WordAt(buf, pos) == 0)
    ensures r.Ok? && r.value.value.Some? ==> r.value.value.value == MaterialAt(buf, pos)
    ensures r.Err? ==> r.error.Truncated?
  {
    var size :- ReadU32(buf, pos);
    if size.value == 0 then Ok(Parsed(None, size.next))
    else
      var surface :- ReadSurface(buf, size.next);
      var extension :- ReadOptExtension(buf, surface.next, size.value > 56);
      var name :- ReadOptName(buf, extension.next, size.value > 104);
      Ok(Parsed(Some(Material(size.value, surface.value, extension.value, name.value)), name.next))
  }

  /** The extension is present exactly when the size exceeds 56, and the
      name exactly when it exceeds 104. */
  lemma MaterialShape(buf: seq<Byte>, pos: nat)
    requires ReadMaterial(buf, pos).Ok? && ReadMaterial(buf, pos).value.value.Some?
    ensures var m := ReadMaterial(buf, pos).value.value.value;
      && m.size == WordAt(buf, pos) > 0
      && (m.extension.Some? <==> m.size > 56)
      && (m.name.Some? <==> m.size > 104)
      && |m.surface.diffuse| == 4 && |m.surface.specular| == 3
  {
  }
}

=== FILE: scx_v3_geometry.dfy ===
/** The geometry blocks of SCX version 3: vertex blocks with a fixed
    per-vertex record, widened by a third texture coordinate when the
    material is large, and index blocks of 32-bit triangles. */
module ScxV3Geometry {
  import opened Results
  import opened Bytes
  import opened Floats

  // ---------------------------------------------------------------------
  // Vertex record

  /** A version-3 vertex; the third texture coordinate is stored only in
      wide records. */
  datatype Vertex = Vertex(position: Vec3, normal: Vec3, uv1: Uv, uv2: Uv, color: Rgba, uv3: Option<Uv>)

  /** Records are wide exactly when their material's size exceeds 56. */
  predicate Wide(materialSize: U32)
  {
    materialSize > 56
  }

  /** Bytes from one record to the next: 44, or 64 in a wide record (8
      unused bytes, a texture coordinate, 4 unused bytes). */
  function Stride(wide: bool): nat
  {
    if wide then 64 else 44
  }

  /** Bytes of a record that are actually read: the 4 unused bytes ending a
      wide record are skipped, not read. */
  function Extent(wide: bool): nat
  {
    if wide then 60 else 44
  }

  /** Reference decoder: the record stored at `at`. */
  function VertexAt(buf: seq<Byte>, at: nat, wide: bool): Vertex
    requires at + Extent(wide) <= |buf|
  {
    Vertex(PositionAt(buf, at), NormalAt(buf, at + 12), UvAt(buf, at + 24), UvAt(buf, at + 32),
           ColorAt(buf, at + 40), if wide then Some(UvAt(buf, at + 52)) else None)
  }

  function ReadOptUv3(buf: seq<Byte>, pos: nat, wide: bool): (r: Decoded<Option<Uv>>)
    ensures r.Ok? <==> (wide ==> pos + 16 <= |buf|)
    ensures r.Ok? ==> r.value == Parsed(if wide then Some(UvAt(buf, pos + 8)) else None, if wide then pos + 20 else pos)
    ensures r.Err? ==> r.error.Truncated?
  {
    if wide then
      var uv :- ReadUv(buf, pos + 8);
      Ok(Parsed(Some(uv.value), uv.next + 4))
    else Ok(Parsed(None, pos))
  }

  function ReadVertex(buf: seq<Byte>, pos: nat, wide: bool): (r: Decoded<Vertex>)
    ensures r.Ok? <==> pos + Extent(wide) <= |buf|
    ensures r.Ok? ==> pos + Extent(wide) <= |buf| && r.value == Parsed(VertexAt(buf, pos, wide), pos + Stride(wide))
    ensures r.Err? ==> r.error.Truncated?
  {
    var position :- ReadPosition(buf, pos);
    var normal :- ReadNormal(buf, position.next);
    var uv1 :- ReadUv(buf, normal.next);
    var uv2 :- ReadUv(buf, uv1.next);
    var color :- ReadColor(buf, uv2.next);
    var uv3 :- ReadOptUv3(buf, color.next, wide);
    Ok(Parsed(Vertex(position.value, normal.value, uv1.value, uv2.value, color.value, uv3.value), uv3.next))
  }

  function VertexReader(buf: seq<Byte>, wide: bool): nat -> Decoded<Vertex>
  {
    (p: nat) => ReadVertex(buf, p, wide)
  }

  /** Records read at `p` fail exactly when their read part passes the end,
      which is where a whole stride would pass the end widened by the
      skipped tail. */
  lemma VertexReaderStrided(buf: seq<Byte>, wide: bool)
    ensures Strided(VertexReader(buf, wide), Stride(wide))
  {
  }

  lemma VertexReaderSized(buf: seq<Byte>, wide: bool)
    ensures Strided(VertexReader(buf, wide), Stride(wide))
    ensures Sized(VertexReader(buf, wide), Stride(wide), |buf| + Stride(wide) - Extent(wide))
    ensures FailsTruncated(VertexReader(buf, wide))
  {
  }

  // ---------------------------------------------------------------------
  // Vertex block

  /** The decoded vertex block, one list per attribute; `uv3` is empty
      unless the records are wide. */
  datatype VertexData = VertexData(
    count: U32,
    position: seq<Vec3>,
    normal: seq<Vec3>,
    uv1: seq<Uv>,
    uv2: seq<Uv>,
    color: seq<Rgba>,
    uv3: seq<Uv>)

  function Uv3Column(vs: seq<Vertex>): (r: seq<Option<Uv>>)
    ensures |r| == |vs|
  {
    seq(|vs|, i requires 0 <= i < |vs| => vs[i].uv3)
  }

  /** The attribute lists of a run of records. */
  function Gather(count: U32, vs: seq<Vertex>): VertexData
  {
    VertexData(count,
               seq(|vs|, i requires 0 <= i < |vs| => vs[i].position),
               seq(|vs|, i requires 0 <= i < |vs| => vs[i].normal),
               seq(|vs|, i requires 0 <= i < |vs| => vs[i].uv1),
               seq(|vs|, i requires 0 <= i < |vs| => vs[i].uv2),
               seq(|vs|, i requires 0 <= i < |vs| => vs[i].color),
               Somes(Uv3Column(vs)))
  }

  /** `n` records of the same width, one after another from `pos`. */
  function ReadVertices(buf: seq<Byte>, pos: nat, wide: bool, n: nat): (r: Decoded<seq<Vertex>>)
    ensures r.Ok? ==> |r.value.value| == n
    ensures r.Err? ==> r.error.Truncated?
  {
    VertexReaderSized(buf, wide);
    RepeatFailsTruncated(VertexReader(buf, wide), pos, n);
    Repeat(VertexReader(buf, wide), pos, n)
  }

  /** A vertex block: a count, then that many records whose width the
      material size selects. */
  function ReadVertexData(buf: seq<Byte>, pos: nat, materialSize: U32): (r: Decoded<VertexData>)
    ensures r.Ok? ==> pos + 4 <= |buf| && r.value.value.count == WordAt(buf, pos)
    ensures r.Err? ==> r.error.Truncated?
  {
    var count :- ReadU32(buf, pos);
    var vs :- ReadVertices(buf, count.next, Wide(materialSize), count.value);
    Ok(Parsed(Gather(count.value, vs.value), vs.next))
  }

  /** Where record `i` of the block at `pos` starts. */
  function VertexStart(pos: nat, wide: bool, i: nat): nat
  {
    pos + 4 + i * Stride(wide)
  }

  /** The bytes after the last record's read part that a block still
      counts as its own: the skipped tail of a wide record. */
  function Slack(wide: bool): nat
  {
    Stride(wide) - Extent(wide)
  }

  /** A vertex block can be read exactly when its count and the read part
      of every record fit; it then occupies 4 bytes plus one stride per
      record. */
  lemma ReadVertexDataOk(buf: seq<Byte>, pos: nat, materialSize: U32)
    ensures ReadVertexData(buf, pos, materialSize).Ok? <==>
              pos + 4 <= |buf| &&
              (WordAt(buf, pos) == 0 || VertexStart(pos, Wide(materialSize), WordAt(buf, pos)) <= |buf| + Slack(Wide(materialSize)))
    ensures ReadVertexData(buf, pos, materialSize).Ok? ==>
              ReadVertexData(buf, pos, materialSize).value.next == VertexStart(pos, Wide(materialSize), WordAt(buf, pos))
  {
    if pos + 4 <= |buf| {
      var wide := Wide(materialSize);
      var n: nat := WordAt(buf, pos);
      VertexReaderSized(buf, wide);
      RepeatSizedOk(VertexReader(buf, wide), Stride(wide), |buf| + Stride(wide) - Extent(wide), pos + 4, n);
      SpanIsProduct(n, Stride(wide));
      if ReadVertexData(buf, pos, materialSize).Ok? {
        RepeatNext(VertexReader(buf, wide), Stride(wide), pos + 4, n);
      }
    }
  }

  /** Record `i` of a run is the one stored `i` strides on. */
  lemma ReadVerticesAt(buf: seq<Byte>, pos: nat, wide: bool, n: nat, i: nat)
    requires ReadVertices(buf, pos, wide, n).Ok? && i < n
    ensures pos + Span(i, Stride(wide)) + Extent(wide) <= |buf|
    ensures ReadVertices(buf, pos, wide, n).value.value[i] == VertexAt(buf, pos + Span(i, Stride(wide)), wide)
  {
    var read := VertexReader(buf, wide);
    var at := pos + Span(i, Stride(wide));
    VertexReaderStrided(buf, wide);
    assert ReadVertices(buf, pos, wide, n) == Repeat(read, pos, n);
    RepeatAt(read, Stride(wide), pos, n, i);
    assert read(at) == ReadVertex(buf, at, wide);
    assert ReadVertex(buf, at, wide).value.value == VertexAt(buf, at, wide);
  }

  /** Every record of a run has the run's width. */
  lemma ReadVerticesWidth(buf: seq<Byte>, pos: nat, wide: bool, n: nat)
    requires ReadVertices(buf, pos, wide, n).Ok?
    ensures forall i :: 0 <= i < n ==> ReadVertices(buf, pos, wide, n).value.value[i].uv3.Some? == wide
  {
    forall i | 0 <= i < n
      ensures ReadVertices(buf, pos, wide, n).value.value[i].uv3.Some? == wide
    {
      ReadVerticesAt(buf, pos, wide, n, i);
    }
  }

  /** Every list holds one entry per record, except the third texture
      coordinates, which are present only for wide records. */
  lemma ReadVertexDataLengths(buf: seq<Byte>, pos: nat, materialSize: U32)
    requires ReadVertexData(buf, pos, materialSize).Ok?
    ensures var d := ReadVertexData(buf, pos, materialSize).value.value;
      && |d.position| == |d.normal| == |d.uv1| == |d.uv2| == |d.color| == d.count as int
      && |d.uv3| == if materialSize > 56 then d.count as int else 0
  {
    var n: nat := WordAt(buf, pos);
    var vs := ReadVertices(buf, pos + 4, Wide(materialSize), n).value.value;
    ReadVerticesWidth(buf, pos + 4, Wide(materialSize), n);
    assert forall i :: 0 <= i < |Uv3Column(vs)| ==> Uv3Column(vs)[i].Some? == Wide(materialSize);
    SomesUniform(Uv3Column(vs), Wide(materialSize));
  }

  /** Entry `i` of every list is the attribute of record `i`, stored `i`
      strides after the count. */
  lemma ReadVertexDataAt(buf: seq<Byte>, pos: nat, materialSize: U32, i: nat)
    requires ReadVertexData(buf, pos, materialSize).Ok? && i < WordAt(buf, pos) as int
    ensures VertexStart(pos, Wide(materialSize), i) + Extent(Wide(materialSize)) <= |buf|
    ensures var d := ReadVertexData(buf, pos, materialSize).value.value;
      var v := VertexAt(buf, VertexStart(pos, Wide(materialSize), i), Wide(materialSize));
      && i < |d.position| && d.position[i] == v.position
      && i < |d.normal| && d.normal[i] == v.normal
      && i < |d.uv1| && d.uv1[i] == v.uv1
      && i < |d.uv2| && d.uv2[i] == v.uv2
      && i < |d.color| && d.color[i] == v.color
      && (materialSize > 56 ==> i < |d.uv3| && Some(d.uv3[i]) == v.uv3)
  {
    var wide := Wide(materialSize);
    var n: nat := WordAt(buf, pos);
    var vs := ReadVertices(buf, pos + 4, wide, n).value.value;
    ReadVerticesAt(buf, pos + 4, wide, n, i);
    SpanIsProduct(i, Stride(wide));
    if wide {
      ReadVerticesWidth(buf, pos + 4, wide, n);
      assert forall j :: 0 <= j < |Uv3Column(vs)| ==> Uv3Column(vs)[j].Some? == wide;
      SomesUniform(Uv3Column(vs), wide);
    }
  }

  // ---------------------------------------------------------------------
  // Index block

  function Triangle32At(buf: seq<Byte>, at: nat): Triangle
    requires at + 12 <= |buf|
  {
    Triangle(WordAt(buf, at), WordAt(buf, at + 4), WordAt(buf, at + 8))
  }

  function ReadTriangle32(buf: seq<Byte>, pos: nat): (r: Decoded<Triangle>)
    ensures r.Ok? <==> pos + 12 <= |buf|
    ensures r.Ok? ==> r.value == Parsed(Triangle32At(buf, pos), pos + 12)
    ensures r.Err? ==> r.error.Truncated?
  {
    var a :- ReadU32(buf, pos);
    var b :- ReadU32(buf, a.next);
    var c :- ReadU32(buf, b.next);
    Ok(Parsed(Triangle(a.value, b.value, c.value), c.next))
  }

  function Triangle32Reader(buf: seq<Byte>): nat -> Decoded<Triangle>
  {
    (p: nat) => ReadTriangle32(buf, p)
  }

  lemma Triangle32ReaderStrided(buf: seq<Byte>)
    ensures Strided(Triangle32Reader(buf), 12)
  {
  }

  lemma Triangle32ReaderSized(buf: seq<Byte>)
    ensures Strided(Triangle32Reader(buf), 12)
    ensures Sized(Triangle32Reader(buf), 12, |buf|)
    ensures FailsTruncated(Triangle32Reader(buf))
  {
  }

  /** An index block: a triangle count, then that many triangles. */
  function ReadIndicesData(buf: seq<Byte>, pos: nat): (r: Decoded<seq<Triangle>>)
    ensures r.Ok? ==> pos + 4 <= |buf| && |r.value.value| == WordAt(buf, pos) as int
    ensures r.Err? ==> r.error.Truncated?
  {
    var count :- ReadU32(buf, pos);
    Triangle32ReaderSized(buf);
    RepeatFailsTruncated(Triangle32Reader(buf), count.next, count.value);
    Repeat(Triangle32Reader(buf), count.next, count.value)
  }

  /** An index block can be read exactly when all its triangles fit, and
      then it occupies 4 + 12 * count bytes. */
  lemma ReadIndicesDataOk(buf: seq<Byte>, pos: nat)
    ensures ReadIndicesData(buf, pos).Ok? <==> pos + 4 <= |buf| && pos + 4 + 12 * WordAt(buf, pos) <= |buf|
    ensures ReadIndicesData(buf, pos).Ok? ==> ReadIndicesData(buf, pos).value.next == pos + 4 + 12 * WordAt(buf, pos)
  {
    if pos + 4 <= |buf| {
      var n: nat := WordAt(buf, pos);
      Triangle32ReaderSized(buf);
      RepeatSizedOk(Triangle32Reader(buf), 12, |buf|, pos + 4, n);
      SpanIsProduct(n, 12);
      if ReadIndicesData(buf, pos).Ok? {
        RepeatNext(Triangle32Reader(buf), 12, pos + 4, n);
      }
    }
  }

  /** Triangle `i` of an index block is the one stored `i` triangles after
      its count. */
  lemma ReadIndicesDataAt(buf: seq<Byte>, pos: nat, i: nat)
    requires ReadIndicesData(buf, pos).Ok? && i < |ReadIndicesData(buf, pos).value.value|
    ensures pos + 4 + 12 * i + 12 <= |buf|
    ensures ReadIndicesData(buf, pos).value.value[i] == Triangle32At(buf, pos + 4 + 12 * i)
  {
    ReadIndicesNth(buf, pos, i);
    SpanIsProduct(i, 12);
  }

  lemma ReadIndicesNth(buf: seq<Byte>, pos: nat, i: nat)
    requires ReadIndicesData(buf, pos).Ok? && i < |ReadIndicesData(buf, pos).value.value|
    ensures pos + 4 + Span(i, 12) + 12 <= |buf|
    ensures ReadIndicesData(buf, pos).value.value[i] == Triangle32At(buf, pos + 4 + Span(i, 12))
  {
    var n: nat := WordAt(buf, pos);
    var read := Triangle32Reader(buf);
    var at := pos + 4 + Span(i, 12);
    Triangle32ReaderStrided(buf);
    RepeatAt(read, 12, pos + 4, n, i);
    assert read(at) == ReadTriangle32(buf, at);
  }
}

=== FILE: scx_v3_scene.dfy ===
/** The body of an SCX version 3 file: meshes stored back to back, each a
    material, a vertex block and an index block, until a material of size
    0 or until no more than 4 bytes remain. */
module ScxV3Scene {
  import opened Results
  import opened Bytes
  import opened ScxV3
  import opened ScxV3Geometry

  datatype Mesh = Mesh(material: Material, vertex: VertexData, face: seq<Triangle>)

  /** The loop reads another mesh only while more than 4 bytes remain. */
  predicate Continues(buf: seq<Byte>, pos: nat)
  {
    pos + 4 < |buf|
  }

  /** The two geometry blocks that follow a material of the given size. */
  function ReadGeometry(buf: seq<Byte>, pos: nat, materialSize: U32): (r: Decoded<(VertexData, seq<Triangle>)>)
    ensures r.Ok? ==> pos + 8 <= r.value.next
    ensures r.Err? ==> r.error.Truncated?
  {
    var v :- ReadVertexData(buf, pos, materialSize);
    ReadVertexDataOk(buf, pos, materialSize);
    var f :- ReadIndicesData(buf, v.next);
    ReadIndicesDataOk(buf, v.next);
    Ok(Parsed((v.value, f.value), f.next))
  }

  /** One mesh, or `None` at an end marker (a material of size 0). */
  function ReadMesh(buf: seq<Byte>, pos: nat): (r: Decoded<Option<Mesh>>)
    ensures r.Ok? ==> pos + 4 <= |buf| && pos + 4 <= r.value.next
    ensures r.Ok? ==> (r.value.value.None? <==> WordAt(buf, pos) == 0)
    ensures r.Err? ==> r.error.Truncated?
  {
    var m :- ReadMaterial(buf, pos);
    match m.value
    case None => Ok(Parsed(None, m.next))
    case Some(material) =>
      var g :- ReadGeometry(buf, m.next, material.size);
      Ok(Parsed(Some(Mesh(material, g.value.0, g.value.1)), g.next))
  }

  /** An end marker takes 4 bytes; a mesh at least 64: 56 of material and
      4 for each block count. */
  lemma ReadMeshSpan(buf: seq<Byte>, pos: nat)
    requires ReadMesh(buf, pos).Ok?
    ensures ReadMesh(buf, pos).value.value.None? ==> ReadMesh(buf, pos).value.next == pos + 4
    ensures ReadMesh(buf, pos).value.value.Some? ==> pos + 64 <= ReadMesh(buf, pos).value.next
  {
    var m := ReadMaterial(buf, pos).value;
    assert m.next == pos + MaterialSpan(WordAt(buf, pos));
  }

  /** A mesh's material is the one stored at `pos`. */
  lemma ReadMeshMaterial(buf: seq<Byte>, pos: nat)
    requires ReadMesh(buf, pos).Ok? && ReadMesh(buf, pos).value.value.Some?
    ensures pos + 4 <= |buf| && WordAt(buf, pos) != 0 && pos + MaterialExtent(WordAt(buf, pos)) <= |buf|
    ensures ReadMesh(buf, pos).value.value.value.material == MaterialAt(buf, pos)
  {
    var m := ReadMaterial(buf, pos).value;
    assert m.value.Some?;
  }

  // ---------------------------------------------------------------------
  // Where a mesh's parts are stored

  /** Where the vertex block of the mesh stored at `at` starts: right
      after its material record. */
  function GeometryStart(buf: seq<Byte>, at: nat): nat
    requires at + 4 <= |buf|
  {
    at + MaterialSpan(WordAt(buf, at))
  }

  /** Where the index block of the mesh stored at `at` starts: one record
      stride per vertex after the vertex count. */
  function IndexStart(buf: seq<Byte>, at: nat): nat
    requires at + 4 <= |buf| && GeometryStart(buf, at) + 4 <= |buf|
  {
    VertexStart(GeometryStart(buf, at), Wide(WordAt(buf, at)), WordAt(buf, GeometryStart(buf, at)))
  }

  /** Whether the material size, vertex count and triangle count of the
      mesh stored at `at` all lie inside the data. */
  predicate Located(buf: seq<Byte>, at: nat)
  {
    && at + 4 <= |buf|
    && GeometryStart(buf, at) + 4 <= |buf|
    && IndexStart(buf, at) + 4 <= |buf|
  }

  /** Where the mesh stored at `at` ends: 12 bytes per triangle after the
      triangle count. */
  function MeshEnd(buf: seq<Byte>, at: nat): nat
    requires Located(buf, at)
  {
    IndexStart(buf, at) + 4 + 12 * WordAt(buf, IndexStart(buf, at))
  }

  /** A mesh is read as its material, then the vertex block right after
      the material record, then the index block right after the vertex
      block; it ends after the last triangle. */
  lemma ReadMeshAt(buf: seq<Byte>, pos: nat)
    requires ReadMesh(buf, pos).Ok? && ReadMesh(buf, pos).value.value.Some?
    ensures Located(buf, pos)
    ensures ReadVertexData(buf, GeometryStart(buf, pos), WordAt(buf, pos)).Ok?
    ensures ReadMesh(buf, pos).value.value.value.vertex ==
              ReadVertexData(buf, GeometryStart(buf, pos), WordAt(buf, pos)).value.value
    ensures ReadIndicesData(buf, IndexStart(buf, pos)).Ok?
    ensures ReadMesh(buf, pos).value.value.value.face == ReadIndicesData(buf, IndexStart(buf, pos)).value.value
    ensures ReadMesh(buf, pos).value.next == MeshEnd(buf, pos)
  {
    var m := ReadMaterial(buf, pos).value;
    var size := WordAt(buf, pos);
    ReadVertexDataOk(buf, m.next, size);
    var v := ReadVertexData(buf, m.next, size).value;
    ReadIndicesDataOk(buf, v.next);
  }

  /** A mesh fails to decode exactly when its material, or, after a
      material of non-zero size, its vertex block or its index block fails
      to. */
  lemma ReadMeshOk(buf: seq<Byte>, pos: nat)
    ensures ReadMesh(buf, pos).Ok? <==>
              && ReadMaterial(buf, pos).Ok?
              && (WordAt(buf, pos) != 0 ==>
                    && ReadVertexData(buf, GeometryStart(buf, pos), WordAt(buf, pos)).Ok?
                    && ReadIndicesData(buf, IndexStart(buf, pos)).Ok?)
  {
    if ReadMaterial(buf, pos).Ok? && WordAt(buf, pos) != 0 {
      var m := ReadMaterial(buf, pos).value;
      var size := WordAt(buf, pos);
      assert m.next == GeometryStart(buf, pos);
      ReadVertexDataOk(buf, m.next, size);
      if ReadVertexData(buf, m.next, size).Ok? {
        var v := ReadVertexData(buf, m.next, size).value;
        assert v.next == IndexStart(buf, pos);
      }
    }
  }

  /** The meshes from `pos` on, read while more than 4 bytes remain and
      until an end marker. */
  function ReadMeshes(buf: seq<Byte>, pos: nat): (r: Decoded<seq<Mesh>>)
    ensures r.Ok? ==> pos <= r.value.next
    ensures r.Err? ==> r.error.Truncated?
    decreases |buf| - pos
  {
    if !Continues(buf, pos) then Ok(Parsed([], pos))
    else
      var m :- ReadMesh(buf, pos);
      match m.value
      case None => Ok(Parsed([], m.next))
      case Some(mesh) =>
        var rest :- ReadMeshes(buf, m.next);
        Ok(Parsed([mesh] + rest.value, rest.next))
  }

  /** Where more than 4 bytes remain, the loop reads one mesh and goes on
      after it, or stops after an end marker. */
  lemma ReadMeshesStep(buf: seq<Byte>, pos: nat)
    requires Continues(buf, pos) && ReadMesh(buf, pos).Ok?
    ensures var m := ReadMesh(buf, pos).value;
      && (m.value.None? ==> ReadMeshes(buf, pos) == Ok(Parsed([], m.next)))
      && (m.value.Some? ==> ReadMeshes(buf, pos).Ok? == ReadMeshes(buf, m.next).Ok?)
      && (m.value.Some? && ReadMeshes(buf, pos).Ok? ==>
            ReadMeshes(buf, pos).value == Parsed([m.value.value] + ReadMeshes(buf, m.next).value.value, ReadMeshes(buf, m.next).value.next))
  {
  }

  /** Where the loop may stop: no more than 4 bytes remain, or an end
      marker lies just before. */
  predicate Stopped(buf: seq<Byte>, next: nat)
  {
    !Continues(buf, next) || (4 <= next && WordAt(buf, next - 4) == 0)
  }

  /** Whether the loop, standing at `at`, stops there without a mesh: no
      more than 4 bytes remain, or the material size stored there is 0. */
  predicate EndsAt(buf: seq<Byte>, at: nat)
  {
    !Continues(buf, at) || WordAt(buf, at) == 0
  }

  /** The loop yields no mesh exactly where it stops: with no more than 4
      bytes left it returns nothing and stays put, at an end marker it
      returns nothing and steps over the marker, and a mesh that fails to
      decode fails the loop. */
  lemma ReadMeshesNone(buf: seq<Byte>, at: nat)
    ensures (ReadMeshes(buf, at).Ok? && ReadMeshes(buf, at).value.value == []) <==> EndsAt(buf, at)
    ensures !Continues(buf, at) ==> ReadMeshes(buf, at) == Ok(Parsed([], at))
    ensures Continues(buf, at) && WordAt(buf, at) == 0 ==> ReadMeshes(buf, at) == Ok(Parsed([], at + 4))
    ensures Continues(buf, at) && ReadMesh(buf, at).Err? ==> ReadMeshes(buf, at).Err?
  {
    if Continues(buf, at) && WordAt(buf, at) == 0 {
      assert ReadMaterial(buf, at) == Ok(Parsed(None, at + 4));
    }
  }

  /** Each mesh the loop read took at least 64 bytes. */
  lemma {:induction false} ReadMeshesSpan(buf: seq<Byte>, pos: nat)
    requires ReadMeshes(buf, pos).Ok?
    ensures pos + Span(|ReadMeshes(buf, pos).value.value|, 64) <= ReadMeshes(buf, pos).value.next
    decreases |buf| - pos
  {
    if Continues(buf, pos) {
      var m := ReadMesh(buf, pos).value;
      ReadMeshesStep(buf, pos);
      if m.value.Some? {
        ReadMeshSpan(buf, pos);
        ReadMeshesSpan(buf, m.next);
        var rest := ReadMeshes(buf, m.next).value.value;
        assert |ReadMeshes(buf, pos).value.value| == 1 + |rest|;
        assert Span(1 + |rest|, 64) == 64 + Span(|rest|, 64);
      }
    }
  }

  /** What a decoded mesh promises about itself: the material's optional
      parts follow its size band, every vertex list has one entry per
      vertex, and third texture coordinates exist exactly for wide
      records. */
  predicate Consistent(m: Mesh)
  {
    && m.material.size > 0
    && (m.material.extension.Some? <==> m.material.size > 56)
    && (m.material.name.Some? <==> m.material.size > 104)
    && |m.vertex.position| == |m.vertex.normal| == |m.vertex.uv1| == |m.vertex.uv2| == |m.vertex.color| == m.vertex.count as int
    && |m.vertex.uv3| == (if m.material.size > 56 then m.vertex.count as int else 0)
  }

  lemma ReadMeshConsistent(buf: seq<Byte>, pos: nat)
    requires ReadMesh(buf, pos).Ok? && ReadMesh(buf, pos).value.value.Some?
    ensures Consistent(ReadMesh(buf, pos).value.value.value)
  {
    MaterialShape(buf, pos);
    var material := ReadMaterial(buf, pos).value;
    var size := material.value.value.size;
    var g := ReadGeometry(buf, material.next, size);
    ReadGeometryLengths(buf, material.next, size);
    assert ReadMesh(buf, pos).value.value.value == Mesh(material.value.value, g.value.value.0, g.value.value.1);
  }

  lemma ReadGeometryLengths(buf: seq<Byte>, pos: nat, materialSize: U32)
    requires ReadGeometry(buf, pos, materialSize).Ok?
    ensures var d := ReadGeometry(buf, pos, materialSize).value.value.0;
      && |d.position| == |d.normal| == |d.uv1| == |d.uv2| == |d.color| == d.count as int
      && |d.uv3| == if materialSize > 56 then d.count as int else 0
  {
    ReadVertexDataLengths(buf, pos, materialSize);
  }

  /** Every mesh the loop decodes is consistent. */
  lemma {:induction false} ReadMeshesConsistent(buf: seq<Byte>, pos: nat)
    requires ReadMeshes(buf, pos).Ok?
    ensures forall k :: 0 <= k < |ReadMeshes(buf, pos).value.value| ==> Consistent(ReadMeshes(buf, pos).value.value[k])
    decreases |buf| - pos
  {
    if Continues(buf, pos) {
      var m := ReadMesh(buf, pos).value;
      ReadMeshesStep(buf, pos);
      if m.value.Some? {
        ReadMeshConsistent(buf, pos);
        ReadMeshesConsistent(buf, m.next);
      }
    }
  }

  /** The first mesh's material is the one stored where the loop starts. */
  lemma ReadMeshesFirst(buf: seq<Byte>, pos: nat)
    requires ReadMeshes(buf, pos).Ok? && |ReadMeshes(buf, pos).value.value| > 0
    ensures Continues(buf, pos) && ReadMesh(buf, pos).Ok? && ReadMesh(buf, pos).value.value.Some?
    ensures pos + 4 <= |buf| && WordAt(buf, pos) != 0 && pos + MaterialExtent(WordAt(buf, pos)) <= |buf|
    ensures ReadMeshes(buf, pos).value.value[0].material == MaterialAt(buf, pos)
  {
    ReadMeshesStep(buf, pos);
    ReadMeshMaterial(buf, pos);
  }

  /** Where the mesh after the one stored at `at` starts. Where the counts
      do not lie inside the data the position stays put; the loop decodes
      no mesh from there on. */
  function NextMesh(buf: seq<Byte>, at: nat): nat
  {
    if Located(buf, at) then MeshEnd(buf, at) else at
  }

  function MeshStep(buf: seq<Byte>): nat -> nat
  {
    (at: nat) => NextMesh(buf, at)
  }

  /** Where mesh `k` of a run that starts at `pos` is stored: each mesh
      begins where the one before it ends. */
  function MeshStart(buf: seq<Byte>, pos: nat, k: nat): nat
  {
    Iterate(MeshStep(buf), pos, k)
  }

  /** A loop that yields a mesh read it where it started. */
  lemma ReadMeshesHead(buf: seq<Byte>, pos: nat)
    requires ReadMeshes(buf, pos).Ok? && |ReadMeshes(buf, pos).value.value| > 0
    ensures MeshStoredAt(buf, pos, ReadMeshes(buf, pos).value.value[0])
  {
    ReadMeshesStep(buf, pos);
  }

  /** A loop that yields a mesh goes on from that mesh's end. */
  lemma ReadMeshesRest(buf: seq<Byte>, pos: nat)
    requires ReadMeshes(buf, pos).Ok? && |ReadMeshes(buf, pos).value.value| > 0
    ensures Located(buf, pos) && ReadMeshes(buf, MeshEnd(buf, pos)).Ok?
    ensures ReadMeshes(buf, pos).value.value[1..] == ReadMeshes(buf, MeshEnd(buf, pos)).value.value
    ensures ReadMeshes(buf, pos).value.next == ReadMeshes(buf, MeshEnd(buf, pos)).value.next
  {
    ReadMeshesStep(buf, pos);
    ReadMeshAt(buf, pos);
  }

  /** Whether the loop, standing at `at`, goes on to read mesh `m` there. */
  predicate MeshStoredAt(buf: seq<Byte>, at: nat, m: Mesh)
  {
    Continues(buf, at) && ReadMesh(buf, at).Ok? && ReadMesh(buf, at).value.value == Some(m)
  }

  /** The loop as a partial function of where it starts. */
  function MeshRun(buf: seq<Byte>): nat -> Option<seq<Mesh>>
  {
    (p: nat) => if ReadMeshes(buf, p).Ok? then Some(ReadMeshes(buf, p).value.value) else None
  }

  /** The loop goes on from the end of every mesh it yields. */
  lemma MeshRunShifts(buf: seq<Byte>)
    ensures Shifts(MeshRun(buf), MeshStep(buf))
  {
    forall p: nat | MeshRun(buf)(p).Some? && |MeshRun(buf)(p).value| > 0
      ensures MeshRun(buf)(MeshStep(buf)(p)).Some?
      ensures MeshRun(buf)(p).value[1..] == MeshRun(buf)(MeshStep(buf)(p)).value
    {
      ReadMeshesRest(buf, p);
      assert MeshStep(buf)(p) == MeshEnd(buf, p);
    }
  }

  /** After `k` meshes, the loop goes on exactly as a loop started at the
      `k`-th boundary. */
  lemma ReadMeshesDrop(buf: seq<Byte>, pos: nat, k: nat)
    requires ReadMeshes(buf, pos).Ok? && k <= |ReadMeshes(buf, pos).value.value|
    ensures ReadMeshes(buf, MeshStart(buf, pos, k)).Ok?
    ensures ReadMeshes(buf, pos).value.value[k..] == ReadMeshes(buf, MeshStart(buf, pos, k)).value.value
  {
    MeshRunShifts(buf);
    DropIterate(MeshRun(buf), MeshStep(buf), pos, k);
  }

  /** Mesh `k` of the loop is the mesh stored at the `k`-th boundary: the
      meshes come out in the order they are stored. */
  lemma ReadMeshesAt(buf: seq<Byte>, pos: nat, k: nat)
    requires ReadMeshes(buf, pos).Ok? && k < |ReadMeshes(buf, pos).value.value|
    ensures MeshStoredAt(buf, MeshStart(buf, pos, k), ReadMeshes(buf, pos).value.value[k])
  {
    var meshes := ReadMeshes(buf, pos).value.value;
    var at := MeshStart(buf, pos, k);
    ReadMeshesDrop(buf, pos, k);
    ReadMeshesHead(buf, at);
    assert meshes[k] == meshes[k..][0];
  }

  /** Mesh `k` of the loop, part by part: the material stored at the
      `k`-th boundary, the vertex block after it and the index block after
      that. */
  lemma ReadMeshesParts(buf: seq<Byte>, pos: nat, k: nat)
    requires ReadMeshes(buf, pos).Ok? && k < |ReadMeshes(buf, pos).value.value|
    ensures var at := MeshStart(buf, pos, k);
      && Located(buf, at) && WordAt(buf, at) != 0 && at + MaterialExtent(WordAt(buf, at)) <= |buf|
      && ReadMeshes(buf, pos).value.value[k].material == MaterialAt(buf, at)
    ensures var at := MeshStart(buf, pos, k);
      && Located(buf, at)
      && ReadVertexData(buf, GeometryStart(buf, at), WordAt(buf, at)).Ok?
      && ReadMeshes(buf, pos).value.value[k].vertex == ReadVertexData(buf, GeometryStart(buf, at), WordAt(buf, at)).value.value
    ensures var at := MeshStart(buf, pos, k);
      && Located(buf, at)
      && ReadIndicesData(buf, IndexStart(buf, at)).Ok?
      && ReadMeshes(buf, pos).value.value[k].face == ReadIndicesData(buf, IndexStart(buf, at)).value.value
  {
    var at := MeshStart(buf, pos, k);
    ReadMeshesAt(buf, pos, k);
    ReadMeshMaterial(buf, at);
    ReadMeshAt(buf, at);
  }

  /** Where the loop finishes, as a function of where it starts. */
  function MeshRunEnd(buf: seq<Byte>): nat -> nat
  {
    (p: nat) => if ReadMeshes(buf, p).Ok? then ReadMeshes(buf, p).value.next else p
  }

  /** The loop finishes where the loop from the end of its first mesh
      does. */
  lemma MeshRunKeepsEnd(buf: seq<Byte>)
    ensures KeepsEnd(MeshRun(buf), MeshStep(buf), MeshRunEnd(buf))
  {
    forall p: nat | MeshRun(buf)(p).Some? && |MeshRun(buf)(p).value| > 0
      ensures MeshRunEnd(buf)(MeshStep(buf)(p)) == MeshRunEnd(buf)(p)
    {
      ReadMeshesRest(buf, p);
      assert MeshStep(buf)(p) == MeshEnd(buf, p);
    }
  }

  /** Past its last mesh, the loop is the loop started at the boundary
      after that mesh: it yields nothing there and finishes where the
      whole loop finishes. */
  lemma ReadMeshesTail(buf: seq<Byte>, pos: nat)
    requires ReadMeshes(buf, pos).Ok?
    ensures var at := MeshStart(buf, pos, |ReadMeshes(buf, pos).value.value|);
      && ReadMeshes(buf, at).Ok? && ReadMeshes(buf, at).value.value == []
      && ReadMeshes(buf, pos).value.next == ReadMeshes(buf, at).value.next
  {
    var n := |ReadMeshes(buf, pos).value.value|;
    ReadMeshesDrop(buf, pos, n);
    MeshRunShifts(buf);
    MeshRunKeepsEnd(buf);
    DropIterateEnd(MeshRun(buf), MeshStep(buf), MeshRunEnd(buf), pos, n);
  }

  /** The loop stops at the boundary after its last mesh: there no more
      than 4 bytes remain and the loop ends right there, or an end marker
      is stored there and the loop ends right after it. */
  lemma ReadMeshesEnd(buf: seq<Byte>, pos: nat)
    requires ReadMeshes(buf, pos).Ok?
    ensures var at := MeshStart(buf, pos, |ReadMeshes(buf, pos).value.value|);
      var next := ReadMeshes(buf, pos).value.next;
      || (!Continues(buf, at) && next == at)
      || (Continues(buf, at) && WordAt(buf, at) == 0 && next == at + 4)
    ensures Stopped(buf, ReadMeshes(buf, pos).value.next)
  {
    var at := MeshStart(buf, pos, |ReadMeshes(buf, pos).value.value|);
    ReadMeshesTail(buf, pos);
    ReadMeshesNone(buf, at);
  }

  /** Whether the loop, standing at `at`, reads a mesh there. */
  predicate ReadsMesh(buf: seq<Byte>, at: nat)
  {
    Continues(buf, at) && ReadMesh(buf, at).Ok? && ReadMesh(buf, at).value.value.Some?
  }

  /** `ReadsMesh` as a function of where the loop stands. */
  function MeshAhead(buf: seq<Byte>): nat -> bool
  {
    (p: nat) => ReadsMesh(buf, p)
  }

  /** Reading a mesh adds one to the meshes the loop yields after it. */
  lemma MeshRunGrows(buf: seq<Byte>)
    ensures Grows(MeshRun(buf), MeshStep(buf), MeshAhead(buf))
  {
    forall p: nat | MeshAhead(buf)(p) && MeshRun(buf)(MeshStep(buf)(p)).Some?
      ensures MeshRun(buf)(p).Some? && |MeshRun(buf)(p).value| == 1 + |MeshRun(buf)(MeshStep(buf)(p)).value|
    {
      ReadMeshAt(buf, p);
      assert MeshStep(buf)(p) == ReadMesh(buf, p).value.next;
      ReadMeshesStep(buf, p);
    }
  }

  /** A loop that decodes `count` meshes read one at each of the first
      `count` boundaries and stopped at the next. */
  lemma ReadMeshesOnlyIf(buf: seq<Byte>, pos: nat, count: nat)
    requires ReadMeshes(buf, pos).Ok? && |ReadMeshes(buf, pos).value.value| == count
    ensures forall k: nat :: k < count ==> ReadsMesh(buf, MeshStart(buf, pos, k))
    ensures EndsAt(buf, MeshStart(buf, pos, count))
  {
    forall k: nat | k < count
      ensures ReadsMesh(buf, MeshStart(buf, pos, k))
    {
      ReadMeshesAt(buf, pos, k);
    }
    ReadMeshesEnd(buf, pos);
  }

  /** Meshes at each of the first `count` boundaries and a stop at the
      next make the loop decode exactly `count` meshes. */
  lemma ReadMeshesIf(buf: seq<Byte>, pos: nat, count: nat)
    requires forall k: nat :: k < count ==> ReadsMesh(buf, MeshStart(buf, pos, k))
    requires EndsAt(buf, MeshStart(buf, pos, count))
    ensures ReadMeshes(buf, pos).Ok? && |ReadMeshes(buf, pos).value.value| == count
  {
    var at := MeshStart(buf, pos, count);
    ReadMeshesNone(buf, at);
    assert MeshRun(buf)(Iterate(MeshStep(buf), pos, count)).Some?;
    forall i: nat | i < count
      ensures MeshAhead(buf)(Iterate(MeshStep(buf), pos, i))
    {
      assert ReadsMesh(buf, MeshStart(buf, pos, i));
    }
    MeshRunGrows(buf);
    BuildIterate(MeshRun(buf), MeshStep(buf), MeshAhead(buf), pos, count);
  }

  /** The loop decodes exactly `count` meshes exactly when a mesh is read
      at each of the first `count` boundaries and the loop stops at the
      next one. */
  lemma ReadMeshesOk(buf: seq<Byte>, pos: nat, count: nat)
    ensures (ReadMeshes(buf, pos).Ok? && |ReadMeshes(buf, pos).value.value| == count) <==>
              && (forall k: nat :: k < count ==> ReadsMesh(buf, MeshStart(buf, pos, k)))
              && EndsAt(buf, MeshStart(buf, pos, count))
  {
    if ReadMeshes(buf, pos).Ok? && |ReadMeshes(buf, pos).value.value| == count {
      ReadMeshesOnlyIf(buf, pos, count);
    }
    if (forall k: nat :: k < count ==> ReadsMesh(buf, MeshStart(buf, pos, k))) && EndsAt(buf, MeshStart(buf, pos, count)) {
      ReadMeshesIf(buf, pos, count);
    }
  }
}

=== FILE: scx_v4.dfy ===
/** The SCX version 4 decoder: an offset table of (entry type, absolute
    offset) pairs, each entry decoded at its offset as a material, vertex
    or index block, and the entries grouped into meshes. Positions in this
    module are absolute byte offsets into the whole file. */
module ScxV4 {
  import opened Results
  import opened Bytes
  import opened Floats
  import opened Flags

  // ---------------------------------------------------------------------
  // Vertex-type flags

  /** The vertex-type flag table, in the order the importer lists it. */
  const VertexTypeTable: seq<Flag> := [
    Flag("Position", 0x1),
    Flag("BoneWeight0", 0x2),
    Flag("BoneWeight1", 0x4),
    Flag("BoneWeight2", 0x8),
    Flag("BoneWeight3", 0x10),
    Flag("BoneIndRef", 0x20),
    Flag("Normal", 0x40),
    Flag("VertexEmissive", 0x80),
    Flag("VertexColor", 0x100),
    Flag("UV1", 0x200),
    Flag("UV2", 0x400),
    Flag("UV3", 0x800),
    Flag("BumpMapNormal", 0x40000)
  ]

  /** Every bit some row of the vertex-type table tests. */
  const VertexTypeBits: bv32 := 0x40FFF

  /** The flags of a vertex block. The stored value is kept as it was read;
      each attribute is set when the value shares a bit with its mask. */
  datatype VertexTypeFlags = VertexTypeFlags(value: bv32) {
    /** The attribute named by row `i` of the table. */
    predicate Row(i: nat)
      requires i < |VertexTypeTable|
    {
      Hit(value, VertexTypeTable[i].mask)
    }

    predicate Position() { Hit(value, 0x1) }
    predicate BoneWeight0() { Hit(value, 0x2) }
    predicate BoneWeight1() { Hit(value, 0x4) }
    predicate BoneWeight2() { Hit(value, 0x8) }
    predicate BoneWeight3() { Hit(value, 0x10) }
    predicate BoneIndRef() { Hit(value, 0x20) }
    predicate Normal() { Hit(value, 0x40) }
    predicate VertexEmissive() { Hit(value, 0x80) }
    predicate VertexColor() { Hit(value, 0x100) }
    predicate UV1() { Hit(value, 0x200) }
    predicate UV2() { Hit(value, 0x400) }
    predicate UV3() { Hit(value, 0x800) }
    predicate BumpMapNormal() { Hit(value, 0x40000) }

    function Int(): nat { value as nat }

    function ToString(): string { Render(VertexTypeTable, value) }
  }

  /** Each named accessor is the table row that carries its name. */
  lemma VertexTypeFlagsRows(f: VertexTypeFlags)
    ensures f.Position() == f.Row(0)
    ensures f.BoneWeight0() == f.Row(1)
    ensures f.BoneWeight1() == f.Row(2)
    ensures f.BoneWeight2() == f.Row(3)
    ensures f.BoneWeight3() == f.Row(4)
    ensures f.BoneIndRef() == f.Row(5)
    ensures f.Normal() == f.Row(6)
    ensures f.VertexEmissive() == f.Row(7)
    ensures f.VertexColor() == f.Row(8)
    ensures f.UV1() == f.Row(9)
    ensures f.UV2() == f.Row(10)
    ensures f.UV3() == f.Row(11)
    ensures f.BumpMapNormal() == f.Row(12)
  {
  }

  /** Every mask of the table lies within `VertexTypeBits`, so bits outside
      it cannot change whether a row hits. */
  lemma VertexTypeMasksWithin(v: bv32, w: bv32, i: nat)
    requires i < |VertexTypeTable|
    requires v & VertexTypeBits == w & VertexTypeBits
    ensures Hit(v, VertexTypeTable[i].mask) == Hit(w, VertexTypeTable[i].mask)
  {
    var m := VertexTypeTable[i].mask;
    if i == 0 {
      assert m == 0x1;
      assert v & 0x1 == (v & VertexTypeBits) & 0x1;
      assert w & 0x1 == (w & VertexTypeBits) & 0x1;
    } else if i == 1 {
      assert m == 0x2;
      assert v & 0x2 == (v & VertexTypeBits) & 0x2;
      assert w & 0x2 == (w & VertexTypeBits) & 0x2;
    } else if i == 2 {
      assert m == 0x4;
      assert v & 0x4 == (v & VertexTypeBits) & 0x4;
      assert w & 0x4 == (w & VertexTypeBits) & 0x4;
    } else if i == 3 {
      assert m == 0x8;
      assert v & 0x8 == (v & VertexTypeBits) & 0x8;
      assert w & 0x8 == (w & VertexTypeBits) & 0x8;
    } else if i == 4 {
      assert m == 0x10;
      assert v & 0x10 == (v & VertexTypeBits) & 0x10;
      assert w & 0x10 == (w & VertexTypeBits) & 0x10;
    } else if i == 5 {
      assert m == 0x20;
      assert v & 0x20 == (v & VertexTypeBits) & 0x20;
      assert w & 0x20 == (w & VertexTypeBits) & 0x20;
    } else if i == 6 {
      assert m == 0x40;
      assert v & 0x40 == (v & VertexTypeBits) & 0x40;
      assert w & 0x40 == (w & VertexTypeBits) & 0x40;
    } else if i == 7 {
      assert m == 0x80;
      assert v & 0x80 == (v & VertexTypeBits) & 0x80;
      assert w & 0x80 == (w & VertexTypeBits) & 0x80;
    } else if i == 8 {
      assert m == 0x100;
      assert v & 0x100 == (v & VertexTypeBits) & 0x100;
      assert w & 0x100 == (w & VertexTypeBits) & 0x100;
    } else if i == 9 {
      assert m == 0x200;
      assert v & 0x200 == (v & VertexTypeBits) & 0x200;
      assert w & 0x200 == (w & VertexTypeBits) & 0x200;
    } else if i == 10 {
      assert m == 0x400;
      assert v & 0x400 == (v & VertexTypeBits) & 0x400;
      assert w & 0x400 == (w & VertexTypeBits) & 0x400;
    } else if i == 11 {
      assert m == 0x800;
      assert v & 0x800 == (v & VertexTypeBits) & 0x800;
      assert w & 0x800 == (w & VertexTypeBits) & 0x800;
    } else {
      assert m == 0x40000;
      assert v & 0x40000 == (v & VertexTypeBits) & 0x40000;
      assert w & 0x40000 == (w & VertexTypeBits) & 0x40000;
    }
  }

  /** Bits outside the listed masks have no effect on any attribute; only
      `Int` still tells the two values apart. */
  lemma VertexTypeFlagsIgnoreOtherBits(v: bv32, w: bv32)
    requires v & VertexTypeBits == w & VertexTypeBits
    ensures VertexTypeFlags(v).Position() == VertexTypeFlags(w).Position()
    ensures VertexTypeFlags(v).BoneWeight0() == VertexTypeFlags(w).BoneWeight0()
    ensures VertexTypeFlags(v).BoneWeight1() == VertexTypeFlags(w).BoneWeight1()
    ensures VertexTypeFlags(v).BoneWeight2() == VertexTypeFlags(w).BoneWeight2()
    ensures VertexTypeFlags(v).BoneWeight3() == VertexTypeFlags(w).BoneWeight3()
    ensures VertexTypeFlags(v).BoneIndRef() == VertexTypeFlags(w).BoneIndRef()
    ensures VertexTypeFlags(v).Normal() == VertexTypeFlags(w).Normal()
    ensures VertexTypeFlags(v).VertexEmissive() == VertexTypeFlags(w).VertexEmissive()
    ensures VertexTypeFlags(v).VertexColor() == VertexTypeFlags(w).VertexColor()
    ensures VertexTypeFlags(v).UV1() == VertexTypeFlags(w).UV1()
    ensures VertexTypeFlags(v).UV2() == VertexTypeFlags(w).UV2()
    ensures VertexTypeFlags(v).UV3() == VertexTypeFlags(w).UV3()
    ensures VertexTypeFlags(v).BumpMapNormal() == VertexTypeFlags(w).BumpMapNormal()
  {
    VertexTypeMasksWithin(v, w, 0);
    VertexTypeMasksWithin(v, w, 1);
    VertexTypeMasksWithin(v, w, 2);
    VertexTypeMasksWithin(v, w, 3);
    VertexTypeMasksWithin(v, w, 4);
    VertexTypeMasksWithin(v, w, 5);
    VertexTypeMasksWithin(v, w, 6);
    VertexTypeMasksWithin(v, w, 7);
    VertexTypeMasksWithin(v, w, 8);
    VertexTypeMasksWithin(v, w, 9);
    VertexTypeMasksWithin(v, w, 10);
    VertexTypeMasksWithin(v, w, 11);
    VertexTypeMasksWithin(v, w, 12);
  }

  /** The same holds for every row of the table and for the rendered text. */
  lemma VertexTypeTableIgnoresOtherBits(v: bv32, w: bv32)
    requires v & VertexTypeBits == w & VertexTypeBits
    ensures forall i :: 0 <= i < |VertexTypeTable| ==> VertexTypeFlags(v).Row(i) == VertexTypeFlags(w).Row(i)
    ensures VertexTypeFlags(v).ToString() == VertexTypeFlags(w).ToString()
  {
    forall i | 0 <= i < |VertexTypeTable|
      ensures Hit(v, VertexTypeTable[i].mask) == Hit(w, VertexTypeTable[i].mask)
    {
      VertexTypeMasksWithin(v, w, i);
    }
    LabelsIgnoreOtherBits(VertexTypeTable, v, w);
  }

  /** A label appears in the rendered list exactly when its own flag is
      set: no two rows share a name. */
  lemma VertexTypeLabelListed(v: bv32, i: nat)
    requires i < |VertexTypeTable|
    ensures VertexTypeTable[i].name in Labels(VertexTypeTable, v) <==> VertexTypeFlags(v).Row(i)
  {
    LabelsMembership(VertexTypeTable, v, VertexTypeTable[i].name);
    if VertexTypeTable[i].name in Labels(VertexTypeTable, v) {
      var j :| 0 <= j < |VertexTypeTable| && VertexTypeTable[j].name == VertexTypeTable[i].name && Hit(v, VertexTypeTable[j].mask);
      DistinctVertexTypeNames(i, j);
    }
  }

  lemma DistinctVertexTypeNames(i: nat, j: nat)
    requires i < |VertexTypeTable| && j < |VertexTypeTable|
    requires VertexTypeTable[i].name == VertexTypeTable[j].name
    ensures i == j
  {
  }

  // ---------------------------------------------------------------------
  // Material block

  /** A texture-map descriptor. */
  datatype MaterialMap = MaterialMap(
    index: U32,
    channel: U32,
    tilingFlag: U32,
    tiling: (Float, Float),
    offset: (Float, Float))

  /** The 28-byte descriptor at `at`: three words, then two pairs of singles. */
  function MaterialMapAt(buf: seq<Byte>, at: nat): MaterialMap
    requires at + 28 <= |buf|
  {
    MaterialMap(
      WordAt(buf, at), WordAt(buf, at + 4), WordAt(buf, at + 8),
      (Single(WordAt(buf, at + 12)), Single(WordAt(buf, at + 16))),
      (Single(WordAt(buf, at + 20)), Single(WordAt(buf, at + 24))))
  }

  function ReadMaterialMap(buf: seq<Byte>, pos: nat): (r: Decoded<MaterialMap>)
    ensures r.Ok? <==> pos + 28 <= |buf|
    ensures r.Ok? ==> r.value == Parsed(MaterialMapAt(buf, pos), pos + 28)
    ensures r.Err? ==> r.error.Truncated?
  {
    var index :- ReadU32(buf, pos);
    var channel :- ReadU32(buf, index.next);
    var tilingFlag :- ReadU32(buf, channel.next);
    var tilingU :- ReadSingle(buf, tilingFlag.next);
    var tilingV :- ReadSingle(buf, tilingU.next);
    var offsetU :- ReadSingle(buf, tilingV.next);
    var offsetV :- ReadSingle(buf, offsetU.next);
    Ok(Parsed(
      MaterialMap(index.value, channel.value, tilingFlag.value,
                  (tilingU.value, tilingV.value), (offsetU.value, offsetV.value)),
      offsetV.next))
  }

  /** The material properties a tagged entry can set. */
  datatype MaterialKey =
    | DiffuseColor | SpecularColor | EmissiveColor
    | SpecularIntensity | ReflectionIntensity | BumpIntensity
    | DiffuseMap | DiffuseMixSecond | BumpMap | ReflectionMap | EmissiveMap
    | Name

  datatype MaterialValue =
    | ColorValue(color: Rgba)
    | IntensityValue(intensity: Float)
    | MapValue(texture: MaterialMap)
    | NameValue(name: seq<Byte>)

  /** A decoded material: the properties its entries set, each holding the
      value of the last entry that set it. */
  type Material = map<MaterialKey, MaterialValue>

  /** The property an entry tag sets; other tags set nothing. */
  function KeyOf(tag: U32): Option<MaterialKey>
  {
    if tag == 0x0000_0000 then Some(DiffuseColor)
    else if tag == 0x0000_0001 then Some(SpecularColor)
    else if tag == 0x0000_0002 then Some(EmissiveColor)
    else if tag == 0x0100_0000 then Some(SpecularIntensity)
    else if tag == 0x0100_0001 then Some(ReflectionIntensity)
    else if tag == 0x0100_0002 then Some(BumpIntensity)
    else if tag == 0x0600_0000 then Some(DiffuseMap)
    else if tag == 0x0600_0001 then Some(DiffuseMixSecond)
    else if tag == 0x0600_0002 then Some(BumpMap)
    else if tag == 0x0600_0003 then Some(ReflectionMap)
    else if tag == 0x0600_0004 then Some(EmissiveMap)
    else if tag == 0x0800_0000 then Some(Name)
    else None
  }

  /** The four shapes a payload can take. */
  datatype PayloadKind = ColorPayload | IntensityPayload | MapPayload | NamePayload

  function KindOf(key: MaterialKey): PayloadKind
  {
    match key
    case DiffuseColor | SpecularColor | EmissiveColor => ColorPayload
    case SpecularIntensity | ReflectionIntensity | BumpIntensity => IntensityPayload
    case DiffuseMap | DiffuseMixSecond | BumpMap | ReflectionMap | EmissiveMap => MapPayload
    case Name => NamePayload
  }

  /** Bytes the payload of a property occupies after its tag. */
  function PayloadSize(key: MaterialKey): nat
  {
    match KindOf(key)
    case ColorPayload => 4
    case IntensityPayload => 4
    case MapPayload => 28
    case NamePayload => 32
  }

  /** Bytes a whole entry occupies: its tag, and the payload if the tag is known. */
  function EntrySize(tag: U32): nat
  {
    match KeyOf(tag)
    case Some(k) => 4 + PayloadSize(k)
    case None => 4
  }

  /** The payload of `key` stored at `at`: colour bytes scaled to [0, 1],
      intensities divided by 100, map descriptors, or a 32-byte name. */
  function PayloadAt(buf: seq<Byte>, at: nat, key: MaterialKey): MaterialValue
    requires at + PayloadSize(key) <= |buf|
  {
    match KindOf(key)
    case ColorPayload => ColorValue(ColorAt(buf, at))
    case IntensityPayload => IntensityValue(Quot(Single(WordAt(buf, at)), 100))
    case MapPayload => MapValue(MaterialMapAt(buf, at))
    case NamePayload => NameValue(UntilNul(buf[at..at + 32]))
  }

  function ReadPayload(buf: seq<Byte>, pos: nat, key: MaterialKey): (r: Decoded<MaterialValue>)
    ensures r.Ok? <==> pos + PayloadSize(key) <= |buf|
    ensures r.Ok? ==> r.value == Parsed(PayloadAt(buf, pos, key), pos + PayloadSize(key))
    ensures r.Err? ==> r.error.Truncated?
  {
    match KindOf(key)
    case ColorPayload =>
      var c :- ReadColor(buf, pos);
      Ok(Parsed(ColorValue(c.value), c.next))
    case IntensityPayload =>
      var x :- ReadSingle(buf, pos);
      Ok(Parsed(IntensityValue(Quot(x.value, 100)), x.next))
    case MapPayload =>
      var t :- ReadMaterialMap(buf, pos);
      Ok(Parsed(MapValue(t.value), t.next))
    case NamePayload =>
      var n :- ReadNulTerminated(buf, pos, 32);
      Ok(Parsed(NameValue(n.value), n.next))
  }

  /** One tagged entry read into `m`: a known tag overwrites its property,
      an unknown tag consumes only its own 4 bytes and sets nothing. */
  function ReadMaterialEntry(buf: seq<Byte>, pos: nat, m: Material): (r: Decoded<Material>)
    ensures r.Ok? <==> pos + 4 <= |buf| && pos + EntrySize(WordAt(buf, pos)) <= |buf|
    ensures r.Ok? ==> r.value.next == pos + EntrySize(WordAt(buf, pos))
    ensures r.Ok? ==> r.value.value == match KeyOf(WordAt(buf, pos))
                                      case None => m
                                      case Some(k) => m[k := PayloadAt(buf, pos + 4, k)]
    ensures r.Err? ==> r.error.Truncated?
  {
    var tag :- ReadU32(buf, pos);
    match KeyOf(tag.value)
    case None => Ok(Parsed(m, tag.next))
    case Some(k) =>
      var v :- ReadPayload(buf, tag.next, k);
      Ok(Parsed(m[k := v.value], v.next))
  }

  /** `n` entries read one after another into `m`. */
  function ReadMaterialEntries(buf: seq<Byte>, pos: nat, n: nat, m: Material): (r: Decoded<Material>)
    ensures r.Ok? ==> pos + 4 * n <= r.value.next <= pos + 36 * n
    ensures r.Ok? ==> m.Keys <= r.value.value.Keys
    ensures r.Err? ==> r.error.Truncated?
    decreases n
  {
    if n == 0 then Ok(Parsed(m, pos))
    else
      var e :- ReadMaterialEntry(buf, pos, m);
      ReadMaterialEntries(buf, e.next, n - 1, e.value)
  }

  /** A material block: 16 unused bytes, an entry count, then the entries. */
  function ReadMaterialData(buf: seq<Byte>, pos: nat): (r: Decoded<Material>)
    ensures r.Ok? ==> pos + 20 <= |buf|
    ensures r.Ok? ==> var n := WordAt(buf, pos + 16);
                      pos + 20 + 4 * n <= r.value.next <= pos + 20 + 36 * n
    ensures pos + 20 > |buf| ==> r == Err(Truncated(pos + 16, 4))
    ensures r.Err? ==> r.error.Truncated?
  {
    var count :- ReadU32(buf, pos + 16);
    ReadMaterialEntries(buf, count.next, count.value, map[])
  }

  /** Where the entry after the one stored at `at` starts, judged by its
      tag alone; where no tag fits the position stays put. */
  function EntryNext(buf: seq<Byte>, at: nat): nat
  {
    if at + 4 <= |buf| then at + EntrySize(WordAt(buf, at)) else at
  }

  function EntryStep(buf: seq<Byte>): nat -> nat
  {
    (at: nat) => EntryNext(buf, at)
  }

  /** Where entry `k` of a run that starts at `pos` is stored: each entry
      begins where the one before it ends. */
  function EntryStart(buf: seq<Byte>, pos: nat, k: nat): nat
  {
    Iterate(EntryStep(buf), pos, k)
  }

  /** Whether the entry stored at `at`, tag and payload, lies inside the data. */
  predicate EntryFits(buf: seq<Byte>, at: nat)
  {
    at + 4 <= |buf| && at + EntrySize(WordAt(buf, at)) <= |buf|
  }

  /** Whether each of the `n` entries stored from `at` on lies inside the data. */
  predicate EntriesFit(buf: seq<Byte>, at: nat, n: nat)
  {
    forall k: nat :: k < n ==> EntryFits(buf, EntryStart(buf, at, k))
  }

  /** `n` entries decode exactly when each of them lies inside the data,
      and the read ends where the next entry would start. */
  lemma {:induction false} ReadMaterialEntriesOk(buf: seq<Byte>, pos: nat, n: nat, m: Material)
    ensures ReadMaterialEntries(buf, pos, n, m).Ok? <==> EntriesFit(buf, pos, n)
    ensures ReadMaterialEntries(buf, pos, n, m).Ok? ==> ReadMaterialEntries(buf, pos, n, m).value.next == EntryStart(buf, pos, n)
    decreases n
  {
    assert EntryStart(buf, pos, 0) == pos;
    if n > 0 && ReadMaterialEntry(buf, pos, m).Ok? {
      var e := ReadMaterialEntry(buf, pos, m).value;
      assert e.next == EntryStep(buf)(pos);
      ReadMaterialEntriesOk(buf, e.next, n - 1, e.value);
      forall k: nat | 0 < k <= n
        ensures EntryStart(buf, pos, k) == EntryStart(buf, e.next, k - 1)
      {
      }
      assert EntryFits(buf, pos);
      if EntriesFit(buf, e.next, n - 1) {
        forall k: nat | k < n
          ensures EntryFits(buf, EntryStart(buf, pos, k))
        {
          if k > 0 {
            assert EntryStart(buf, pos, k) == EntryStart(buf, e.next, k - 1);
          }
        }
      } else {
        var k: nat :| k < n - 1 && !EntryFits(buf, EntryStart(buf, e.next, k));
        assert EntryStart(buf, pos, k + 1) == EntryStart(buf, e.next, k);
      }
    }
  }

  /** A material block decodes exactly when its count fits and each of the
      entries it counts lies inside the data, and the block ends where the
      entry after the last would start. */
  lemma ReadMaterialDataOk(buf: seq<Byte>, pos: nat)
    ensures ReadMaterialData(buf, pos).Ok? <==>
              && pos + 20 <= |buf|
              && EntriesFit(buf, pos + 20, WordAt(buf, pos + 16))
    ensures ReadMaterialData(buf, pos).Ok? ==>
              ReadMaterialData(buf, pos).value.next == EntryStart(buf, pos + 20, WordAt(buf, pos + 16))
  {
    if pos + 20 <= |buf| {
      ReadMaterialEntriesOk(buf, pos + 20, WordAt(buf, pos + 16), map[]);
    }
  }

  // ---------------------------------------------------------------------
  // Material block: what a stream of entries decodes to

  /** A tagged entry as stored: the tag and the payload bytes after it. */
  datatype RawEntry = RawEntry(tag: U32, payload: seq<Byte>)

  predicate WellSized(e: RawEntry)
  {
    4 + |e.payload| == EntrySize(e.tag)
  }

  predicate AllWellSized(es: seq<RawEntry>)
  {
    forall i :: 0 <= i < |es| ==> WellSized(es[i])
  }

  /** The bytes of `es`, one after another. */
  function EncodeEntries(es: seq<RawEntry>): (bs: seq<Byte>)
    ensures AllWellSized(es) ==> |bs| == SizeOfEntries(es)
  {
    if |es| == 0 then []
    else LittleEndianBytes(es[0].tag, 4) + (es[0].payload + EncodeEntries(es[1..]))
  }

  function SizeOfEntries(es: seq<RawEntry>): nat
  {
    if |es| == 0 then 0 else EntrySize(es[0].tag) + SizeOfEntries(es[1..])
  }

  /** The property one entry sets, if its tag is known. */
  function Apply(m: Material, e: RawEntry): Material
    requires WellSized(e)
  {
    match KeyOf(e.tag)
    case None => m
    case Some(k) => m[k := PayloadAt(e.payload, 0, k)]
  }

  /** The material the entries build from `m`, in order. */
  function ApplyEntries(m: Material, es: seq<RawEntry>): Material
    requires AllWellSized(es)
    decreases |es|
  {
    if |es| == 0 then m else ApplyEntries(Apply(m, es[0]), es[1..])
  }

  lemma MaterialMapAtSlice(buf: seq<Byte>, at: nat)
    requires at + 28 <= |buf|
    ensures MaterialMapAt(buf, at) == MaterialMapAt(buf[at..at + 28], 0)
  {
  }

  lemma PayloadAtSlice(buf: seq<Byte>, at: nat, k: MaterialKey)
    requires at + PayloadSize(k) <= |buf|
    ensures PayloadAt(buf, at, k) == PayloadAt(buf[at..at + PayloadSize(k)], 0, k)
  {
    var n := PayloadSize(k);
    match KindOf(k)
    case ColorPayload =>
      ColorAtSlice(buf, at, n, 0);
    case IntensityPayload =>
    case MapPayload =>
      MaterialMapAtSlice(buf, at);
    case NamePayload =>
      assert buf[at..at + n][0..32] == buf[at..at + 32];
  }

  /** Reading one encoded entry applies it and consumes exactly its bytes. */
  lemma ReadEncodedEntry(buf: seq<Byte>, pos: nat, e: RawEntry, m: Material)
    requires WellSized(e)
    requires pos + 4 + |e.payload| <= |buf|
    requires buf[pos..pos + 4] == LittleEndianBytes(e.tag, 4)
    requires buf[pos + 4..pos + 4 + |e.payload|] == e.payload
    ensures ReadMaterialEntry(buf, pos, m) == Ok(Parsed(Apply(m, e), pos + 4 + |e.payload|))
  {
    WordAtOfBytes(buf, pos, e.tag);
    match KeyOf(e.tag)
    case None =>
    case Some(k) =>
      PayloadAtSlice(buf, pos + 4, k);
  }

  lemma AllWellSizedTail(es: seq<RawEntry>)
    requires |es| > 0 && AllWellSized(es)
    ensures WellSized(es[0]) && AllWellSized(es[1..])
  {
    forall i | 0 <= i < |es[1..]| ensures WellSized(es[1..][i]) {
      assert es[1..][i] == es[i + 1];
    }
  }

  /** `es` is stored at `pos`: each tag in little-endian order followed by
      its payload bytes, one entry after another. */
  predicate EncodedAt(buf: seq<Byte>, pos: nat, es: seq<RawEntry>)
    decreases |es|
  {
    |es| == 0 ||
    (pos + 4 + |es[0].payload| <= |buf| &&
     buf[pos..pos + 4] == LittleEndianBytes(es[0].tag, 4) &&
     buf[pos + 4..pos + 4 + |es[0].payload|] == es[0].payload &&
     EncodedAt(buf, pos + 4 + |es[0].payload|, es[1..]))
  }

  /** The encoding of a non-empty list: the first tag, its payload, then
      the encoding of the rest. */
  lemma EncodeEntriesCons(es: seq<RawEntry>)
    requires |es| > 0
    ensures EncodeEntries(es) == LittleEndianBytes(es[0].tag, 4) + (es[0].payload + EncodeEntries(es[1..]))
    ensures |EncodeEntries(es)| == 4 + |es[0].payload| + |EncodeEntries(es[1..])|
  {
  }

  /** The bytes `EncodeEntries(es)` placed at `pos` store `es` there. */
  lemma {:induction false} EncodedAtOfBytes(buf: seq<Byte>, pos: nat, es: seq<RawEntry>)
    requires pos + |EncodeEntries(es)| <= |buf|
    requires buf[pos..pos + |EncodeEntries(es)|] == EncodeEntries(es)
    ensures EncodedAt(buf, pos, es)
    decreases |es|
  {
    if |es| > 0 {
      var e, tag, rest := es[0], LittleEndianBytes(es[0].tag, 4), EncodeEntries(es[1..]);
      var next := pos + 4 + |e.payload|;
      EncodeEntriesCons(es);
      assert |tag| == 4 && pos + |EncodeEntries(es)| == next + |rest|;
      SliceOfTriple(buf, pos, tag, e.payload, rest);
      assert buf[next..next + |rest|] == rest;
      EncodedAtOfBytes(buf, next, es[1..]);
      EncodedAtCons(buf, pos, es);
    }
  }

  lemma EncodedAtCons(buf: seq<Byte>, pos: nat, es: seq<RawEntry>)
    requires |es| > 0 && pos + 4 + |es[0].payload| <= |buf|
    requires buf[pos..pos + 4] == LittleEndianBytes(es[0].tag, 4)
    requires buf[pos + 4..pos + 4 + |es[0].payload|] == es[0].payload
    requires EncodedAt(buf, pos + 4 + |es[0].payload|, es[1..])
    ensures EncodedAt(buf, pos, es)
  {
  }

  /** Reading `n > 0` entries is reading one, then `n - 1` from where it ended. */
  lemma ReadMaterialEntriesStep(buf: seq<Byte>, pos: nat, n: nat, m: Material, m1: Material, p1: nat)
    requires n > 0 && ReadMaterialEntry(buf, pos, m) == Ok(Parsed(m1, p1))
    ensures ReadMaterialEntries(buf, pos, n, m) == ReadMaterialEntries(buf, p1, n - 1, m1)
  {
  }

  /** The first stored entry is read and applied; the rest are stored after it. */
  lemma ReadEncodedHead(buf: seq<Byte>, pos: nat, n: nat, es: seq<RawEntry>, m: Material)
    requires n == |es| > 0 && AllWellSized(es)
    requires EncodedAt(buf, pos, es)
    ensures AllWellSized(es[1..]) && EncodedAt(buf, pos + EntrySize(es[0].tag), es[1..])
    ensures ReadMaterialEntries(buf, pos, n, m)
         == ReadMaterialEntries(buf, pos + EntrySize(es[0].tag), n - 1, Apply(m, es[0]))
  {
    AllWellSizedTail(es);
    ReadEncodedEntry(buf, pos, es[0], m);
    ReadMaterialEntriesStep(buf, pos, n, m, Apply(m, es[0]), pos + EntrySize(es[0].tag));
  }

  /** Reading `n` entries stored at `pos` decodes exactly those entries and
      consumes exactly their bytes. */
  lemma {:induction false} ReadEncodedEntries(buf: seq<Byte>, pos: nat, n: nat, es: seq<RawEntry>, m: Material)
    requires n == |es| && AllWellSized(es)
    requires EncodedAt(buf, pos, es)
    ensures ReadMaterialEntries(buf, pos, n, m).Ok?
    ensures ReadMaterialEntries(buf, pos, n, m).value.next == pos + SizeOfEntries(es)
    ensures ReadMaterialEntries(buf, pos, n, m).value.value == ApplyEntries(m, es)
    decreases n
  {
    if n > 0 {
      ReadEncodedHead(buf, pos, n, es, m);
      var m1 := Apply(m, es[0]);
      var p1 := pos + EntrySize(es[0].tag);
      ReadEncodedEntries(buf, p1, n - 1, es[1..], m1);
      var r := ReadMaterialEntries(buf, p1, n - 1, m1);
      assert ApplyEntries(m, es) == ApplyEntries(m1, es[1..]);
    }
  }

  /** A whole material block read back from its layout: 16 unused bytes,
      the entry count, then the encoded entries. The result holds, for each
      property, the payload of the last entry that sets it. */
  lemma ReadEncodedMaterial(buf: seq<Byte>, pos: nat, es: seq<RawEntry>)
    requires AllWellSized(es) && |es| < 0x1_0000_0000
    requires pos + 20 + |EncodeEntries(es)| <= |buf|
    requires buf[pos + 16..pos + 20] == LittleEndianBytes(|es|, 4)
    requires buf[pos + 20..pos + 20 + |EncodeEntries(es)|] == EncodeEntries(es)
    ensures ReadMaterialData(buf, pos).Ok?
    ensures ReadMaterialData(buf, pos).value.next == pos + 20 + SizeOfEntries(es)
    ensures ReadMaterialData(buf, pos).value.value == ApplyEntries(map[], es)
  {
    StoredOfEncoded(buf, pos, es);
    ReadStoredMaterial(buf, pos, es);
  }

  /** The laid-out block holds the count `|es|` and stores `es` after it. */
  lemma StoredOfEncoded(buf: seq<Byte>, pos: nat, es: seq<RawEntry>)
    requires |es| < 0x1_0000_0000
    requires pos + 20 + |EncodeEntries(es)| <= |buf|
    requires buf[pos + 16..pos + 20] == LittleEndianBytes(|es|, 4)
    requires buf[pos + 20..pos + 20 + |EncodeEntries(es)|] == EncodeEntries(es)
    ensures pos + 20 <= |buf| && WordAt(buf, pos + 16) == |es| && EncodedAt(buf, pos + 20, es)
  {
    WordAtOfBytes(buf, pos + 16, |es|);
    EncodedAtOfBytes(buf, pos + 20, es);
  }

  /** A block whose count word is `|es|` and whose entries are `es` stored
      one after another decodes to `es` applied in order. */
  lemma ReadStoredMaterial(buf: seq<Byte>, pos: nat, es: seq<RawEntry>)
    requires AllWellSized(es) && pos + 20 <= |buf|
    requires WordAt(buf, pos + 16) == |es| && EncodedAt(buf, pos + 20, es)
    ensures ReadMaterialData(buf, pos).Ok?
    ensures ReadMaterialData(buf, pos).value.next == pos + 20 + SizeOfEntries(es)
    ensures ReadMaterialData(buf, pos).value.value == ApplyEntries(map[], es)
  {
    ReadMaterialDataStep(buf, pos);
    ReadEncodedEntries(buf, pos + 20, |es|, es, map[]);
  }

  /** The block's entries are read from just after the count, starting from
      an empty material. */
  lemma ReadMaterialDataStep(buf: seq<Byte>, pos: nat)
    requires pos + 20 <= |buf|
    ensures ReadMaterialData(buf, pos) == ReadMaterialEntries(buf, pos + 20, WordAt(buf, pos + 16), map[])
  {
  }

  /** Entries apply in order: the last entry of a list is applied after all
      the others, so the last entry setting a property decides its value. */
  lemma {:induction false} ApplyEntriesSnoc(m: Material, es: seq<RawEntry>, e: RawEntry)
    requires AllWellSized(es) && WellSized(e)
    ensures AllWellSized(es + [e])
    ensures ApplyEntries(m, es + [e]) == Apply(ApplyEntries(m, es), e)
    decreases |es|
  {
    assert forall i :: 0 <= i < |es + [e]| ==> (es + [e])[i] == if i < |es| then es[i] else e;
    if |es| > 0 {
      AllWellSizedTail(es);
      assert (es + [e])[0] == es[0];
      assert (es + [e])[1..] == es[1..] + [e];
      ApplyEntriesSnoc(Apply(m, es[0]), es[1..], e);
    } else {
      assert es + [e] == [e];
    }
  }

  /** A property is set exactly when it was set before or some entry sets it. */
  lemma {:induction false} ApplyEntriesKeys(m: Material, es: seq<RawEntry>, k: MaterialKey)
    requires AllWellSized(es)
    ensures k in ApplyEntries(m, es) <==> k in m || exists i :: 0 <= i < |es| && KeyOf(es[i].tag) == Some(k)
    decreases |es|
  {
    if |es| > 0 {
      AllWellSizedTail(es);
      ApplyEntriesKeys(Apply(m, es[0]), es[1..], k);
      if exists i :: 0 <= i < |es[1..]| && KeyOf(es[1..][i].tag) == Some(k) {
        var i :| 0 <= i < |es[1..]| && KeyOf(es[1..][i].tag) == Some(k);
        assert es[i + 1] == es[1..][i];
      }
      if exists i :: 0 <= i < |es| && KeyOf(es[i].tag) == Some(k) {
        var i :| 0 <= i < |es| && KeyOf(es[i].tag) == Some(k);
        if i > 0 {
          assert es[1..][i - 1] == es[i];
        }
      }
    }
  }
}

=== FILE: scx_v4_geometry.dfy ===
/** The geometry blocks of SCX version 4: vertex blocks, whose per-vertex
    layout is chosen by a vertex-type flag set, and index blocks of 16-bit
    triangles. Both start with 8 unused bytes. */
module ScxV4Geometry {
  import opened Results
  import opened Bytes
  import opened Floats
  import opened ScxV4

  // ---------------------------------------------------------------------
  // Vertex layout

  /** Which attributes each vertex of a block stores, in storage order. */
  datatype Layout = Layout(
    position: bool,
    boneWeight0: bool, boneWeight1: bool, boneWeight2: bool, boneWeight3: bool, boneIndRef: bool,
    normal: bool, emissive: bool, color: bool,
    uv1: bool, uv2: bool, uv3: bool,
    bump: bool)

  function LayoutOf(f: VertexTypeFlags): Layout
  {
    Layout(f.Position(),
           f.BoneWeight0(), f.BoneWeight1(), f.BoneWeight2(), f.BoneWeight3(), f.BoneIndRef(),
           f.Normal(), f.VertexEmissive(), f.VertexColor(),
           f.UV1(), f.UV2(), f.UV3(),
           f.BumpMapNormal())
  }

  /** `size` bytes when the attribute is stored, none otherwise. */
  function SizeIf(present: bool, size: nat): nat
  {
    if present then size else 0
  }

  /** Where each attribute starts, relative to the start of its vertex. Bone
      weights, bone references and bump normals are stored but skipped. */
  function NormalOffset(l: Layout): nat
  {
    SizeIf(l.position, 12) + SizeIf(l.boneWeight0, 4) + SizeIf(l.boneWeight1, 4)
      + SizeIf(l.boneWeight2, 4) + SizeIf(l.boneWeight3, 4) + SizeIf(l.boneIndRef, 4)
  }

  function EmissiveOffset(l: Layout): nat { NormalOffset(l) + SizeIf(l.normal, 12) }
  function ColorOffset(l: Layout): nat { EmissiveOffset(l) + SizeIf(l.emissive, 4) }
  function Uv1Offset(l: Layout): nat { ColorOffset(l) + SizeIf(l.color, 4) }
  function Uv2Offset(l: Layout): nat { Uv1Offset(l) + SizeIf(l.uv1, 8) }
  function Uv3Offset(l: Layout): nat { Uv2Offset(l) + SizeIf(l.uv2, 8) }
  function BumpOffset(l: Layout): nat { Uv3Offset(l) + SizeIf(l.uv3, 8) }

  /** Bytes one vertex occupies. */
  function Stride(l: Layout): nat { BumpOffset(l) + SizeIf(l.bump, 12) }

  /** Bytes of a vertex that are actually read: up to the end of the last
      stored attribute that is decoded rather than skipped. */
  function Extent(l: Layout): nat
  {
    if l.normal || l.emissive || l.color || l.uv1 || l.uv2 || l.uv3 then BumpOffset(l)
    else SizeIf(l.position, 12)
  }

  /** One vertex; an attribute the layout does not store is absent. */
  datatype Vertex = Vertex(
    position: Option<Vec3>,
    normal: Option<Vec3>,
    emissive: Option<Rgba>,
    color: Option<Rgba>,
    uv1: Option<Uv>,
    uv2: Option<Uv>,
    uv3: Option<Uv>)

  /** Reference decoder: the vertex stored at `at`, every attribute read at
      its offset in the layout. */
  function VertexAt(buf: seq<Byte>, at: nat, l: Layout): Vertex
    requires Readable(buf, at, l)
  {
    Vertex(
      if l.position then Some(PositionAt(buf, at)) else None,
      if l.normal then Some(NormalAt(buf, at + NormalOffset(l))) else None,
      if l.emissive then Some(ColorAt(buf, at + EmissiveOffset(l))) else None,
      if l.color then Some(ColorAt(buf, at + ColorOffset(l))) else None,
      if l.uv1 then Some(UvAt(buf, at + Uv1Offset(l))) else None,
      if l.uv2 then Some(UvAt(buf, at + Uv2Offset(l))) else None,
      if l.uv3 then Some(UvAt(buf, at + Uv3Offset(l))) else None)
  }

  // ---------------------------------------------------------------------
  // Vertex readers

  /** Optional attribute readers: when the layout stores the attribute it
      is read at the cursor, otherwise nothing is read. */
  function ReadOptPosition(buf: seq<Byte>, p: nat, present: bool): (r: Decoded<Option<Vec3>>)
    ensures r.Ok? <==> (present ==> p + 12 <= |buf|)
    ensures r.Ok? ==> r.value == Parsed(if present then Some(PositionAt(buf, p)) else None, p + SizeIf(present, 12))
    ensures r.Err? ==> r.error.Truncated?
  {
    if present then
      var x :- ReadPosition(buf, p);
      Ok(Parsed(Some(x.value), x.next))
    else Ok(Parsed(None, p))
  }

  function ReadOptNormal(buf: seq<Byte>, p: nat, present: bool): (r: Decoded<Option<Vec3>>)
    ensures r.Ok? <==> (present ==> p + 12 <= |buf|)
    ensures r.Ok? ==> r.value == Parsed(if present then Some(NormalAt(buf, p)) else None, p + SizeIf(present, 12))
    ensures r.Err? ==> r.error.Truncated?
  {
    if present then
      var x :- ReadNormal(buf, p);
      Ok(Parsed(Some(x.value), x.next))
    else Ok(Parsed(None, p))
  }

  function ReadOptColor(buf: seq<Byte>, p: nat, present: bool): (r: Decoded<Option<Rgba>>)
    ensures r.Ok? <==> (present ==> p + 4 <= |buf|)
    ensures r.Ok? ==> r.value == Parsed(if present then Some(ColorAt(buf, p)) else None, p + SizeIf(present, 4))
    ensures r.Err? ==> r.error.Truncated?
  {
    if present then
      var x :- ReadColor(buf, p);
      Ok(Parsed(Some(x.value), x.next))
    else Ok(Parsed(None, p))
  }

  function ReadOptUv(buf: seq<Byte>, p: nat, present: bool): (r: Decoded<Option<Uv>>)
    ensures r.Ok? <==> (present ==> p + 8 <= |buf|)
    ensures r.Ok? ==> r.value == Parsed(if present then Some(UvAt(buf, p)) else None, p + SizeIf(present, 8))
    ensures r.Err? ==> r.error.Truncated?
  {
    if present then
      var x :- ReadUv(buf, p);
      Ok(Parsed(Some(x.value), x.next))
    else Ok(Parsed(None, p))
  }

  /** Every decoded attribute of a vertex at `at` lies inside the buffer. */
  predicate Fits(buf: seq<Byte>, at: nat, l: Layout)
  {
    && (l.position ==> at + 12 <= |buf|)
    && (l.normal ==> at + EmissiveOffset(l) <= |buf|)
    && (l.emissive ==> at + ColorOffset(l) <= |buf|)
    && (l.color ==> at + Uv1Offset(l) <= |buf|)
    && (l.uv1 ==> at + Uv2Offset(l) <= |buf|)
    && (l.uv2 ==> at + Uv3Offset(l) <= |buf|)
    && (l.uv3 ==> at + BumpOffset(l) <= |buf|)
  }

  /** A vertex at `at` can be read: it reads nothing, or its read extent
      lies inside the buffer. */
  predicate Readable(buf: seq<Byte>, at: nat, l: Layout)
  {
    Extent(l) == 0 || at + Extent(l) <= |buf|
  }

  /** The attributes fit exactly when the read extent does. */
  lemma FitsExtent(buf: seq<Byte>, at: nat, l: Layout)
    ensures Fits(buf, at, l) <==> Readable(buf, at, l)
  {
    if l.uv3 {
    } else if l.uv2 {
    } else if l.uv1 {
    } else if l.color {
    } else if l.emissive {
    } else if l.normal {
      assert BumpOffset(l) == EmissiveOffset(l);
    }
  }

  /** The position and normal of a vertex at `p`, with the bone data between
      them skipped. */
  function ReadFront(buf: seq<Byte>, p: nat, l: Layout): (r: Decoded<(Option<Vec3>, Option<Vec3>)>)
    ensures r.Ok? <==> (l.position ==> p + 12 <= |buf|) && (l.normal ==> p + EmissiveOffset(l) <= |buf|)
    ensures r.Ok? ==> r.value.next == p + EmissiveOffset(l)
    ensures r.Ok? ==> r.value.value.0 == (if l.position then Some(PositionAt(buf, p)) else None)
    ensures r.Ok? ==> r.value.value.1 == (if l.normal then Some(NormalAt(buf, p + NormalOffset(l))) else None)
    ensures r.Err? ==> r.error.Truncated?
  {
    var a :- ReadOptPosition(buf, p, l.position);
    var skipped := a.next + NormalOffset(l) - SizeIf(l.position, 12);
    var n :- ReadOptNormal(buf, skipped, l.normal);
    Ok(Parsed((a.value, n.value), n.next))
  }

  /** The emissive colour and the colour of the vertex at `at`, read from
      where its normal ends. */
  function ReadColors(buf: seq<Byte>, at: nat, l: Layout): (r: Decoded<(Option<Rgba>, Option<Rgba>)>)
    ensures r.Ok? <==> (l.emissive ==> at + ColorOffset(l) <= |buf|) && (l.color ==> at + Uv1Offset(l) <= |buf|)
    ensures r.Ok? ==> r.value.next == at + Uv1Offset(l)
    ensures r.Ok? ==> r.value.value.0 == (if l.emissive then Some(ColorAt(buf, at + EmissiveOffset(l))) else None)
    ensures r.Ok? ==> r.value.value.1 == (if l.color then Some(ColorAt(buf, at + ColorOffset(l))) else None)
    ensures r.Err? ==> r.error.Truncated?
  {
    var e :- ReadOptColor(buf, at + EmissiveOffset(l), l.emissive);
    var c :- ReadOptColor(buf, e.next, l.color);
    Ok(Parsed((e.value, c.value), c.next))
  }

  /** The three texture coordinates of the vertex at `at`, read from where
      its colours end. */
  function ReadUvs(buf: seq<Byte>, at: nat, l: Layout): (r: Decoded<(Option<Uv>, Option<Uv>, Option<Uv>)>)
    ensures r.Ok? <==> && (l.uv1 ==> at + Uv2Offset(l) <= |buf|)
                       && (l.uv2 ==> at + Uv3Offset(l) <= |buf|)
                       && (l.uv3 ==> at + BumpOffset(l) <= |buf|)
    ensures r.Ok? ==> r.value.next == at + BumpOffset(l)
    ensures r.Ok? ==> r.value.value.0 == (if l.uv1 then Some(UvAt(buf, at + Uv1Offset(l))) else None)
    ensures r.Ok? ==> r.value.value.1 == (if l.uv2 then Some(UvAt(buf, at + Uv2Offset(l))) else None)
    ensures r.Ok? ==> r.value.value.2 == (if l.uv3 then Some(UvAt(buf, at + Uv3Offset(l))) else None)
    ensures r.Err? ==> r.error.Truncated?
  {
    var u1 :- ReadOptUv(buf, at + Uv1Offset(l), l.uv1);
    var u2 :- ReadOptUv(buf, u1.next, l.uv2);
    var u3 :- ReadOptUv(buf, u2.next, l.uv3);
    Ok(Parsed((u1.value, u2.value, u3.value), u3.next))
  }

  /** The decoded attributes of a vertex, read in storage order: the
      position, the skipped bone data, the normal, the two colours and the
      texture coordinates. Each group starts where the previous one ended. */
  function ReadAttributes(buf: seq<Byte>, pos: nat, l: Layout): (r: Decoded<Vertex>)
    ensures r.Ok? <==> Fits(buf, pos, l)
    ensures r.Ok? ==> r.value.next == pos + BumpOffset(l)
    ensures r.Ok? ==> Readable(buf, pos, l) && r.value.value == VertexAt(buf, pos, l)
    ensures r.Err? ==> r.error.Truncated?
  {
    FitsExtent(buf, pos, l);
    var front :- ReadFront(buf, pos, l);
    var colors :- ReadColors(buf, pos, l);
    var uvs :- ReadUvs(buf, pos, l);
    Ok(Parsed(Vertex(front.value.0, front.value.1, colors.value.0, colors.value.1,
                     uvs.value.0, uvs.value.1, uvs.value.2),
              uvs.next))
  }

  /** One vertex: its attributes, then the skipped bump normal. */
  function ReadVertex(buf: seq<Byte>, pos: nat, l: Layout): (r: Decoded<Vertex>)
    ensures r.Ok? <==> Readable(buf, pos, l)
    ensures r.Ok? ==> r.value.next == pos + Stride(l)
    ensures r.Ok? ==> Readable(buf, pos, l) && r.value.value == VertexAt(buf, pos, l)
    ensures r.Err? ==> r.error.Truncated?
  {
    FitsExtent(buf, pos, l);
    var attributes :- ReadAttributes(buf, pos, l);
    Ok(Parsed(attributes.value, attributes.next + SizeIf(l.bump, 12)))
  }

  // ---------------------------------------------------------------------
  // Vertex blocks

  /** A vertex further on is readable only if an earlier one is. */
  lemma ReadableEarlier(buf: seq<Byte>, a: nat, b: nat, l: Layout)
    requires a <= b && Readable(buf, b, l)
    ensures Readable(buf, a, l)
    ensures ReadVertex(buf, a, l).Ok?
  {
  }

  /** The vertex reader of a block of layout `l`, as a function of the cursor. */
  function VertexReader(buf: seq<Byte>, l: Layout): nat -> Decoded<Vertex>
  {
    (p: nat) => ReadVertex(buf, p, l)
  }

  lemma VertexReaderStrided(buf: seq<Byte>, l: Layout)
    ensures Strided(VertexReader(buf, l), Stride(l))
    ensures FailsTruncated(VertexReader(buf, l))
  {
  }

  /** `n` vertices of layout `l`, one after another from `pos`. */
  function ReadVertices(buf: seq<Byte>, pos: nat, l: Layout, n: nat): (r: Decoded<seq<Vertex>>)
    ensures r.Ok? ==> |r.value.value| == n
    ensures r.Err? ==> r.error.Truncated?
  {
    VertexReaderStrided(buf, l);
    RepeatFailsTruncated(VertexReader(buf, l), pos, n);
    Repeat(VertexReader(buf, l), pos, n)
  }

  /** A vertex run that was read ends `n` strides on. */
  lemma ReadVerticesNext(buf: seq<Byte>, pos: nat, l: Layout, n: nat)
    requires ReadVertices(buf, pos, l, n).Ok?
    ensures ReadVertices(buf, pos, l, n).value.next == pos + Span(n, Stride(l))
  {
    VertexReaderStrided(buf, l);
    RepeatNext(VertexReader(buf, l), Stride(l), pos, n);
  }

  /** Vertex `i` of a run is the one stored `i` strides on, which was readable. */
  lemma ReadVerticesAt(buf: seq<Byte>, pos: nat, l: Layout, n: nat, i: nat)
    requires ReadVertices(buf, pos, l, n).Ok? && i < n
    ensures Readable(buf, pos + Span(i, Stride(l)), l)
    ensures ReadVertices(buf, pos, l, n).value.value[i] == VertexAt(buf, pos + Span(i, Stride(l)), l)
  {
    VertexReaderStrided(buf, l);
    RepeatAt(VertexReader(buf, l), Stride(l), pos, n, i);
  }

  /** A vertex run whose last vertex is readable is read: every earlier
      vertex lies before it. */
  lemma ReadVerticesWhenReadable(buf: seq<Byte>, pos: nat, l: Layout, n: nat)
    requires n > 0 && Readable(buf, pos + Span(n - 1, Stride(l)), l)
    ensures ReadVertices(buf, pos, l, n).Ok?
  {
    var read := VertexReader(buf, l);
    VertexReaderStrided(buf, l);
    var last := pos + Span(n - 1, Stride(l));
    forall i | 0 <= i < n
      ensures read(pos + Span(i, Stride(l))).Ok?
    {
      SpanMonotone(i, n - 1, Stride(l));
      ReadableEarlier(buf, pos + Span(i, Stride(l)), last, l);
    }
    RepeatOk(read, Stride(l), pos, n);
  }

  /** A vertex run can be read exactly when its last vertex can: it reads up
      to `n - 1` strides plus one read extent. It then ends `n` strides on;
      otherwise it reports a truncation. */
  lemma ReadVerticesOk(buf: seq<Byte>, pos: nat, l: Layout, n: nat)
    ensures ReadVertices(buf, pos, l, n).Ok? <==> n == 0 || Readable(buf, pos + Span(n - 1, Stride(l)), l)
    ensures ReadVertices(buf, pos, l, n).Ok? ==> ReadVertices(buf, pos, l, n).value.next == pos + Span(n, Stride(l))
    ensures ReadVertices(buf, pos, l, n).Err? ==> ReadVertices(buf, pos, l, n).error.Truncated?
  {
    if ReadVertices(buf, pos, l, n).Ok? {
      ReadVerticesNext(buf, pos, l, n);
      if n > 0 {
        ReadVerticesAt(buf, pos, l, n, n - 1);
      }
    } else if n > 0 && Readable(buf, pos + Span(n - 1, Stride(l)), l) {
      ReadVerticesWhenReadable(buf, pos, l, n);
    }
  }

  /** Whether a vertex holds exactly the attributes the layout decodes. */
  predicate Shaped(v: Vertex, l: Layout)
  {
    && v.position.Some? == l.position
    && v.normal.Some? == l.normal
    && v.emissive.Some? == l.emissive
    && v.color.Some? == l.color
    && v.uv1.Some? == l.uv1
    && v.uv2.Some? == l.uv2
    && v.uv3.Some? == l.uv3
  }

  /** A decoded vertex block: its flags, its stored count, and one list per
      decoded attribute, in vertex order. Bone weights, bone references and
      bump normals are skipped by the decoder and get no list. */
  datatype VertexData = VertexData(
    flags: VertexTypeFlags,
    count: U32,
    position: seq<Vec3>,
    normal: seq<Vec3>,
    emissive: seq<Rgba>,
    color: seq<Rgba>,
    uv1: seq<Uv>,
    uv2: seq<Uv>,
    uv3: seq<Uv>)

  /** One attribute of every vertex of a run, present or not. */
  function PositionColumn(vs: seq<Vertex>): seq<Option<Vec3>>
  {
    seq(|vs|, i requires 0 <= i < |vs| => vs[i].position)
  }

  function NormalColumn(vs: seq<Vertex>): seq<Option<Vec3>>
  {
    seq(|vs|, i requires 0 <= i < |vs| => vs[i].normal)
  }

  function EmissiveColumn(vs: seq<Vertex>): seq<Option<Rgba>>
  {
    seq(|vs|, i requires 0 <= i < |vs| => vs[i].emissive)
  }

  function ColorColumn(vs: seq<Vertex>): seq<Option<Rgba>>
  {
    seq(|vs|, i requires 0 <= i < |vs| => vs[i].color)
  }

  function Uv1Column(vs: seq<Vertex>): seq<Option<Uv>>
  {
    seq(|vs|, i requires 0 <= i < |vs| => vs[i].uv1)
  }

  function Uv2Column(vs: seq<Vertex>): seq<Option<Uv>>
  {
    seq(|vs|, i requires 0 <= i < |vs| => vs[i].uv2)
  }

  function Uv3Column(vs: seq<Vertex>): seq<Option<Uv>>
  {
    seq(|vs|, i requires 0 <= i < |vs| => vs[i].uv3)
  }

  /** The attribute lists of a vertex run: each vertex contributes to the
      list of every attribute it holds. */
  function Gather(flags: VertexTypeFlags, count: U32, vs: seq<Vertex>): VertexData
  {
    VertexData(flags, count,
      Somes(PositionColumn(vs)),
      Somes(NormalColumn(vs)),
      Somes(EmissiveColumn(vs)),
      Somes(ColorColumn(vs)),
      Somes(Uv1Column(vs)),
      Somes(Uv2Column(vs)),
      Somes(Uv3Column(vs)))
  }

  /** A column of vertices shaped by `l` is all present or all absent, as
      `l` says. */
  lemma PositionColumnShaped(vs: seq<Vertex>, l: Layout)
    requires forall i :: 0 <= i < |vs| ==> Shaped(vs[i], l)
    ensures |Somes(PositionColumn(vs))| == (if l.position then |vs| else 0)
    ensures l.position ==> forall i :: 0 <= i < |vs| ==> vs[i].position == Some(Somes(PositionColumn(vs))[i])
  {
    SomesUniform(PositionColumn(vs), l.position);
  }

  lemma NormalColumnShaped(vs: seq<Vertex>, l: Layout)
    requires forall i :: 0 <= i < |vs| ==> Shaped(vs[i], l)
    ensures |Somes(NormalColumn(vs))| == (if l.normal then |vs| else 0)
    ensures l.normal ==> forall i :: 0 <= i < |vs| ==> vs[i].normal == Some(Somes(NormalColumn(vs))[i])
  {
    SomesUniform(NormalColumn(vs), l.normal);
  }

  lemma EmissiveColumnShaped(vs: seq<Vertex>, l: Layout)
    requires forall i :: 0 <= i < |vs| ==> Shaped(vs[i], l)
    ensures |Somes(EmissiveColumn(vs))| == (if l.emissive then |vs| else 0)
    ensures l.emissive ==> forall i :: 0 <= i < |vs| ==> vs[i].emissive == Some(Somes(EmissiveColumn(vs))[i])
  {
    SomesUniform(EmissiveColumn(vs), l.emissive);
  }

  lemma ColorColumnShaped(vs: seq<Vertex>, l: Layout)
    requires forall i :: 0 <= i < |vs| ==> Shaped(vs[i], l)
    ensures |Somes(ColorColumn(vs))| == (if l.color then |vs| else 0)
    ensures l.color ==> forall i :: 0 <= i < |vs| ==> vs[i].color == Some(Somes(ColorColumn(vs))[i])
  {
    SomesUniform(ColorColumn(vs), l.color);
  }

  lemma Uv1ColumnShaped(vs: seq<Vertex>, l: Layout)
    requires forall i :: 0 <= i < |vs| ==> Shaped(vs[i], l)
    ensures |Somes(Uv1Column(vs))| == (if l.uv1 then |vs| else 0)
    ensures l.uv1 ==> forall i :: 0 <= i < |vs| ==> vs[i].uv1 == Some(Somes(Uv1Column(vs))[i])
  {
    SomesUniform(Uv1Column(vs), l.uv1);
  }

  lemma Uv2ColumnShaped(vs: seq<Vertex>, l: Layout)
    requires forall i :: 0 <= i < |vs| ==> Shaped(vs[i], l)
    ensures |Somes(Uv2Column(vs))| == (if l.uv2 then |vs| else 0)
    ensures l.uv2 ==> forall i :: 0 <= i < |vs| ==> vs[i].uv2 == Some(Somes(Uv2Column(vs))[i])
  {
    SomesUniform(Uv2Column(vs), l.uv2);
  }

  lemma Uv3ColumnShaped(vs: seq<Vertex>, l: Layout)
    requires forall i :: 0 <= i < |vs| ==> Shaped(vs[i], l)
    ensures |Somes(Uv3Column(vs))| == (if l.uv3 then |vs| else 0)
    ensures l.uv3 ==> forall i :: 0 <= i < |vs| ==> vs[i].uv3 == Some(Somes(Uv3Column(vs))[i])
  {
    SomesUniform(Uv3Column(vs), l.uv3);
  }

  /** Vertex data gathered from vertices shaped by `l`: each list holds one
      entry per vertex when `l` decodes its attribute and none otherwise,
      and entry `i` is the attribute of vertex `i`. */
  lemma GatherShaped(flags: VertexTypeFlags, count: U32, vs: seq<Vertex>, l: Layout)
    requires forall i :: 0 <= i < |vs| ==> Shaped(vs[i], l)
    ensures |Gather(flags, count, vs).position| == (if l.position then |vs| else 0)
    ensures |Gather(flags, count, vs).normal| == (if l.normal then |vs| else 0)
    ensures |Gather(flags, count, vs).emissive| == (if l.emissive then |vs| else 0)
    ensures |Gather(flags, count, vs).color| == (if l.color then |vs| else 0)
    ensures |Gather(flags, count, vs).uv1| == (if l.uv1 then |vs| else 0)
    ensures |Gather(flags, count, vs).uv2| == (if l.uv2 then |vs| else 0)
    ensures |Gather(flags, count, vs).uv3| == (if l.uv3 then |vs| else 0)
    ensures l.position ==> forall i :: 0 <= i < |vs| ==> vs[i].position == Some(Gather(flags, count, vs).position[i])
    ensures l.normal ==> forall i :: 0 <= i < |vs| ==> vs[i].normal == Some(Gather(flags, count, vs).normal[i])
    ensures l.emissive ==> forall i :: 0 <= i < |vs| ==> vs[i].emissive == Some(Gather(flags, count, vs).emissive[i])
    ensures l.color ==> forall i :: 0 <= i < |vs| ==> vs[i].color == Some(Gather(flags, count, vs).color[i])
    ensures l.uv1 ==> forall i :: 0 <= i < |vs| ==> vs[i].uv1 == Some(Gather(flags, count, vs).uv1[i])
    ensures l.uv2 ==> forall i :: 0 <= i < |vs| ==> vs[i].uv2 == Some(Gather(flags, count, vs).uv2[i])
    ensures l.uv3 ==> forall i :: 0 <= i < |vs| ==> vs[i].uv3 == Some(Gather(flags, count, vs).uv3[i])
  {
    PositionColumnShaped(vs, l);
    NormalColumnShaped(vs, l);
    EmissiveColumnShaped(vs, l);
    ColorColumnShaped(vs, l);
    Uv1ColumnShaped(vs, l);
    Uv2ColumnShaped(vs, l);
    Uv3ColumnShaped(vs, l);
  }

  /** Entry `i` of each list of `d` whose flag is set is that attribute of
      `v`. */
  predicate EntryIs(d: VertexData, i: nat, v: Vertex)
  {
    && (d.flags.Position() ==> i < |d.position| && v.position == Some(d.position[i]))
    && (d.flags.Normal() ==> i < |d.normal| && v.normal == Some(d.normal[i]))
    && (d.flags.VertexEmissive() ==> i < |d.emissive| && v.emissive == Some(d.emissive[i]))
    && (d.flags.VertexColor() ==> i < |d.color| && v.color == Some(d.color[i]))
    && (d.flags.UV1() ==> i < |d.uv1| && v.uv1 == Some(d.uv1[i]))
    && (d.flags.UV2() ==> i < |d.uv2| && v.uv2 == Some(d.uv2[i]))
    && (d.flags.UV3() ==> i < |d.uv3| && v.uv3 == Some(d.uv3[i]))
  }

  /** The header fields of the vertex block at `pos`. */
  function BlockCount(buf: seq<Byte>, pos: nat): U32
    requires pos + 16 <= |buf|
  {
    WordAt(buf, pos + 8)
  }

  function BlockFlags(buf: seq<Byte>, pos: nat): VertexTypeFlags
    requires pos + 16 <= |buf|
  {
    VertexTypeFlags(WordAt(buf, pos + 12) as bv32)
  }

  function BlockLayout(buf: seq<Byte>, pos: nat): Layout
    requires pos + 16 <= |buf|
  {
    LayoutOf(BlockFlags(buf, pos))
  }

  /** The vertices of the block at `pos`, stored after its 16-byte header. */
  function BlockVertices(buf: seq<Byte>, pos: nat): Decoded<seq<Vertex>>
    requires pos + 16 <= |buf|
  {
    ReadVertices(buf, pos + 16, BlockLayout(buf, pos), BlockCount(buf, pos))
  }

  /** A vertex block: 8 unused bytes, the vertex count, the vertex-type
      flags, then the vertices. */
  function ReadVertexData(buf: seq<Byte>, pos: nat): (r: Decoded<VertexData>)
    ensures r.Ok? ==> pos + 16 <= |buf|
    ensures r.Ok? ==> r.value.value.count == BlockCount(buf, pos)
    ensures r.Ok? ==> r.value.value.flags == BlockFlags(buf, pos)
    ensures r.Err? ==> r.error.Truncated?
  {
    var count :- ReadU32(buf, pos + 8);
    var kind :- ReadU32(buf, count.next);
    var vs :- BlockVertices(buf, pos);
    Ok(Parsed(Gather(VertexTypeFlags(kind.value as bv32), count.value, vs.value), vs.next))
  }

  /** Where vertex `i` of the block at `pos` starts. */
  function VertexStart(buf: seq<Byte>, pos: nat, i: nat): nat
    requires pos + 16 <= |buf|
  {
    pos + 16 + Span(i, Stride(BlockLayout(buf, pos)))
  }

  /** Past its header, a vertex block is its vertex run, gathered. */
  lemma ReadVertexDataStep(buf: seq<Byte>, pos: nat)
    requires pos + 16 <= |buf|
    ensures ReadVertexData(buf, pos).Ok? == BlockVertices(buf, pos).Ok?
    ensures ReadVertexData(buf, pos).Ok? ==>
              ReadVertexData(buf, pos).value ==
                Parsed(Gather(BlockFlags(buf, pos), BlockCount(buf, pos), BlockVertices(buf, pos).value.value),
                       BlockVertices(buf, pos).value.next)
  {
  }

  /** A vertex block can be read exactly when its header and its last
      vertex can, and it then occupies 16 + count * stride bytes. */
  lemma ReadVertexDataOk(buf: seq<Byte>, pos: nat)
    ensures ReadVertexData(buf, pos).Ok? <==>
              && pos + 16 <= |buf|
              && var n := BlockCount(buf, pos);
                 n == 0 || Readable(buf, VertexStart(buf, pos, n - 1), BlockLayout(buf, pos))
    ensures ReadVertexData(buf, pos).Ok? ==>
              ReadVertexData(buf, pos).value.next == pos + 16 + BlockCount(buf, pos) * Stride(BlockLayout(buf, pos))
  {
    if pos + 16 <= |buf| {
      var l := BlockLayout(buf, pos);
      var n := BlockCount(buf, pos);
      ReadVertexDataStep(buf, pos);
      ReadVerticesOk(buf, pos + 16, l, n);
      SpanIsProduct(n, Stride(l));
    }
  }

  /** The vertices of a run that was read are shaped by its layout. */
  lemma ReadVerticesShaped(buf: seq<Byte>, pos: nat, l: Layout, n: nat)
    requires ReadVertices(buf, pos, l, n).Ok?
    ensures forall i :: 0 <= i < n ==> Shaped(ReadVertices(buf, pos, l, n).value.value[i], l)
  {
    var vs := ReadVertices(buf, pos, l, n).value.value;
    forall i | 0 <= i < n
      ensures Shaped(vs[i], l)
    {
      ReadVerticesAt(buf, pos, l, n, i);
    }
  }

  /** In a vertex block that was read, the list of each attribute whose
      flag is set has one entry per vertex, and every other list is empty. */
  lemma ReadVertexDataLengths(buf: seq<Byte>, pos: nat)
    requires ReadVertexData(buf, pos).Ok?
    ensures var d := ReadVertexData(buf, pos).value.value; |d.position| == if d.flags.Position() then d.count else 0
    ensures var d := ReadVertexData(buf, pos).value.value; |d.normal| == if d.flags.Normal() then d.count else 0
    ensures var d := ReadVertexData(buf, pos).value.value; |d.emissive| == if d.flags.VertexEmissive() then d.count else 0
    ensures var d := ReadVertexData(buf, pos).value.value; |d.color| == if d.flags.VertexColor() then d.count else 0
    ensures var d := ReadVertexData(buf, pos).value.value; |d.uv1| == if d.flags.UV1() then d.count else 0
    ensures var d := ReadVertexData(buf, pos).value.value; |d.uv2| == if d.flags.UV2() then d.count else 0
    ensures var d := ReadVertexData(buf, pos).value.value; |d.uv3| == if d.flags.UV3() then d.count else 0
  {
    ReadVertexDataStep(buf, pos);
    var l := BlockLayout(buf, pos);
    var n := BlockCount(buf, pos);
    ReadVerticesShaped(buf, pos + 16, l, n);
    GatherShaped(BlockFlags(buf, pos), n, BlockVertices(buf, pos).value.value, l);
  }

  /** Entry `i` of each decoded list is that attribute of the vertex stored
      `i` strides after the block header, as the reference decoder reads it. */
  lemma ReadVertexDataAt(buf: seq<Byte>, pos: nat, i: nat)
    requires ReadVertexData(buf, pos).Ok? && i < ReadVertexData(buf, pos).value.value.count
    ensures Readable(buf, VertexStart(buf, pos, i), BlockLayout(buf, pos))
    ensures EntryIs(ReadVertexData(buf, pos).value.value, i, VertexAt(buf, VertexStart(buf, pos, i), BlockLayout(buf, pos)))
  {
    ReadVertexDataStep(buf, pos);
    var l := BlockLayout(buf, pos);
    var n := BlockCount(buf, pos);
    var vs := BlockVertices(buf, pos).value.value;
    ReadVerticesShaped(buf, pos + 16, l, n);
    ReadVerticesAt(buf, pos + 16, l, n, i);
    GatherShaped(BlockFlags(buf, pos), n, vs, l);
  }

  // ---------------------------------------------------------------------
  // Index blocks

  /** The triangle of 16-bit indices stored at `at`. */
  function Triangle16At(buf: seq<Byte>, at: nat): Triangle
    requires at + 6 <= |buf|
  {
    Triangle(HalfAt(buf, at), HalfAt(buf, at + 2), HalfAt(buf, at + 4))
  }

  function ReadTriangle16(buf: seq<Byte>, pos: nat): (r: Decoded<Triangle>)
    ensures r.Ok? <==> pos + 6 <= |buf|
    ensures r.Ok? ==> r.value == Parsed(Triangle16At(buf, pos), pos + 6)
    ensures r.Err? ==> r.error.Truncated?
  {
    var a :- ReadU16(buf, pos);
    var b :- ReadU16(buf, a.next);
    var c :- ReadU16(buf, b.next);
    Ok(Parsed(Triangle(a.value, b.value, c.value), c.next))
  }

  function Triangle16Reader(buf: seq<Byte>): nat -> Decoded<Triangle>
  {
    (p: nat) => ReadTriangle16(buf, p)
  }

  lemma Triangle16ReaderSized(buf: seq<Byte>)
    ensures Strided(Triangle16Reader(buf), 6)
    ensures Sized(Triangle16Reader(buf), 6, |buf|)
    ensures FailsTruncated(Triangle16Reader(buf))
  {
  }

  /** An index block: 8 unused bytes, a flat index count, then as many
      whole triangles as the count holds; leftover indices are not read. */
  function ReadIndicesData(buf: seq<Byte>, pos: nat): (r: Decoded<seq<Triangle>>)
    ensures r.Ok? ==> pos + 12 <= |buf| && |r.value.value| == WordAt(buf, pos + 8) / 3
    ensures r.Err? ==> r.error.Truncated?
  {
    var count :- ReadU32(buf, pos + 8);
    Triangle16ReaderSized(buf);
    RepeatFailsTruncated(Triangle16Reader(buf), count.next, count.value / 3);
    Repeat(Triangle16Reader(buf), count.next, count.value / 3)
  }

  /** An index block can be read exactly when its whole triangles fit, and
      then it occupies 12 + 6 * floor(count / 3) bytes. */
  lemma ReadIndicesDataOk(buf: seq<Byte>, pos: nat)
    ensures ReadIndicesData(buf, pos).Ok? <==>
              pos + 12 <= |buf| && pos + 12 + 6 * (WordAt(buf, pos + 8) / 3) <= |buf|
    ensures ReadIndicesData(buf, pos).Ok? ==>
              ReadIndicesData(buf, pos).value.next == pos + 12 + 6 * (WordAt(buf, pos + 8) / 3)
  {
    if pos + 12 <= |buf| {
      var n := WordAt(buf, pos + 8) / 3;
      Triangle16ReaderSized(buf);
      RepeatSizedOk(Triangle16Reader(buf), 6, |buf|, pos + 12, n);
      SpanIsProduct(n, 6);
      if ReadIndicesData(buf, pos).Ok? {
        RepeatNext(Triangle16Reader(buf), 6, pos + 12, n);
      }
    }
  }

  /** Triangle `i` of an index block is the one stored `i` triangles after
      its header. */
  lemma ReadIndicesDataAt(buf: seq<Byte>, pos: nat, i: nat)
    requires ReadIndicesData(buf, pos).Ok? && i < |ReadIndicesData(buf, pos).value.value|
    ensures pos + 12 + 6 * i + 6 <= |buf|
    ensures ReadIndicesData(buf, pos).value.value[i] == Triangle16At(buf, pos + 12 + 6 * i)
  {
    var n := WordAt(buf, pos + 8) / 3;
    Triangle16ReaderSized(buf);
    RepeatAt(Triangle16Reader(buf), 6, pos + 12, n, i);
    SpanIsProduct(i, 6);
  }
}

=== FILE: scx_v4_scene.dfy ===
/** The top level of SCX version 4: an entry table of (type, absolute
    offset) pairs, read in order. Each entry's data is decoded at its
    offset and attached to the most recently opened mesh; the cursor
    returns to the table after every entry.

    Entry types: 0 is a material and always opens a mesh; 1 opens a mesh
    only once a "physics" latch is set, which happens when a type-1 entry
    arrives before any mesh exists and is never reset; 4 is a vertex block
    and 5 an index block, both attached to the current mesh; every other
    type is ignored. */
module ScxV4Scene {
  import opened Results
  import opened Bytes
  import opened ScxV4
  import opened ScxV4Geometry

  /** One row of the entry table. */
  datatype Entry = Entry(kind: U32, offset: U32)

  /** A mesh as the decoder builds it: every part is absent until an entry
      supplies it, and a later entry of the same type replaces it. */
  datatype Mesh = Mesh(material: Option<Material>, vertex: Option<VertexData>, face: Option<seq<Triangle>>)

  const EmptyMesh := Mesh(None, None, None)

  /** The meshes opened so far and the physics latch. */
  datatype State = State(meshes: seq<Mesh>, phys: bool)

  const Start := State([], false)

  /** `meshes` with its last mesh replaced by `m`. */
  function WithLast(meshes: seq<Mesh>, m: Mesh): (r: seq<Mesh>)
    requires |meshes| > 0
    ensures |r| == |meshes| && r[|r| - 1] == m
    ensures forall j :: 0 <= j < |meshes| - 1 ==> r[j] == meshes[j]
  {
    meshes[..|meshes| - 1] + [m]
  }

  /** Whether an entry of type `kind` opens a mesh, given the latch after it. */
  predicate Opens(kind: U32, phys: bool)
  {
    (kind == 1 && phys) || kind == 0
  }

  /** Whether an entry of type `kind` does anything at all. */
  predicate Relevant(kind: U32)
  {
    kind == 0 || kind == 1 || kind == 4 || kind == 5
  }

  /** What the data of an entry decodes to. */
  datatype EntryData =
    | MaterialBlock(material: Material)
    | VertexBlock(vertex: VertexData)
    | IndexBlock(face: seq<Triangle>)
    | NoData

  /** Whether `data` has the shape an entry of type `kind` decodes to. */
  predicate DataFits(kind: U32, data: Result<EntryData, Error>)
  {
    data.Ok? ==>
      && (kind == 0 <==> data.value.MaterialBlock?)
      && (kind == 4 <==> data.value.VertexBlock?)
      && (kind == 5 <==> data.value.IndexBlock?)
  }

  /** The data of an entry, decoded at its offset by the entry's type: a
      material for type 0, a vertex block for type 4, an index block for
      type 5. Nothing is read for any other type. */
  function ReadEntryData(buf: seq<Byte>, e: Entry): (r: Result<EntryData, Error>)
    ensures DataFits(e.kind, r)
    ensures r.Err? <==>
              || (e.kind == 0 && ReadMaterialData(buf, e.offset).Err?)
              || (e.kind == 4 && ReadVertexData(buf, e.offset).Err?)
              || (e.kind == 5 && ReadIndicesData(buf, e.offset).Err?)
    ensures r.Ok? && e.kind == 0 ==> r.value.material == ReadMaterialData(buf, e.offset).value.value
    ensures r.Ok? && e.kind == 4 ==> r.value.vertex == ReadVertexData(buf, e.offset).value.value
    ensures r.Ok? && e.kind == 5 ==> r.value.face == ReadIndicesData(buf, e.offset).value.value
  {
    if e.kind == 0 then
      var m :- ReadMaterialData(buf, e.offset);
      Ok(MaterialBlock(m.value))
    else if e.kind == 4 then
      var v :- ReadVertexData(buf, e.offset);
      Ok(VertexBlock(v.value))
    else if e.kind == 5 then
      var f :- ReadIndicesData(buf, e.offset);
      Ok(IndexBlock(f.value))
    else
      Ok(NoData)
  }

  /** One table entry applied to the state, given what its data decoded
      to: the latch is updated, a mesh may be opened, and the data is
      attached to the last mesh. The data is decoded before the last mesh
      is looked up, so data that cannot be read reports that, and data
      that can but has no mesh to go to reports `NoActiveMesh`. */
  function Attach(st: State, e: Entry, data: Result<EntryData, Error>): (r: Result<State, Error>)
    requires DataFits(e.kind, data)
    ensures r.Err? <==> data.Err? || ((e.kind == 4 || e.kind == 5) && |st.meshes| == 0)
    ensures r.Err? && data.Err? ==> r.error == data.error
    ensures r.Err? && data.Ok? ==> r.error == NoActiveMesh(e.offset)
    ensures r.Ok? ==> r.value.phys == (st.phys || (|st.meshes| == 0 && e.kind == 1))
    ensures r.Ok? ==> |r.value.meshes| == |st.meshes| + (if Opens(e.kind, r.value.phys) then 1 else 0)
    ensures r.Ok? && Opens(e.kind, r.value.phys) ==> forall j :: 0 <= j < |st.meshes| ==> r.value.meshes[j] == st.meshes[j]
    ensures r.Ok? ==> forall j :: 0 <= j < |st.meshes| - 1 ==> r.value.meshes[j] == st.meshes[j]
    ensures r.Ok? && e.kind == 0 ==>
              r.value.meshes[|r.value.meshes| - 1] == EmptyMesh.(material := Some(data.value.material))
    ensures r.Ok? && e.kind == 1 ==>
              r.value.meshes == if Opens(e.kind, r.value.phys) then st.meshes + [EmptyMesh] else st.meshes
    ensures r.Ok? && e.kind == 4 ==>
              |st.meshes| > 0 &&
              r.value.meshes[|st.meshes| - 1] == st.meshes[|st.meshes| - 1].(vertex := Some(data.value.vertex))
    ensures r.Ok? && e.kind == 5 ==>
              |st.meshes| > 0 &&
              r.value.meshes[|st.meshes| - 1] == st.meshes[|st.meshes| - 1].(face := Some(data.value.face))
    ensures r.Ok? && !Relevant(e.kind) ==> r.value == st
  {
    var phys := st.phys || (|st.meshes| == 0 && e.kind == 1);
    var meshes := if Opens(e.kind, phys) then st.meshes + [EmptyMesh] else st.meshes;
    var d :- data;
    if e.kind == 0 then
      Ok(State(WithLast(meshes, meshes[|meshes| - 1].(material := Some(d.material))), phys))
    else if e.kind == 4 then
      if |meshes| == 0 then Err(NoActiveMesh(e.offset))
      else Ok(State(WithLast(meshes, meshes[|meshes| - 1].(vertex := Some(d.vertex))), phys))
    else if e.kind == 5 then
      if |meshes| == 0 then Err(NoActiveMesh(e.offset))
      else Ok(State(WithLast(meshes, meshes[|meshes| - 1].(face := Some(d.face))), phys))
    else
      Ok(State(meshes, phys))
  }

  /** One table entry: its data decoded, then attached. */
  function Step(buf: seq<Byte>, st: State, e: Entry): Result<State, Error>
  {
    Attach(st, e, ReadEntryData(buf, e))
  }

  /** Reference fold: the entries applied one after another. */
  function Group(buf: seq<Byte>, es: seq<Entry>, st: State): Result<State, Error>
    decreases |es|
  {
    if |es| == 0 then Ok(st)
    else
      var st1 :- Step(buf, st, es[0]);
      Group(buf, es[1..], st1)
  }

  // ---------------------------------------------------------------------
  // The table as the decoder walks it

  function EntryAt(buf: seq<Byte>, at: nat): Entry
    requires at + 8 <= |buf|
  {
    Entry(WordAt(buf, at), WordAt(buf, at + 4))
  }

  function ReadEntry(buf: seq<Byte>, pos: nat): (r: Decoded<Entry>)
    ensures r.Ok? <==> pos + 8 <= |buf|
    ensures r.Ok? ==> r.value == Parsed(EntryAt(buf, pos), pos + 8)
    ensures r.Err? ==> r.error.Truncated?
  {
    var kind :- ReadU32(buf, pos);
    var offset :- ReadU32(buf, kind.next);
    Ok(Parsed(Entry(kind.value, offset.value), offset.next))
  }

  /** `n` table rows from `pos`, each read and then applied before the next
      one is read. Applying a row reads its data at the row's absolute
      offset and then seeks back, so the cursor goes on right after the
      row; once every row is applied it stands after the whole table. */
  function Scan(buf: seq<Byte>, pos: nat, n: nat, st: State): (r: Decoded<State>)
    ensures r.Ok? ==> r.value.next == pos + 8 * n
    decreases n
  {
    if n == 0 then Ok(Parsed(st, pos))
    else
      var e :- ReadEntry(buf, pos);
      var st1 :- Step(buf, st, e.value);
      Scan(buf, e.next, n - 1, st1)
  }

  /** Reference table: the `n` rows stored from `pos`. */
  function TableAt(buf: seq<Byte>, pos: nat, n: nat): (r: seq<Entry>)
    requires pos + 8 * n <= |buf|
    ensures |r| == n
    decreases n
  {
    if n == 0 then [] else [EntryAt(buf, pos)] + TableAt(buf, pos + 8, n - 1)
  }

  /** The file body: an entry count, then the table. The meshes come out in
      the order they were opened, and the cursor ends after the table. */
  function ReadScxData(buf: seq<Byte>, pos: nat): (r: Decoded<seq<Mesh>>)
    ensures r.Ok? ==> pos + 4 <= |buf| && r.value.next == pos + 4 + 8 * WordAt(buf, pos)
  {
    var count :- ReadU32(buf, pos);
    var st :- Scan(buf, count.next, count.value, Start);
    Ok(Parsed(st.value.meshes, st.next))
  }

  /** One row of the table, read and applied. */
  lemma ScanStep(buf: seq<Byte>, pos: nat, n: nat, st: State)
    requires n > 0 && pos + 8 <= |buf|
    ensures Scan(buf, pos, n, st) ==
              var r := Step(buf, st, EntryAt(buf, pos));
              if r.Err? then Err(r.error) else Scan(buf, pos + 8, n - 1, r.value)
  {
  }

  lemma GroupStep(buf: seq<Byte>, es: seq<Entry>, st: State)
    requires |es| > 0
    ensures Group(buf, es, st) ==
              var r := Step(buf, st, es[0]);
              if r.Err? then Err(r.error) else Group(buf, es[1..], r.value)
  {
  }

  /** Reading the table row by row while applying it is the same as
      folding over the stored table, whenever the table lies inside the
      data: the same state, or the same error. */
  lemma {:induction false} ScanIsGroup(buf: seq<Byte>, pos: nat, n: nat, st: State)
    requires pos + 8 * n <= |buf|
    ensures Scan(buf, pos, n, st).Ok? <==> Group(buf, TableAt(buf, pos, n), st).Ok?
    ensures Scan(buf, pos, n, st).Ok? ==> Scan(buf, pos, n, st).value.value == Group(buf, TableAt(buf, pos, n), st).value
    ensures Scan(buf, pos, n, st).Err? ==> Scan(buf, pos, n, st).error == Group(buf, TableAt(buf, pos, n), st).error
    decreases n
  {
    if n > 0 {
      var es := TableAt(buf, pos, n);
      assert es[0] == EntryAt(buf, pos);
      assert es[1..] == TableAt(buf, pos + 8, n - 1);
      ScanStep(buf, pos, n, st);
      GroupStep(buf, es, st);
      var r := Step(buf, st, es[0]);
      if r.Ok? {
        ScanIsGroup(buf, pos + 8, n - 1, r.value);
        assert Scan(buf, pos, n, st) == Scan(buf, pos + 8, n - 1, r.value);
        assert Group(buf, es, st) == Group(buf, es[1..], r.value);
      } else {
        assert Scan(buf, pos, n, st) == Err(r.error);
        assert Group(buf, es, st) == Err(r.error);
      }
    }
  }

  /** A table that runs past the end of the data makes the decode fail,
      whatever its readable rows did. */
  lemma {:induction false} ScanFailsWithTable(buf: seq<Byte>, pos: nat, n: nat, st: State)
    requires n > 0 && pos + 8 * n > |buf|
    ensures Scan(buf, pos, n, st).Err?
    decreases n
  {
    if pos + 8 <= |buf| {
      ScanStep(buf, pos, n, st);
      var r := Step(buf, st, EntryAt(buf, pos));
      if r.Ok? {
        ScanFailsWithTable(buf, pos + 8, n - 1, r.value);
      }
    }
  }

  /** The file body decodes exactly when its table lies inside the data and
      the fold over the table succeeds from the start; the meshes are the
      fold's. */
  lemma ReadScxDataIsGroup(buf: seq<Byte>, pos: nat)
    ensures ReadScxData(buf, pos).Ok? <==>
              && pos + 4 <= |buf|
              && pos + 4 + 8 * WordAt(buf, pos) <= |buf|
              && Group(buf, TableAt(buf, pos + 4, WordAt(buf, pos)), Start).Ok?
    ensures ReadScxData(buf, pos).Ok? ==>
              ReadScxData(buf, pos).value.value ==
                Group(buf, TableAt(buf, pos + 4, WordAt(buf, pos)), Start).value.meshes
  {
    if pos + 4 <= |buf| {
      var n: nat := WordAt(buf, pos);
      if pos + 4 + 8 * n <= |buf| {
        ScanIsGroup(buf, pos + 4, n, Start);
      } else {
        ScanFailsWithTable(buf, pos + 4, n, Start);
      }
    }
  }

  // ---------------------------------------------------------------------
  // Properties of the grouping

  /** Entries of type `kind`. */
  function Count(es: seq<Entry>, kind: U32): nat
  {
    if |es| == 0 then 0 else (if es[0].kind == kind then 1 else 0) + Count(es[1..], kind)
  }

  /** Whether the first entry of type 0 or 1 has type 1. */
  predicate FirstOpenerIsOne(es: seq<Entry>)
  {
    if |es| == 0 then false
    else if es[0].kind == 1 then true
    else if es[0].kind == 0 then false
    else FirstOpenerIsOne(es[1..])
  }

  /** The latch after the entries: it was set before, or the entries set it
      while no mesh existed. */
  predicate Latched(st: State, es: seq<Entry>)
  {
    st.phys || (|st.meshes| == 0 && FirstOpenerIsOne(es))
  }

  /** Every type-0 entry opens a mesh, and every type-1 entry does exactly
      when the latch ends up set; the latch ends up as `Latched` says. */
  lemma {:induction false} GroupCount(buf: seq<Byte>, es: seq<Entry>, st: State)
    requires Group(buf, es, st).Ok?
    ensures Group(buf, es, st).value.phys == Latched(st, es)
    ensures |Group(buf, es, st).value.meshes| ==
              |st.meshes| + Count(es, 0) + (if Latched(st, es) then Count(es, 1) else 0)
    decreases |es|
  {
    if |es| > 0 {
      var st1 := Step(buf, st, es[0]).value;
      GroupCount(buf, es[1..], st1);
    }
  }

  /** From the start, a file has as many meshes as type-0 entries, plus as
      many as type-1 entries when a type-1 entry precedes every type-0 one. */
  lemma MeshCount(buf: seq<Byte>, es: seq<Entry>)
    requires Group(buf, es, Start).Ok?
    ensures |Group(buf, es, Start).value.meshes| ==
              Count(es, 0) + (if FirstOpenerIsOne(es) then Count(es, 1) else 0)
  {
    GroupCount(buf, es, Start);
  }

  /** The entries of types 0, 1, 4 and 5, in order. */
  function OnlyRelevant(es: seq<Entry>): (r: seq<Entry>)
    ensures |r| <= |es|
  {
    if |es| == 0 then []
    else (if Relevant(es[0].kind) then [es[0]] else []) + OnlyRelevant(es[1..])
  }

  /** Entries of any other type change nothing: dropping them leaves the
      outcome as it was, success or error. */
  lemma {:induction false} GroupIgnoresIrrelevant(buf: seq<Byte>, es: seq<Entry>, st: State)
    ensures Group(buf, OnlyRelevant(es), st) == Group(buf, es, st)
    decreases |es|
  {
    if |es| > 0 {
      var rest := OnlyRelevant(es[1..]);
      if Relevant(es[0].kind) {
        assert OnlyRelevant(es) == [es[0]] + rest;
        assert (OnlyRelevant(es))[1..] == rest;
        var r := Step(buf, st, es[0]);
        if r.Ok? {
          GroupIgnoresIrrelevant(buf, es[1..], r.value);
        }
      } else {
        assert OnlyRelevant(es) == rest;
        GroupIgnoresIrrelevant(buf, es[1..], st);
      }
    }
  }

  /** A mesh that is no longer the last one is never touched again, and a
      mesh's material is fixed when the mesh opens: vertex and index blocks
      fill in the last mesh without disturbing it. */
  lemma {:induction false} GroupKeepsOpened(buf: seq<Byte>, es: seq<Entry>, st: State)
    requires Group(buf, es, st).Ok?
    ensures |st.meshes| <= |Group(buf, es, st).value.meshes|
    ensures forall j :: 0 <= j < |st.meshes| - 1 ==> Group(buf, es, st).value.meshes[j] == st.meshes[j]
    ensures forall j :: 0 <= j < |st.meshes| ==> Group(buf, es, st).value.meshes[j].material == st.meshes[j].material
    decreases |es|
  {
    if |es| > 0 {
      var st1 := Step(buf, st, es[0]).value;
      GroupKeepsOpened(buf, es[1..], st1);
    }
  }

  /** Whether a vertex or index entry comes before every entry of type 0 or 1. */
  predicate GeometryFirst(es: seq<Entry>)
  {
    if |es| == 0 then false
    else if es[0].kind == 4 || es[0].kind == 5 then true
    else if es[0].kind == 0 || es[0].kind == 1 then false
    else GeometryFirst(es[1..])
  }

  /** With no mesh open, a vertex or index entry arriving before any entry
      that could open one makes the decode fail. */
  lemma {:induction false} GeometryFirstFails(buf: seq<Byte>, es: seq<Entry>, st: State)
    requires |st.meshes| == 0 && GeometryFirst(es)
    ensures Group(buf, es, st).Err?
    decreases |es|
  {
    if !(es[0].kind == 4 || es[0].kind == 5) {
      GeometryFirstFails(buf, es[1..], st);
    }
  }
}

=== FILE: tex_list.dfy ===
/** The ".tex" sidecar that lists a model's texture files, one per line.
    The text is split into lines the way a text-mode read does it, each
    line contributes the first whitespace-delimited token (or the part of
    it after a ">>>>>" marker), and the first blank line ends the list.
    Decoding the file is an abstract, possibly failing step, retried with
    the next encoding in a fixed order. */
module TexList {
  import opened Results
  import opened Bytes

  // ---------------------------------------------------------------------
  // Lines

  /** Text-mode newline translation: "\r\n" and a lone "\r" both read as
      "\n". */
  function Universal(t: string): (r: string)
    ensures '\r' !in r
    ensures |r| <= |t|
    decreases |t|
  {
    if |t| == 0 then []
    else if t[0] == '\r' then
      if |t| >= 2 && t[1] == '\n' then ['\n'] + Universal(t[2..]) else ['\n'] + Universal(t[1..])
    else [t[0]] + Universal(t[1..])
  }

  /** The lines of a text, in order. */
  function Flatten(ls: seq<string>): string
  {
    if |ls| == 0 then [] else ls[0] + Flatten(ls[1..])
  }

  /** Length of the first line of `t`: up to and including the first "\n",
      or all of `t`. */
  function LineEnd(t: string): (k: nat)
    requires |t| > 0
    ensures 0 < k <= |t|
    ensures forall j :: 0 <= j < k - 1 ==> t[j] != '\n'
    ensures k < |t| ==> t[k - 1] == '\n'
    decreases |t|
  {
    if t[0] == '\n' || |t| == 1 then 1 else 1 + LineEnd(t[1..])
  }

  /** Whether `line` is a well-formed line: non-empty, with a "\n" at most
      as its last character. */
  predicate LineShaped(line: string)
  {
    |line| > 0 && forall j :: 0 <= j < |line| - 1 ==> line[j] != '\n'
  }

  /** A text split into lines that keep their "\n": concatenated they give
      back the text, and every line but the last ends in "\n". */
  function SplitLines(t: string): (r: seq<string>)
    ensures Flatten(r) == t
    ensures forall i :: 0 <= i < |r| ==> LineShaped(r[i])
    ensures forall i :: 0 <= i < |r| - 1 ==> |r[i]| > 0 && r[i][|r[i]| - 1] == '\n'
    decreases |t|
  {
    if |t| == 0 then []
    else
      var k := LineEnd(t);
      assert t == t[..k] + t[k..];
      [t[..k]] + SplitLines(t[k..])
  }

  /** Where the first line break of `t` starts: the first "\r" or "\n",
      or the end of `t`. */
  function BreakStart(t: string): (k: nat)
    ensures k <= |t|
    ensures forall j :: 0 <= j < k ==> t[j] != '\r' && t[j] != '\n'
    ensures k < |t| ==> t[k] == '\r' || t[k] == '\n'
    decreases |t|
  {
    if |t| == 0 || t[0] == '\r' || t[0] == '\n' then 0 else 1 + BreakStart(t[1..])
  }

  /** Reference splitter: the lines of `t` where each "\r\n", lone "\r"
      and "\n" ends a line, every line ending in "\n" except a final
      unterminated one. */
  function BrokenLines(t: string): seq<string>
    decreases |t|
  {
    if |t| == 0 then []
    else
      var k := BreakStart(t);
      if k == |t| then [t]
      else
        var width := if t[k] == '\r' && k + 1 < |t| && t[k + 1] == '\n' then 2 else 1;
        [t[..k] + "\n"] + BrokenLines(t[k + width..])
  }

  /** Characters before the first "\r" pass through unchanged. */
  lemma {:induction false} UniversalKeeps(t: string, k: nat)
    requires k <= |t| && forall j :: 0 <= j < k ==> t[j] != '\r'
    ensures Universal(t) == t[..k] + Universal(t[k..])
    decreases k
  {
    if k > 0 {
      UniversalKeeps(t[1..], k - 1);
      assert t[1..][..k - 1] == t[1..k];
      assert t[1..][k - 1..] == t[k..];
      assert t[..k] == [t[0]] + t[1..k];
    }
  }

  /** A text whose first line ends in "\n" splits off that line first. */
  lemma SplitLinesFirst(x: string, y: string)
    requires forall j :: 0 <= j < |x| ==> x[j] != '\n'
    ensures SplitLines(x + "\n" + y) == [x + "\n"] + SplitLines(y)
  {
    var t := x + "\n" + y;
    var k := LineEnd(t);
    assert t[|x|] == '\n';
    assert forall j :: 0 <= j < |x| ==> t[j] == x[j];
    assert k == |x| + 1;
    assert t[..k] == x + "\n";
    assert t[k..] == y;
  }

  /** A non-empty text without "\n" is a single line. */
  lemma SplitLinesSingle(t: string)
    requires |t| > 0 && forall j :: 0 <= j < |t| ==> t[j] != '\n'
    ensures SplitLines(t) == [t]
  {
    var k := LineEnd(t);
    assert k == |t|;
    assert t[..k] == t;
  }

  /** After newline translation the text splits at exactly the line breaks
      of the original: "\r\n", a lone "\r" and "\n" each end one line,
      and every other character is kept where it was. */
  lemma {:induction false} UniversalLines(t: string)
    ensures SplitLines(Universal(t)) == BrokenLines(t)
    decreases |t|
  {
    if |t| > 0 {
      var k := BreakStart(t);
      UniversalKeeps(t, k);
      if k == |t| {
        assert t[k..] == [];
        assert t[..k] == t;
        SplitLinesSingle(t);
      } else {
        var width := if t[k] == '\r' && k + 1 < |t| && t[k + 1] == '\n' then 2 else 1;
        var rest := t[k + width..];
        var tail := t[k..];
        assert tail[0] == t[k];
        if width == 2 {
          assert tail[1] == '\n';
          assert tail[2..] == rest;
        } else {
          assert tail[1..] == rest;
        }
        assert Universal(tail) == "\n" + Universal(rest);
        assert Universal(t) == t[..k] + "\n" + Universal(rest);
        SplitLinesFirst(t[..k], Universal(rest));
        UniversalLines(rest);
      }
    }
  }

  // ---------------------------------------------------------------------
  // One line

  /** Characters the line splitter treats as whitespace: the ASCII controls
      tab to carriage return, the file/group/record/unit separators, the
      space, and the Unicode spaces and line/paragraph separators. */
  predicate IsSpace(c: char)
  {
    || c == ' ' || '\t' <= c <= '\r' || '\U{1C}' <= c <= '\U{1F}'
    || c == '\U{85}' || c == '\U{A0}' || c == '\U{1680}' || '\U{2000}' <= c <= '\U{200A}'
    || c == '\U{2028}' || c == '\U{2029}' || c == '\U{202F}' || c == '\U{205F}' || c == '\U{3000}'
  }

  predicate IsNewline(c: char)
  {
    c == '\r' || c == '\n'
  }

  /** The line with leading "\r" and "\n" characters removed. */
  function DropLeadingNewlines(s: string): (r: string)
    ensures |r| <= |s| && r == s[|s| - |r|..]
    ensures forall j :: 0 <= j < |s| - |r| ==> IsNewline(s[j])
    ensures |r| > 0 ==> !IsNewline(r[0])
  {
    if |s| > 0 && IsNewline(s[0]) then DropLeadingNewlines(s[1..]) else s
  }

  /** The line with trailing "\r" and "\n" characters removed. */
  function DropTrailingNewlines(s: string): (r: string)
    ensures |r| <= |s| && r == s[..|r|]
    ensures forall j :: |r| <= j < |s| ==> IsNewline(s[j])
    ensures |r| > 0 ==> !IsNewline(r[|r| - 1])
  {
    if |s| > 0 && IsNewline(s[|s| - 1]) then DropTrailingNewlines(s[..|s| - 1]) else s
  }

  /** The line stripped of "\r" and "\n" at both ends. */
  function StripNewlines(s: string): string
  {
    DropTrailingNewlines(DropLeadingNewlines(s))
  }

  /** The line from its first non-whitespace character on. */
  function SkipSpaces(s: string): (r: string)
    ensures |r| <= |s| && r == s[|s| - |r|..]
    ensures |r| > 0 ==> !IsSpace(r[0])
  {
    if |s| > 0 && IsSpace(s[0]) then SkipSpaces(s[1..]) else s
  }

  /** Everything `SkipSpaces` drops is whitespace. */
  lemma {:induction false} SkipSpacesDropsSpaces(s: string)
    ensures forall j :: 0 <= j < |s| - |SkipSpaces(s)| ==> IsSpace(s[j])
    decreases |s|
  {
    if |s| > 0 && IsSpace(s[0]) {
      SkipSpacesDropsSpaces(s[1..]);
      forall j | 1 <= j < |s| - |SkipSpaces(s)|
        ensures IsSpace(s[j])
      {
        assert s[j] == s[1..][j - 1];
      }
    }
  }

  predicate NoSpace(s: string)
  {
    forall j :: 0 <= j < |s| ==> !IsSpace(s[j])
  }

  /** The longest prefix without whitespace. */
  function Word(s: string): (r: string)
    ensures |r| <= |s| && r == s[..|r|]
    ensures |r| < |s| ==> IsSpace(s[|r|])
  {
    if |s| == 0 || IsSpace(s[0]) then [] else [s[0]] + Word(s[1..])
  }

  lemma {:induction false} WordNoSpace(s: string)
    ensures NoSpace(Word(s))
    decreases |s|
  {
    if |s| > 0 && !IsSpace(s[0]) {
      WordNoSpace(s[1..]);
      assert Word(s) == [s[0]] + Word(s[1..]);
    }
  }

  /** The first whitespace-delimited token of a line, if any. */
  function FirstToken(s: string): Option<string>
  {
    var t := SkipSpaces(s);
    if |t| == 0 then None else Some(Word(t))
  }

  /** A line has no token exactly when it is all whitespace. */
  lemma FirstTokenNone(s: string)
    ensures FirstToken(s).None? <==> forall j :: 0 <= j < |s| ==> IsSpace(s[j])
  {
    var t := SkipSpaces(s);
    SkipSpacesDropsSpaces(s);
    if |t| > 0 {
      assert !IsSpace(s[|s| - |t|]);
    }
  }

  /** A token is non-empty, holds no whitespace, follows only whitespace,
      and is followed by the end of the line or by whitespace. */
  lemma FirstTokenSome(s: string)
    requires FirstToken(s).Some?
    ensures var t := FirstToken(s).value;
      var k := |s| - |SkipSpaces(s)|;
      && |t| > 0
      && (forall j :: 0 <= j < |t| ==> !IsSpace(t[j]))
      && (forall j :: 0 <= j < k ==> IsSpace(s[j]))
      && k + |t| <= |s| && s[k..k + |t|] == t
      && (k + |t| == |s| || IsSpace(s[k + |t|]))
  {
    SkipSpacesDropsSpaces(s);
    WordNoSpace(SkipSpaces(s));
    FirstTokenNonEmpty(s);
    FirstTokenPlace(s);
  }

  lemma FirstTokenNonEmpty(s: string)
    requires FirstToken(s).Some?
    ensures |FirstToken(s).value| > 0
  {
    var t := SkipSpaces(s);
    assert !IsSpace(t[0]);
  }

  /** The token is the word where the leading whitespace ends. */
  lemma FirstTokenPlace(s: string)
    requires FirstToken(s).Some?
    ensures var t := FirstToken(s).value;
      var k := |s| - |SkipSpaces(s)|;
      && k + |t| <= |s| && s[k..k + |t|] == t
      && (k + |t| == |s| || IsSpace(s[k + |t|]))
  {
    var k := |s| - |SkipSpaces(s)|;
    TokenAt(s, k);
  }

  /** The word starting at `k` lies in the line and ends at its end or at
      whitespace. */
  lemma TokenAt(s: string, k: nat)
    requires k <= |s|
    ensures var w := Word(s[k..]);
      && k + |w| <= |s| && s[k..k + |w|] == w
      && (k + |w| == |s| || IsSpace(s[k + |w|]))
  {
    var t := s[k..];
    var w := Word(t);
    assert s[k..k + |w|] == t[..|w|];
    if k + |w| < |s| {
      assert s[k + |w|] == t[|w|];
    }
  }

  lemma {:induction false} WordAppend(a: string, tail: string)
    requires |tail| == 0 || IsSpace(tail[0])
    ensures Word(a + tail) == Word(a)
    decreases |a|
  {
    if |a| > 0 && !IsSpace(a[0]) {
      assert (a + tail)[1..] == a[1..] + tail;
      WordAppend(a[1..], tail);
    }
  }

  /** Trailing whitespace never changes the first token. */
  lemma {:induction false} FirstTokenAppendSpaces(a: string, tail: string)
    requires forall j :: 0 <= j < |tail| ==> IsSpace(tail[j])
    ensures FirstToken(a + tail) == FirstToken(a)
    decreases |a|
  {
    if |a| == 0 {
      assert a + tail == tail;
      SkipSpacesAll(tail);
    } else if IsSpace(a[0]) {
      assert (a + tail)[1..] == a[1..] + tail;
      FirstTokenAppendSpaces(a[1..], tail);
    } else {
      WordAppend(a, tail);
    }
  }

  lemma {:induction false} SkipSpacesAll(s: string)
    requires forall j :: 0 <= j < |s| ==> IsSpace(s[j])
    ensures SkipSpaces(s) == []
    decreases |s|
  {
    if |s| > 0 {
      SkipSpacesAll(s[1..]);
    }
  }

  /** Leading newlines never change the first token. */
  lemma {:induction false} FirstTokenDropLeading(s: string)
    ensures FirstToken(DropLeadingNewlines(s)) == FirstToken(s)
    decreases |s|
  {
    if |s| > 0 && IsNewline(s[0]) {
      FirstTokenDropLeading(s[1..]);
    }
  }

  /** Trailing newlines never change the first token. */
  lemma {:induction false} FirstTokenDropTrailing(s: string)
    ensures FirstToken(DropTrailingNewlines(s)) == FirstToken(s)
    decreases |s|
  {
    if |s| > 0 && IsNewline(s[|s| - 1]) {
      var init := s[..|s| - 1];
      assert DropTrailingNewlines(s) == DropTrailingNewlines(init);
      FirstTokenDropTrailing(init);
      assert init + [s[|s| - 1]] == s;
      FirstTokenSnoc(init, s[|s| - 1]);
    }
  }

  lemma FirstTokenSnoc(s: string, c: char)
    requires IsSpace(c)
    ensures FirstToken(s + [c]) == FirstToken(s)
  {
    FirstTokenAppendSpaces(s, [c]);
  }

  /** Stripping "\r" and "\n" from the ends of a line, as the importer does
      before splitting it, never changes its first token: both are
      whitespace. */
  lemma StripKeepsFirstToken(s: string)
    ensures FirstToken(StripNewlines(s)) == FirstToken(s)
  {
    FirstTokenDropTrailing(DropLeadingNewlines(s));
    FirstTokenDropLeading(s);
  }

  // ---------------------------------------------------------------------
  // The marker

  /** The separator between a source path and the texture name. */
  const Marker: string := ">>>>>"

  predicate MarkerAt(s: string, j: nat)
  {
    j + |Marker| <= |s| && s[j..j + |Marker|] == Marker
  }

  /** The first occurrence of the marker at or after `from`. */
  function FindMarker(s: string, from: nat): (r: Option<nat>)
    ensures r.Some? ==> from <= r.value && MarkerAt(s, r.value)
    ensures r.Some? ==> forall j :: from <= j < r.value ==> !MarkerAt(s, j)
    ensures r.None? ==> forall j :: from <= j ==> !MarkerAt(s, j)
    decreases |s| - from
  {
    if from + |Marker| > |s| then None
    else if MarkerAt(s, from) then Some(from)
    else FindMarker(s, from + 1)
  }

  /** The texture name a token gives: the text after the first marker, or
      the whole token when it has none. */
  function AfterMarker(token: string): (r: string)
    ensures |r| <= |token| && r == token[|token| - |r|..]
  {
    match FindMarker(token, 0)
    case Some(j) => token[j + |Marker|..]
    case None => token
  }

  /** The name splits the token at its first marker, or is the token. */
  lemma AfterMarkerSpec(token: string)
    ensures (forall j :: 0 <= j ==> !MarkerAt(token, j)) ==> AfterMarker(token) == token
    ensures forall j: nat :: MarkerAt(token, j) && (forall i :: 0 <= i < j ==> !MarkerAt(token, i)) ==>
              token == token[..j] + Marker + AfterMarker(token)
  {
    forall j: nat | MarkerAt(token, j) && (forall i :: 0 <= i < j ==> !MarkerAt(token, i))
      ensures token == token[..j] + Marker + AfterMarker(token)
    {
      var f := FindMarker(token, 0);
      assert f.Some? && f.value == j;
      assert token == token[..j] + token[j..j + |Marker|] + token[j + |Marker|..];
    }
  }

  // ---------------------------------------------------------------------
  // The list

  /** The name a line contributes, or `None` for a blank line. */
  function LineName(line: string): Option<string>
  {
    match FirstToken(StripNewlines(line))
    case None => None
    case Some(token) => Some(AfterMarker(token))
  }

  /** The names up to the first missing one. */
  function TakeNames(names: seq<Option<string>>): (r: seq<string>)
    ensures |r| <= |names|
    ensures forall i :: 0 <= i < |r| ==> names[i] == Some(r[i])
    ensures |r| < |names| ==> names[|r|].None?
  {
    if |names| == 0 || names[0].None? then [] else [names[0].value] + TakeNames(names[1..])
  }

  /** `f` applied to every line. */
  function MapLines(f: string -> Option<string>, lines: seq<string>): (r: seq<Option<string>>)
    ensures |r| == |lines| && forall i :: 0 <= i < |lines| ==> r[i] == f(lines[i])
  {
    seq(|lines|, i requires 0 <= i < |lines| => f(lines[i]))
  }

  /** The names of the lines up to the first blank one: one per line, in
      line order. */
  function ParseLines(lines: seq<string>): (r: seq<string>)
    ensures |r| <= |lines|
    ensures forall i :: 0 <= i < |r| ==> LineName(lines[i]) == Some(r[i])
    ensures |r| < |lines| ==> LineName(lines[|r|]).None?
  {
    TakeNames(MapLines(LineName, lines))
  }

  /** A line is blank, and ends the list, exactly when it is all
      whitespace. */
  lemma LineNameNone(line: string)
    ensures LineName(line).None? <==> forall j :: 0 <= j < |line| ==> IsSpace(line[j])
  {
    StripKeepsFirstToken(line);
    FirstTokenNone(line);
  }

  lemma AfterMarkerNoSpace(token: string)
    requires NoSpace(token)
    ensures NoSpace(AfterMarker(token))
  {
    var n := AfterMarker(token);
    forall j | 0 <= j < |n|
      ensures !IsSpace(n[j])
    {
      assert n[j] == token[|token| - |n| + j];
    }
  }

  /** A name holds no whitespace: it is the tail of a token. */
  lemma LineNameNoSpace(line: string)
    requires LineName(line).Some?
    ensures NoSpace(LineName(line).value)
  {
    var t := FirstToken(StripNewlines(line));
    WordNoSpace(SkipSpaces(StripNewlines(line)));
    AfterMarkerNoSpace(t.value);
  }

  lemma {:induction false} TakeNamesStops(names: seq<Option<string>>, more: seq<Option<string>>, k: nat)
    requires k < |names| && names[k].None?
    ensures TakeNames(names + more) == TakeNames(names)
    decreases k
  {
    assert (names + more)[0] == names[0];
    if k > 0 && names[0].Some? {
      assert (names + more)[1..] == names[1..] + more;
      TakeNamesStops(names[1..], more, k - 1);
    }
  }

  lemma MapLinesAppend(f: string -> Option<string>, a: seq<string>, b: seq<string>)
    ensures MapLines(f, a + b) == MapLines(f, a) + MapLines(f, b)
  {
    var l, r := MapLines(f, a + b), MapLines(f, a) + MapLines(f, b);
    forall i | 0 <= i < |l|
      ensures l[i] == r[i]
    {
      if i < |a| {
        assert (a + b)[i] == a[i];
      } else {
        assert (a + b)[i] == b[i - |a|];
      }
    }
  }

  /** Lines after the first blank one are ignored. */
  lemma ParseLinesStopsAtBlank(lines: seq<string>, more: seq<string>, k: nat)
    requires k < |lines| && LineName(lines[k]).None?
    ensures ParseLines(lines + more) == ParseLines(lines)
  {
    MapLinesAppend(LineName, lines, more);
    TakeNamesStops(MapLines(LineName, lines), MapLines(LineName, more), k);
  }

  // ---------------------------------------------------------------------
  // Encodings

  datatype Encoding = Utf8 | Ansi | Cp1251

  /** The encoding tried after a decoding error in `e`, if any. */
  function Fallback(e: Encoding): Option<Encoding>
  {
    match e
    case Utf8 => Some(Ansi)
    case Ansi => Some(Cp1251)
    case Cp1251 => None
  }

  function Rank(e: Encoding): nat
  {
    match e
    case Utf8 => 2
    case Ansi => 1
    case Cp1251 => 0
  }

  /** The names of the sidecar whose bytes are `data`, read as text in
      encoding `e`; `decode` stands for text decoding and fails on bytes
      the encoding rejects. A missing sidecar gives no names. */
  function ReadTexList(isFile: bool, data: seq<Byte>, decode: (Encoding, seq<Byte>) -> Option<string>, e: Encoding): seq<string>
    decreases Rank(e)
  {
    if !isFile then []
    else match decode(e, data)
      case Some(text) => ParseLines(SplitLines(Universal(text)))
      case None =>
        match Fallback(e)
        case Some(next) => ReadTexList(isFile, data, decode, next)
        case None => []
  }

  /** The order in which encodings are tried. */
  const Order: seq<Encoding> := [Utf8, Ansi, Cp1251]

  /** Reference rule: the first encoding of `order` that decodes. */
  function FirstDecoding(order: seq<Encoding>, data: seq<Byte>, decode: (Encoding, seq<Byte>) -> Option<string>): (r: Option<nat>)
    ensures r.Some? ==> r.value < |order| && decode(order[r.value], data).Some?
    ensures r.Some? ==> forall j :: 0 <= j < r.value ==> decode(order[j], data).None?
    ensures r.None? ==> forall j :: 0 <= j < |order| ==> decode(order[j], data).None?
  {
    if |order| == 0 then None
    else if decode(order[0], data).Some? then Some(0)
    else match FirstDecoding(order[1..], data, decode)
      case Some(i) => Some(i + 1)
      case None => None
  }

  /** Reading from UTF-8 yields the names of the first encoding, in the
      order UTF-8, ANSI, cp1251, that decodes the sidecar, and no names
      when none does; a missing sidecar yields no names. */
  lemma ReadTexListFallback(isFile: bool, data: seq<Byte>, decode: (Encoding, seq<Byte>) -> Option<string>)
    ensures !isFile ==> ReadTexList(isFile, data, decode, Utf8) == []
    ensures isFile ==>
              ReadTexList(isFile, data, decode, Utf8) ==
                match FirstDecoding(Order, data, decode)
                case Some(i) => ParseLines(SplitLines(Universal(decode(Order[i], data).value)))
                case None => []
  {
    var f := FirstDecoding(Order, data, decode);
    assert Order[0] == Utf8 && Order[1] == Ansi && Order[2] == Cp1251;
    if f.Some? {
      assert f.value == 0 || f.value == 1 || f.value == 2;
    }
  }
}

=== FILE: texture_name.dfy ===
/** The name under which a material's texture is looked up: the stem of
    the sidecar entry the map index selects, or, when the sidecar has no
    such entry, a name built from the material name and the index as
    eight hexadecimal digits, lower-cased. */
module TextureName {
  import opened Bytes

  // ---------------------------------------------------------------------
  // Hexadecimal

  function Pow16(k: nat): (r: nat)
    ensures r > 0
  {
    if k == 0 then 1 else 16 * Pow16(k - 1)
  }

  /** Upper-case hexadecimal digit, as the index is formatted. */
  function HexDigit(d: nat): (c: char)
    requires d < 16
  {
    if d < 10 then ('0' as int + d) as char else ('A' as int + d - 10) as char
  }

  /** The value of a hexadecimal digit of either case. */
  function DigitValue(c: char): (d: nat)
    ensures d < 16
  {
    if '0' <= c <= '9' then c as int - '0' as int
    else if 'a' <= c <= 'f' then c as int - 'a' as int + 10
    else if 'A' <= c <= 'F' then c as int - 'A' as int + 10
    else 0
  }

  predicate IsHexDigit(c: char)
  {
    '0' <= c <= '9' || 'a' <= c <= 'f' || 'A' <= c <= 'F'
  }

  /** The lowest `width` hexadecimal digits of `n`, most significant
      first, zero-padded. */
  function HexDigits(n: nat, width: nat): (r: string)
    ensures |r| == width
    ensures forall i :: 0 <= i < |r| ==> IsHexDigit(r[i]) && !('a' <= r[i] <= 'z')
  {
    if width == 0 then [] else HexDigits(n / 16, width - 1) + [HexDigit(n % 16)]
  }

  /** The number a string of hexadecimal digits denotes. */
  function ParseHex(s: string): nat
  {
    if |s| == 0 then 0 else 16 * ParseHex(s[..|s| - 1]) + DigitValue(s[|s| - 1])
  }

  lemma {:induction false} ParseHexDigits(n: nat, width: nat)
    requires n < Pow16(width)
    ensures ParseHex(HexDigits(n, width)) == n
  {
    if width > 0 {
      var s := HexDigits(n, width);
      assert s[..|s| - 1] == HexDigits(n / 16, width - 1);
      ParseHexDigits(n / 16, width - 1);
      var d := n % 16;
      assert DigitValue(HexDigit(d)) == d;
    }
  }

  /** The index as eight hexadecimal digits. */
  function Hex8(index: U32): (r: string)
    ensures |r| == 8 && ParseHex(r) == index as int
  {
    assert Pow16(8) == 0x1_0000_0000;
    ParseHexDigits(index as int, 8);
    HexDigits(index as int, 8)
  }

  // ---------------------------------------------------------------------
  // Lower case

  function LowerChar(c: char): (l: char)
    ensures !('A' <= l <= 'Z')
  {
    if 'A' <= c <= 'Z' then (c as int - 'A' as int + 'a' as int) as char else c
  }

  function Lower(s: string): (r: string)
    ensures |r| == |s| && forall i :: 0 <= i < |s| ==> r[i] == LowerChar(s[i])
  {
    seq(|s|, i requires 0 <= i < |s| => LowerChar(s[i]))
  }

  lemma LowerConcat(a: string, b: string)
    ensures Lower(a + b) == Lower(a) + Lower(b)
  {
  }

  lemma DigitValueLower(c: char)
    requires IsHexDigit(c)
    ensures DigitValue(LowerChar(c)) == DigitValue(c)
  {
  }

  /** Lower-casing keeps a digit's value. */
  lemma {:induction false} ParseHexLower(s: string)
    requires forall i :: 0 <= i < |s| ==> IsHexDigit(s[i])
    ensures ParseHex(Lower(s)) == ParseHex(s)
    decreases |s|
  {
    if |s| > 0 {
      var l := Lower(s);
      var init := s[..|s| - 1];
      assert l[..|s| - 1] == Lower(init);
      ParseHexLower(init);
      DigitValueLower(s[|s| - 1]);
      assert ParseHex(l) == 16 * ParseHex(Lower(init)) + DigitValue(LowerChar(s[|s| - 1]));
    }
  }

  // ---------------------------------------------------------------------
  // The rule

  /** The name used when the sidecar does not list the index. */
  function FallbackName(material: string, index: U32): string
  {
    Lower(material + "_0x" + Hex8(index))
  }

  /** The fallback name is the lower-cased material name, "_0x", and
      eight lower-case digits from which the index can be read back. */
  lemma FallbackNameShape(material: string, index: U32)
    ensures var r := FallbackName(material, index);
      && |r| == |material| + 11
      && r[..|material|] == Lower(material)
      && r[|material|..|material| + 3] == "_0x"
      && ParseHex(r[|material| + 3..]) == index as int
      && forall i :: 0 <= i < |r| ==> !('A' <= r[i] <= 'Z')
  {
    var h := Hex8(index);
    LowerConcat(material + "_0x", h);
    LowerConcat(material, "_0x");
    ParseHexLower(h);
    var r := FallbackName(material, index);
    assert r[|material| + 3..] == Lower(h);
  }

  /** The texture name for map `index` of a material: the stem of sidecar
      entry `index` when the sidecar has one, else the fallback name.
      `stem` stands for taking a path's final component without its
      suffix. */
  function TextureName(index: U32, texList: seq<string>, material: string, stem: string -> string): (r: string)
    ensures index as int < |texList| ==> r == stem(texList[index])
    ensures index as int >= |texList| ==> r == FallbackName(material, index)
  {
    if |texList| > 0 && |texList| > index as int then stem(texList[index]) else FallbackName(material, index)
  }
}
